=== FILE: README.md ===
# Triangle Tots: a Dafny model of the ranking and interaction core

Triangle Tots lists places and events for small children around the
Research Triangle. This project models the parts that decide what a family
sees and how their feedback is kept:

- **HoursParser**: reads one day's hours string ("closed", "dawn - dusk",
  "10:00 AM - 6:00 PM") into today's opening and closing minutes. It answers
  "open now?", "opens within N hours?" and "closes within N hours?", and
  prints times the way `strftime("%-I:%M %p")` does.
- **WeatherService**: counts the forecast hours with more than a 60% chance
  of rain. It maps that count to one of three strategies: hide outdoor
  places, push them down the list, or change nothing.
- **ActivityFilter**: builds the "Now" feed from what is open or opening
  within two hours, filtered by the weather. When nothing survives, it falls
  back to up to ten places that open later today or tomorrow.
- **RecommendationScorer**: scores each activity from five things: distance,
  thumbs up/down, how recently it was done, weather, and variety. Recently
  completed activities are dropped. The list is sorted by score. When no
  single type dominates, the top six are rescored with a penalty for
  repeating a type, and the list is sorted again.
- **ActivitiesController**: the `index` action. It picks the interactions
  (database rows for a signed-in user, the browser's copy for an anonymous
  one) and drops an anonymous user's thumbs-down activities. It then builds
  the "now", "weekend" or "all" view and sorts it.
- **Activities**: the Activity record's type enum and its validation rules.
- **The interaction stores**, all keeping the same per-activity record
  (rating, completions, last completion):
  - the native app's store (`InteractionStore`);
  - the browser's localStorage copy (`InteractionController`);
  - the signed-in user's rows, written by `rate`, `mark_done` and `import`
    (`UserInteractions`);
  - the native-app sync endpoint that merges the app's store into those rows
    (`NativeStorage`).
- **EventContentParser** and **EventImporter**: turn a scraped event page
  into an event activity. This covers:
  - the name with its date suffix cut off;
  - the cost level from "free" and dollar amounts;
  - the description as the first four kept paragraphs, capped at 500 words;
  - the end time from "from X to Y p.m.";
  - the activity type from the categories;
  - indoor or outdoor from keywords;
  - the two-hour default end.

Times are whole seconds since the epoch (`Instant`). Inside HoursParser a
time of day is a count of minutes after midnight. A client timestamp that
may fail to parse is a `RawTime`. Distances are `real` miles. Everything the
code reads from the clock, the database, the network or another class is
passed in as a parameter. Collaborators whose code is not part of this model
are passed in as function-valued parameters and are given no bodies:
`open_at?`, `opens_within?`, `distance_from` and the date of a start time.
`filter_for_weekend` and `filter_by_distance` are taken to be
order-preserving selections, each by a per-activity test passed in as a
parameter.

## Model

| member | source | states |
|---|---|---|
| Activities.Cast | app/models/activity.rb:3-15 | Assigning a string to the type accepts exactly the enum's keys and stored values. Any accepted string is the key or stored value of the type it yields. |
| Activities.CastRoundTrip | app/models/activity.rb:3-15 | Every type reads back from its stored value and from its key (`class_activity`/`class`). So no two types share a stored value. |
| Activities.Errors | app/models/activity.rb:18-37 | The error list is empty exactly when the record is valid: a name, a type, a cost level 0..3, and for an event a start and an end not before it, or for a place non-blank hours. |
| Activities.EventEndBoundary | app/models/activity.rb:31-37 | An event that ends earlier than it starts is invalid. One that ends exactly at its start passes, given its other fields are valid. |
| WeatherService.RainyHours | app/services/weather_service.rb:30-32 | The count of rainy hours is at most the forecast length. It is zero exactly when no hour exceeds the threshold, and equals the length exactly when every hour does. |
| WeatherService.RainyHoursAppend | app/services/weather_service.rb:30-32 | The count is additive over a split of the forecast. |
| WeatherService.AnalyzeRainForecast | app/services/weather_service.rb:26-41 | An empty forecast is normal. Hiding happens exactly when more than 3 hours are rainy, and deprioritising exactly when 1 to 3 are. The result is normal exactly when every hour is at or below 60%. |
| WeatherService.ThresholdIsStrict | app/services/weather_service.rb:6-7 | Exactly 60% is not rain and 61% is. Four rainy hours hide outdoor places. |
| WeatherService.Severity | app/services/weather_service.rb:34-40 | Ranks the strategies: 0 is normal only, 2 is hide only. |
| WeatherService.ClassifyMonotone | app/services/weather_service.rb:34-40 | More rainy hours never give a milder strategy. |
| WeatherService.AnalyzeMonotone | app/services/weather_service.rb:26-41 | Extending a forecast never gives a milder strategy. |
| WeatherService.DefaultWeatherResponse | app/services/weather_service.rb:109-124 | The fallback response has no forecast and the normal strategy. |
| WeatherService.DefaultIsNormal | app/services/weather_service.rb:18-21 | When fetching fails, analysing the fallback's forecast agrees with the strategy the fallback already carries. |
| ActivityFilter.ApplyWeatherFilter | app/services/activity_filter.rb:25-36 | Under heavy rain, every indoor activity keeps all its copies and nothing outdoor remains. Otherwise the list is unchanged. The result is always a subsequence of the input. |
| ActivityFilter.WillOpenTomorrow | app/services/activity_filter.rb:52-63 | True exactly when tomorrow's hours exist and yield an opening time. The blank/"closed" guard is implied by the parser. |
| ActivityFilter.RelaxFilters | app/services/activity_filter.rb:40-49 | At most ten activities, each not open now but opening within 12 hours or tomorrow, in input order. Not empty when any activity opens later. An activity that opens later is left out only when ten such activities come before it. |
| ActivityFilter.FilterForNow | app/services/activity_filter.rb:4-19 | The feed is a subsequence of the input. |
| ActivityFilter.FilterForNowCases | app/services/activity_filter.rb:4-19 | If something passes the time and weather filters, the feed is exactly those activities: each is open or opening soon, and indoor under heavy rain. Otherwise the feed is the relaxed list: at most ten activities, each opening later. |
| ActivityFilter.RelaxationIgnoresWeather | app/services/activity_filter.rb:14-18 | Under heavy rain, an outdoor park that opens tomorrow is still offered when nothing passes the filters. |
| RecommendationScorer.Lookup | app/services/recommendation_scorer.rb:41 | An activity has a signal exactly when its decimal id is a key of the interactions. |
| RecommendationScorer.DaysSinceCompletion | app/services/recommendation_scorer.rb:80-90 | Defined exactly for a present, parseable timestamp; it is then the elapsed seconds divided by 86400. Nil and unparseable stamps count as infinitely long ago. |
| RecommendationScorer.CompletedWithinSeconds | app/services/recommendation_scorer.rb:54 | "Done less than d days ago" means a parseable last completion less than d·86400 seconds before now. |
| RecommendationScorer.DistanceDelta | app/services/recommendation_scorer.rb:37-38 | Each mile of distance costs one point. An unknown distance scores like 20 miles. |
| RecommendationScorer.RatingDelta | app/services/recommendation_scorer.rb:41-48 | A thumbs-up adds 5 and a thumbs-down subtracts 5. Any other rating, or none, changes nothing. |
| RecommendationScorer.RecencyBands | app/services/recommendation_scorer.rb:51-61 | Done within 7 days costs 1000, within 21 days costs 3, otherwise nothing. |
| RecommendationScorer.WeatherDelta | app/services/recommendation_scorer.rb:70-72 | Only the deprioritise strategy costs an outdoor place 4 points. Hiding costs nothing in the score. |
| RecommendationScorer.VarietyDelta | app/services/recommendation_scorer.rb:65-67 | Past position 0, a type already among the previous types costs 2 points. |
| RecommendationScorer.FilterRecentlyCompleted | app/services/recommendation_scorer.rb:134-143 | Keeps, in order and with every copy, exactly the activities not done within the last 7 days. |
| RecommendationScorer.Candidates | app/services/recommendation_scorer.rb:102-108 | The non-recent activities when there are any. Otherwise the whole input, so a non-empty input never yields an empty list. |
| RecommendationScorer.NonRecentSurvives | app/services/recommendation_scorer.rb:134-143 | If some activity is not recent, the filtered list is non-empty. |
| RecommendationScorer.ScoreAll | app/services/recommendation_scorer.rb:111-114 | Pairs each candidate, in order, with its score at position 0. |
| RecommendationScorer.SortByScore | app/services/recommendation_scorer.rb:117 | A permutation of its input, ordered by descending score. |
| RecommendationScorer.MaxCountFrom | app/services/recommendation_scorer.rb:153-159 | The largest type count: no type is counted more often, and some type reaches it. |
| RecommendationScorer.VarietyGate | app/services/recommendation_scorer.rb:149-164 | The penalty applies exactly when there are at least 3 items and every type holds under 70% of them. |
| RecommendationScorer.Rescore | app/services/recommendation_scorer.rb:174-189 | Positions 0..5 are rescored with the types of all earlier positions as context. Every later entry, and every activity, is unchanged. |
| RecommendationScorer.ApplyVarietyPenalty | app/services/recommendation_scorer.rb:173-193 | A permutation of the rescored list, ordered by descending score. |
| RecommendationScorer.SortWithScoresScored | app/services/recommendation_scorer.rb:100-122 | The final scored list is ordered by descending score and has one entry per candidate. |
| RecommendationScorer.SortWithScores | app/services/recommendation_scorer.rb:100-126 | A non-empty input gives a non-empty result. |
| RecommendationScorer.SortWithScoresPermutation | app/services/recommendation_scorer.rb:100-126 | The result is a permutation of the candidates. |
| RecommendationScorer.NoVarietyOrdersByBaseScore | app/services/recommendation_scorer.rb:117-122 | Without the variety pass, the result is ordered by the plain score. |
| RecommendationScorer.VarietyScoresOfResult | app/services/recommendation_scorer.rb:120-122 | With the variety pass, each final score is either the plain score or the variety score at that item's position in the first sort. |
| RecommendationScorer.VarietySeenListGrows | app/services/recommendation_scorer.rb:174-188 | The previous-types list is never cut back to a window: the sixth item is penalised for repeating the first item's type. |
| RecommendationScorer.NoInteractionsSortsByDistance | app/services/recommendation_scorer.rb:32-126 | With no interactions and normal weather, and no variety pass, the result is the input sorted nearest-first, with unknown distances counted as 20 miles. |
| InteractionStore.Touch | ios-app/TriangleTots/Storage/InteractionStore.swift:25-32 | An existing record is used as is. A missing one starts with no rating, no completions and no stamps. |
| InteractionStore.SaveRating | ios-app/TriangleTots/Storage/InteractionStore.swift:22-38 | Sets the rating and the update stamp. Keeps the completions and the last completion. Adds the key and changes no other entry. |
| InteractionStore.MarkDone | ios-app/TriangleTots/Storage/InteractionStore.swift:40-58 | Appends now to the completions and sets the last-completed and update stamps. Keeps the rating and changes no other entry. |
| InteractionStore.Load | ios-app/TriangleTots/Storage/InteractionStore.swift:60-73 | Missing or undecodable data loads as the empty map. |
| InteractionStore.OperationsCommute | ios-app/TriangleTots/Storage/InteractionStore.swift:22-58 | Rating then marking done equals marking done then rating, except for the update stamp. |
| InteractionStore.MarkDoneRepeated | ios-app/TriangleTots/Storage/InteractionStore.swift:53 | Marking done at n instants appends those n instants in order. |
| InteractionController.GetStorage | app/javascript/controllers/interaction_controller.js:32-43 | Absent or unparseable data reads as an empty store of version "1.0". Otherwise the data is used as stored. |
| InteractionController.SaveToLocalStorage | app/javascript/controllers/interaction_controller.js:119-160 | Only the written key changes. A thumbs-down reloads with the interactions, and any other rating only refreshes the buttons. Marking done goes to the "now" view or reloads. |
| InteractionController.ButtonStates | app/javascript/controllers/interaction_controller.js:171-207 | Buttons are lit only for an existing record, and never thumbs-up and thumbs-down together. Thumbs-up is lit exactly for rating 1, thumbs-down exactly for rating -1, and done exactly when there is a last completion. |
| InteractionController.ButtonsAfterWrite | app/javascript/controllers/interaction_controller.js:119-207 | After a thumbs-up only up is lit, and after a thumbs-down only down. After marking done, done is lit and the rating buttons keep their state. |
| InteractionController.AgreesWithNativeStore | app/javascript/controllers/interaction_controller.js:123-148 | The browser store and the native store write the same record for the same call. |
| UserInteractions.FindOrInitialize | app/controllers/user_interactions_controller.rb:3 | The existing row, or a new row with nothing set. |
| UserInteractions.Rate | app/controllers/user_interactions_controller.rb:2-7 | Sets the rating to the parameter's `to_i` and keeps the completions. No other row changes. |
| UserInteractions.MarkDone | app/controllers/user_interactions_controller.rb:9-16 | Appends now to the completions (an empty list if there were none) and sets the last completion to now. No other row changes. |
| UserInteractions.ImportEntry | app/controllers/user_interactions_controller.rb:21-29 | An entry for a missing activity is skipped. Otherwise each present field overwrites, and a blank one keeps the row's value. |
| UserInteractions.Import | app/controllers/user_interactions_controller.rb:18-31 | A parameter that is not a hash is a bad request and changes nothing. Otherwise the answer is ok. |
| UserInteractions.ImportLeavesOthers | app/controllers/user_interactions_controller.rb:21-29 | Rows not named by any importable entry are untouched. |
| UserInteractions.ImportIgnoresBrowserKey | app/controllers/user_interactions_controller.rb:27 | An entry with a rating only leaves `last_completed_at` alone. The browser's key is `lastCompleted`, not `last_completed_at`. |
| NativeStorage.InsertUnique | app/controllers/native/storage_controller.rb:22 | Inserting into a strictly increasing list keeps it strictly increasing, and the members become the old ones plus the new one. |
| NativeStorage.SortedUnique | app/controllers/native/storage_controller.rb:22 | `uniq.sort` is strictly increasing and has the same members. |
| NativeStorage.IncreasingUnique | app/controllers/native/storage_controller.rb:22 | A strictly increasing list is determined by its members. |
| NativeStorage.ParsedTimes | app/controllers/native/storage_controller.rb:21 | Keeps exactly the timestamps that parse. |
| NativeStorage.MergeCompletions | app/controllers/native/storage_controller.rb:20-22 | Strictly increasing. Its members are exactly the stored completions plus the incoming ones that parse. |
| NativeStorage.Last | app/controllers/native/storage_controller.rb:23 | Nil exactly for an empty list. For an increasing list it is the latest member. |
| NativeStorage.SyncEntry | app/controllers/native/storage_controller.rb:12-27 | A present rating overwrites. A non-empty completions array merges in and resets the last completion to the newest. Otherwise the row's completions stay. A key whose `to_i` is negative or names no existing activity is skipped, since the required `activity` foreign key keeps `save` from storing such a row. Other rows are untouched. |
| NativeStorage.SyncSkipsMissing | app/controllers/native/storage_controller.rb:12-27 | A sync never creates a row for an activity that does not exist, whatever keys the native store sends. |
| NativeStorage.Sync | app/controllers/native/storage_controller.rb:7-33 | Without a user or without entries, the answer is unprocessable and nothing changes. Otherwise the answer is ok. |
| NativeStorage.SyncKeepsHistory | app/controllers/native/storage_controller.rb:19-24 | For an existing activity: stored completions are never lost. Only stored or parseable incoming stamps appear. The last completion is the latest, and is nil only for an empty list. |
| NativeStorage.AllUnparseableClearsLast | app/controllers/native/storage_controller.rb:19-24 | An array of unparseable stamps, on a new row of an existing activity, leaves an empty list and a nil last completion. |
| NativeStorage.SyncIdempotent | app/controllers/native/storage_controller.rb:12-27 | Syncing the same entry twice equals syncing it once. |
| HoursParser.ScanClock | app/services/hours_parser.rb:57 | A match of the clock pattern starts with a digit, ends with "m"/"M", and fits within the text. |
| HoursParser.ToMinutes | app/services/hours_parser.rb:97-109 | A scanned clock reads as a time exactly when its minutes are below 60. The hour is taken modulo 12, plus 12 for PM. |
| HoursParser.ParseTimeToToday | app/services/hours_parser.rb:97-109 | A blank string gives no time. |
| HoursParser.Format12RoundTrip | app/services/hours_parser.rb:112-114 | The printed time has the shape "H:MM AM" with no leading zero, says AM exactly before noon, and parses back to the same minute. |
| HoursParser.DawnParses | app/services/hours_parser.rb:3 | "7:00 AM" reads as minute 420. |
| HoursParser.DuskParses | app/services/hours_parser.rb:4 | "7:00 PM" reads as minute 1140. |
| HoursParser.TokensNotClosed | app/services/hours_parser.rb:51-53 | A string mentioning dawn or dusk is never blank and never "closed". |
| HoursParser.GetOpeningTime | app/services/hours_parser.rb:50-60 | Blank or "closed" gives no time, and "dawn" gives 7:00 AM. Otherwise the time is the clock at the first line start where one begins: Ruby's `^` matches after every newline, not only at index 0. With no clock at any line start there is no time. |
| HoursParser.GetClosingTime | app/services/hours_parser.rb:64-74 | Blank or "closed" gives no time, and "dusk" gives 7:00 PM. Otherwise the time is the clock after the leftmost "-" that is followed by a clock, wherever that dash is. With no such dash there is no time. |
| HoursParser.DawnToDusk | app/services/hours_parser.rb:87-94 | True exactly from 7:00 AM up to, not including, 7:00 PM. |
| HoursParser.OpenAt | app/services/hours_parser.rb:8-18 | Open exactly when both times exist and now is in [opening, closing). Never open when blank or closed. Dawn-to-dusk strings are open from 7 AM to 7 PM. |
| HoursParser.NeverOpenWhenInverted | app/services/hours_parser.rb:78-85 | Hours whose closing is not after their opening are never open. |
| HoursParser.ClosedNeverOpen | app/services/hours_parser.rb:9 | A closed or blank day is not open, not opening soon and not closing soon. |
| HoursParser.OpensWithin | app/services/hours_parser.rb:22-32 | Some exactly when opening is after now and within n hours. The text is the opening time in "H:MM AM" form, and it parses back to that time. |
| HoursParser.ClosesWithin | app/services/hours_parser.rb:36-46 | Some exactly when closing is after now and within n hours. The text is the closing time in "H:MM PM" form, and it parses back to that time. |
| HoursParser.OpenExcludesOpeningSoon | app/services/hours_parser.rb:8-46 | While open, a place is never "opening soon", and it is "closing soon" exactly when its closing is within the window. |
| HoursParser.OpensWithinMonotone | app/services/hours_parser.rb:29 | Widening the window keeps an "opens within" answer and its text. |
| HoursParser.SeedHours | app/services/hours_parser.rb:8-74 | "dawn - dusk" opens at 7 AM and closes at 7 PM: open at noon, not at 7 PM. "Closed" is never open. |
| HoursParser.FormattedRange | app/services/hours_parser.rb:8-74 | A range "H:MM AM - H:MM PM" of two formatted times opens at the first and closes at the second. It is open from the first (inclusive) to the second (exclusive). |
| HoursParser.TenToSix | db/seeds.rb:64 | The seed range "10:00 AM - 6:00 PM" is the formatted range of 10:00 and 18:00. |
| EventImporter.MapCategoryToType | app/services/event_importer.rb:88-103 | Always a valid type. Nil or empty categories give "event". |
| EventImporter.CategoryRuleOrder | app/services/event_importer.rb:88-103 | The classifier is the first-match rule list: library, museum, splash/water, farm, park without playground, playground, else event. |
| EventImporter.CategoryCaseInsensitive | app/services/event_importer.rb:91 | Lower-casing the categories first changes nothing. |
| EventImporter.InferIndoor | app/services/event_importer.rb:107-123 | Indoor words win and outdoor words come second. With neither, an indoor venue word in the address makes the event indoor; nothing else does. |
| EventImporter.LibrariesAndMuseumsAreIndoor | app/services/event_importer.rb:88-123 | An event typed as a library or museum is also inferred indoor. |
| EventImporter.Import | app/services/event_importer.rb:4-51 | A missing name or start date is the fixed error. A success is a valid event with the given fields, a 2-hour default end and a default cost of 0. A failure carries the validation messages. |
| EventImporter.ImportDefaults | app/services/event_importer.rb:21-25 | With no end and no cost, the import succeeds, ends two hours after the start, and is free. |
| EventImporter.ImportRejectsEarlyEnd | app/services/event_importer.rb:39-50 | An end before the start fails with "End date must be after start date". |
| EventContentParser.ExtractName | app/services/event_content_parser.rb:30-39 | A nil or blank title gives nil. Otherwise the name is a non-blank subsequence of the title's characters. It falls back to the whole title when removing the suffixes leaves only blanks. Any other name that differs from the title is the stripped remainder. |
| EventContentParser.CutNoMatch | app/services/event_content_parser.rb:34-35 | With no match of the pattern, `gsub` leaves the text unchanged. |
| EventContentParser.CutSingleLine | app/services/event_content_parser.rb:34-35 | In a one-line text, the first match cuts the text right there. |
| EventContentParser.NameKeepsPlainTitle | app/services/event_content_parser.rb:30-39 | A stripped title with no date suffix and no "..." is its own name. |
| EventContentParser.NameDropsDateSuffix | app/services/event_content_parser.rb:34 | "<base> on <word> <digits>..." is named "<base>". |
| EventContentParser.NameFallsBackToTitle | app/services/event_content_parser.rb:38 | A title that cleans to nothing ("...") is kept whole. |
| EventContentParser.Amounts | app/services/event_content_parser.rb:147 | Empty exactly when the text has no "$" followed by a digit. |
| EventContentParser.ScanFindsEveryAmount | app/services/event_content_parser.rb:147 | Every amount written as "$digits" is among the scanned amounts. |
| EventContentParser.AmountsCameFrom | app/services/event_content_parser.rb:147 | Every scanned amount is written in the text as "$digits". |
| EventContentParser.CostBucket | app/services/event_content_parser.rb:151-155 | Every amount falls in band 1, 2 or 3. |
| EventContentParser.CostBucketBands | app/services/event_content_parser.rb:151-155 | $0–5 is band 1, $6–15 is band 2, $16 and up is band 3, and bands grow with the amount. |
| EventContentParser.ExtractCostLevel | app/services/event_content_parser.rb:140-156 | The level is 0..3. It is 0 exactly when the text says "free" as a word or names no dollar amount. |
| EventContentParser.CostFromLargestAmount | app/services/event_content_parser.rb:147-155 | The level is at least the band of every amount in the text. |
| EventContentParser.ConvertHourAsWritten | app/services/event_content_parser.rb:105-106 | As written: an AM hour is unchanged, 12 included. A PM hour gains 12, except 12 itself. Hours 1..12 go to 1..23 with the same value modulo 12. |
| EventContentParser.ConvertHourDiffersAtMidnight | app/services/event_content_parser.rb:105-106 | The conversion as written and the corrected one differ exactly at "12 a.m.". |
| EventContentParser.MidnightReadsAsNoon | app/services/event_content_parser.rb:105 | As written, "12 a.m." converts to 12 (noon), just as "12 p.m." does. The corrected conversion gives 0. |
| EventContentParser.ConvertHour | app/services/event_content_parser.rb:104-106 | Corrected: hours 1..12 go to 0..23 with the same value modulo 12, and reach 12 or later exactly for PM. |
| EventContentParser.ConvertHourRoundTrip | app/services/event_content_parser.rb:104-106 | The corrected conversion is a bijection between (1..12, AM/PM) and 0..23. |
| EventContentParser.ChangeTime | app/services/event_content_parser.rb:108 | `change(hour:, min:)` succeeds exactly for an hour 0..23 and a minute 0..59, and stays on the same day. |
| EventContentParser.EndDate | app/services/event_content_parser.rb:91-113 | As written. With no "from … to …" match, the end is two hours after the start. With a match, the end is on the start's day, at the hour lines 105-106 compute and the given minute. An AM hour up to 23 is kept as the hour of day. It is nil exactly when that hour passes 23 or the minute passes 59. |
| EventContentParser.SetClock | app/services/event_content_parser.rb:108 | `change(hour:, min:)` keeps the day and sets exactly that hour and minute. It is nil outside 0..23 and 0..59. |
| EventContentParser.EndDateCorrected | app/services/event_content_parser.rb:91-113 | Corrected: a match with an hour 1..12 ends on the start's day, in the half of the day its suffix names, at that hour modulo 12 and that minute. |
| EventContentParser.EndDateAgrees | app/services/event_content_parser.rb:104-108 | The end date as written and the corrected one agree except on a closing time of "12 a.m.". |
| EventContentParser.TwelveAmEnd | app/services/event_content_parser.rb:104-108 | A closing time of "12 a.m." ends at noon of the start's day as written. Corrected, it ends at the midnight that begins that day. |
| EventContentParser.KeptParagraphs | app/services/event_content_parser.rb:180-188 | At most four paragraphs, each stripped, non-empty and not sharing/footer text, in page order. Every eligible paragraph is kept when fewer than four eligible ones come before it. |
| EventContentParser.ExtractDescription | app/services/event_content_parser.rb:178-191 | Its words are the first 500 words of the kept paragraphs. |
| EventContentParser.WordsOfParagraphs | app/services/event_content_parser.rb:188-189 | Splitting the "\n\n"-joined paragraphs gives the concatenation of their words. |
| EventContentParser.Parse | app/services/event_content_parser.rb:6-24 | Nil exactly for a blank page or an end time whose `change` raises. A parsed event's name, description, cost, end date, address and categories are what their extractors give; the start is the given one. Its end defaults to start + 2 hours when no range is found. |
| EventContentParser.ParsedEventsImport | app/jobs/sync_events_job.rb:62-75 | A page with a title and a start but no time range imports successfully, ending two hours after its start. |
| ActivitiesController.SortWithWeatherPenalty | app/controllers/activities_controller.rb:114-128 | A permutation ordered nearest-first with unknown distances last. When deprioritising, indoor places come before every outdoor one. |
| ActivitiesController.ExcludeThumbsDown | app/controllers/activities_controller.rb:26-29 | Drops every activity whose id is the `to_i` of a thumbs-down key. Every other activity keeps all its copies, in order. |
| ActivitiesController.ThumbsDownByOwnKey | app/controllers/activities_controller.rb:27 | For canonical decimal keys, an id is excluded exactly when its own record is a thumbs-down. |
| ActivitiesController.LenientKeyHides | app/controllers/activities_controller.rb:27 | Any thumbs-down key that `to_i` reads as an activity's id hides it, even when the scorer finds no record under the activity's own key. |
| ActivitiesController.LenientKeyExcludes | app/controllers/activities_controller.rb:27 | `to_i` is lenient: a "07" key hides activity 7, though the scorer never finds that record. |
| ActivitiesController.LoadInteractions | app/controllers/activities_controller.rb:94-106 | One entry per row, keyed by the decimal id, carrying the rating and the last completion. |
| ActivitiesController.LoadedLookup | app/controllers/activities_controller.rb:94-106 | The scorer finds a signed-in user's row for exactly the activities that have one. |
| ActivitiesController.ViewOf | app/controllers/activities_controller.rb:32 | "now" and an absent parameter give the now view, "weekend" gives weekend, and anything else gives all. |
| ActivitiesController.RankNow | app/controllers/activities_controller.rb:50-61 | With interactions, the result is the personalised scorer's order, a permutation of its candidates. Without interactions, it is the fallback sort: a permutation of the input, nearest first with unknown distances last, and indoor first when deprioritising. Never empty for a non-empty input. |
| ActivitiesController.WeekendSort | app/controllers/activities_controller.rb:75-77 | Fails exactly when some start date is nil. Otherwise a permutation ordered by day, then nearest-first with unknown distances last. |
| ActivitiesController.WeekendSorted | app/controllers/activities_controller.rb:75-77 | A list sorted by the weekend key is ordered by day, and by distance within a day. |
| ActivitiesController.Index | app/controllers/activities_controller.rb:4-86 | The now and all views always succeed; only the weekend sort can fail. Without interactions the now view ascends by distance (within each indoor class when deprioritising). A successful weekend view ascends by day, then distance. The all view ascends by distance with unknown distances last. |
| ActivitiesController.NowView | app/controllers/activities_controller.rb:34-61 | Without interactions, the now feed ascends by distance, within each indoor class when deprioritising outdoor activities. |
| ActivitiesController.AllView | app/controllers/activities_controller.rb:78-85 | Nearest first, unknown distances last. |
| ActivitiesController.NowAvoids | app/controllers/activities_controller.rb:34-61 | The now view adds no activity that was not in its input. |
| ActivitiesController.WeekendAvoids | app/controllers/activities_controller.rb:62-77 | The weekend view adds no activity that was not in its input. |
| ActivitiesController.AllAvoids | app/controllers/activities_controller.rb:78-85 | The all view adds no activity that was not in its input. |
| ActivitiesController.AnonymousNeverSeesThumbsDown | app/controllers/activities_controller.rb:25-29 | An anonymous user never sees an activity they gave a thumbs-down in any view. |

## Where the model follows the code

- The relaxed "Now" fallback (`relax_filters_for_empty_state`) draws from
  the unfiltered list. Under heavy rain it can therefore offer outdoor places
  (`ActivityFilter.RelaxationIgnoresWeather`).
- The opening-time regex is anchored with Ruby's `^`, which matches at the
  start of any line, not only the start of the string. `FindOpeningClock`
  scans every line start.
- `open_at?` takes the dawn-to-dusk shortcut only when the string mentions
  both words. A string mentioning only one goes through the range parser,
  where "dawn" alone still gives 7:00 AM.
- The previous-types list of the variety pass grows over all six rescored
  positions. It is not a window of the last three types
  (`RecommendationScorer.VarietySeenListGrows`).

## Left out

- Network, caching and I/O are left out: the weather API call and its cache,
  geocoding, HTTP fetching of event pages, database saves, localStorage and
  UserDefaults writes, page reloads and navigation. The rescue branches that
  only log are left out too.
- HTML parsing with Nokogiri is left out. A page is modelled as its text and
  its paragraph texts.
- Start-date extraction is left out; the start date is a parameter. It relies
  on Chronic or Date.parse of natural-language dates.
- The address and registration-URL extraction are left out. They are
  regex-and-DOM lookups whose result is copied through; the address is a
  parameter.
- The "from X to Y" regex match of the end date is a parameter (a
  `ClockMatch`). Only its captures are modelled.
- `EventContentParser.ChangeTime`: Ruby's `Time#change` also accepts hour 24
  in some versions. The model rejects any hour outside 0..23.
- Days are UTC days of `Instant` (seconds / 86400). Time zones and the
  Eastern-time weekend window are not modelled.
- `calculate_status` and `distance_from` are not modelled. Their code is
  not part of this model, so `distance_from` is an uninterpreted function
  parameter and `calculate_status` is left out.
- `filter_for_weekend` and `filter_by_distance`: their code is not part of
  this model. Each is taken to keep, in order, the activities that pass a
  per-activity test, and the test is a parameter. The view orders and
  `ActivitiesController.NowAvoids`, `WeekendAvoids`, `AllAvoids` and
  `AnonymousNeverSeesThumbsDown` rest on that assumption.
- `Activity#open_at?` and `opens_within?` are not modelled either; they are
  uninterpreted parameters of the filter.
- The home coordinates and their defaults (Durham) are left out. They only
  feed the distance collaborator.
- Floating-point arithmetic is left out. Scores and distances are exact reals,
  so ties and rounding of Float distances are not modelled.
- Ruby's `sort_by` is not stable. Sort results are specified only as a
  permutation that is ordered by the key; the order among equal keys is left
  open.
- The native storage `export` action is left out. It is a read-only
  serialisation.
- The UserInteraction model's own validations are left out.
- `JSON.parse` raising on malformed `interactions` input is left out. The
  anonymous interactions arrive already decoded.
- `parseInt` returning NaN for a non-numeric rating is left out. The rating
  arrives as an integer.
- `String#downcase` is modelled on ASCII letters only.
- `Text.IsBlank` and `Text.Strip` treat only ASCII whitespace as blank.
  Rails' `blank?` uses Unicode `[[:space:]]`, so a title or hours string of
  non-breaking spaces counts as blank there but not here.
- `Text.ToI` stops at the first non-digit. Ruby's `to_i` also reads digits
  separated by single underscores, so `"1_0".to_i` is 10 there but 1 here.
- `NativeStorage.MergeCompletions`: completions are modelled as parsed
  instants only. In the source a stored row can hold ISO-8601 strings (the
  web `mark_done` action appends `Time.current.iso8601`) while the incoming
  ones are `Time` objects. Then `uniq` does not merge a string with the equal
  time, and `sort` raises when it compares a String with a Time. The model
  does not promise either behaviour.
- `NativeStorage.SortedUnique`: holds for timestamps of one kind only, as
  above.
- `NativeStorage.SyncIdempotent`: holds for timestamps of one kind only, as
  above.
- Negative `to_i` keys in `sync` and `import` are skipped. No activity has a
  negative id, and the `activity` reference is a required foreign key
  (db/migrate/20260201235102_create_user_interactions.rb:5), so `save` stores
  no row for it. Whether `save` returns false or raises for a missing
  activity is not modelled; either way no row is stored.
- `EventContentParser.EndDate`: the start date is taken to be a `Time`, as
  `Chronic.parse` returns when Chronic is loaded. Without Chronic the start is
  a `Date` from `Date.parse`. `Date#change(hour:, min:)` then ignores the hour
  and minute, so a "from … to …" match gives the start date unchanged and
  never raises, and the two-hour default gives 02:00 on that day. The nil
  case of `Parse` and the 12 a.m. finding assume the `Time` start.
- `HoursParser.ParseTimeToToday` states only the blank case as its own
  contract. Its value on formatted times is stated by
  `HoursParser.Format12RoundTrip`, and on scanned clocks by a helper lemma.
  `Time.zone.parse` of arbitrary text is otherwise not modelled.
- `ActivitiesController.Index`: the weekend view's failure on an event
  without a start date models Ruby raising on `nil.to_date`. The error page
  is not modelled.

## Findings

| source | as written | input that shows it | evidently intended | confidence | as-written member | corrected member |
|---|---|---|---|---|---|---|
| app/services/event_content_parser.rb:105 | `hour = 12 if hour == 12 && !is_pm` leaves 12 a.m. at hour 12, which is noon | "from 9 p.m. to 12 a.m." gives an end time of 12:00 noon on the start's day | 12 a.m. is hour 0 (midnight), the inverse of the 12-hour clock | not executed | EventContentParser.EndDate | EventContentParser.EndDateCorrected |

The same line appears at app/services/event_content_parser.rb:75 for the
start time, whose extraction is not part of this model.
`EventContentParser.EndDate` and `ConvertHourAsWritten` follow the code as
written, and `Parse` uses them. `EventContentParser.TwelveAmEnd` and
`MidnightReadsAsNoon` exhibit the discrepancy. `EndDateCorrected` and
`ConvertHour` are the corrected definitions, with `ConvertHourRoundTrip`
proved about the conversion. `EndDateAgrees` shows the two end dates differ
only at "12 a.m.". The finding assumes a `Time` start date (see
`EventContentParser.EndDate` under "## Left out"). Even corrected, the end falls on the start's day: an
event "from 9 p.m. to 12 a.m." ends at the midnight before it starts.

=== FILE: activities_controller.dfy ===
/** ActivitiesController#index (app/controllers/activities_controller.rb):
    the interactions a request carries, the anonymous thumbs-down exclusion,
    the view dispatch ("now", "weekend", anything else is "all") and the sort
    each view ends with.

    `distance_from`, `filter_by_distance` and `filter_for_weekend` are
    defined outside the files this model covers. They are taken as given
    functions (`Collaborators`); the two filters are taken to be filters,
    each by a given test. The weather forecast is a parameter: fetching it is
    network I/O. */
module ActivitiesController {
  import opened Wrappers
  import opened Text
  import opened Seqs
  import opened Activities
  import opened WeatherService
  import opened RecommendationScorer
  import ActivityFilter
  import UserInteractions

  /** The sort key `[distance.nil? ? 1 : 0, distance || Float::INFINITY]` as
      an order: known distances ascending, unknown ones after all of them. */
  predicate DistLe(a: Activity, b: Activity) {
    match (a.distance, b.distance)
    case (Some(x), Some(y)) => x <= y
    case (Some(_), None) => true
    case (None, Some(_)) => false
    case (None, None) => true
  }

  /** The key `[indoor ? 0 : 1, distance.nil? ? 1 : 0, distance || Float::INFINITY]`. */
  predicate IndoorFirstLe(a: Activity, b: Activity) {
    (a.indoor && !b.indoor) || (a.indoor == b.indoor && DistLe(a, b))
  }

  /** Between positions i < j: an unknown distance is followed only by
      unknown ones, and two known distances ascend. */
  predicate NearerOrUnknownLater(x: Activity, y: Activity) {
    && (x.distance.None? ==> y.distance.None?)
    && (x.distance.Some? && y.distance.Some? ==> x.distance.value <= y.distance.value)
  }

  /** `sort_with_weather_penalty`: the fallback order when there is nothing
      to personalise with. */
  function SortWithWeatherPenalty(acts: seq<Activity>, s: Strategy): (r: seq<Activity>)
    ensures multiset(r) == multiset(acts)
    ensures s == DeprioritizeOutdoor ==>
              forall i, j :: 0 <= i < j < |r| && r[j].indoor ==> r[i].indoor
    ensures forall i, j :: 0 <= i < j < |r| && (s != DeprioritizeOutdoor || r[i].indoor == r[j].indoor) ==>
              NearerOrUnknownLater(r[i], r[j])
  {
    if s == DeprioritizeOutdoor then SortBy(acts, IndoorFirstLe) else SortBy(acts, DistLe)
  }

  /** The ids `to_i` reads off the keys of the entries rated -1. */
  function ThumbsDownIds(inter: Interactions): set<int> {
    set k | k in inter && inter[k].rating == Some(-1) :: ToI(k)
  }

  /** The anonymous exclusion `where.not(id: thumbs_down_ids)`. */
  function ExcludeThumbsDown(acts: seq<Activity>, inter: Interactions): (r: seq<Activity>)
    ensures IsSubseq(r, acts)
    ensures forall a :: a in r ==> forall k :: k in inter && inter[k].rating == Some(-1) ==> ToI(k) != a.id
    ensures forall a :: a in acts && a.id !in ThumbsDownIds(inter) ==> multiset(r)[a] == multiset(acts)[a]
  {
    var ids := ThumbsDownIds(inter);
    var r := Filter(acts, (a: Activity) => a.id !in ids);
    assert forall a :: a in r ==> a.id !in ids;
    r
  }

  /** Under the keys the browser writes (the decimal id), an activity is
      excluded exactly when its own entry is rated -1. */
  lemma ThumbsDownByOwnKey(inter: Interactions, a: Activity)
    requires forall k :: k in inter ==> k == IntToString(ToI(k))
    ensures a.id in ThumbsDownIds(inter) <==> Lookup(inter, a).Some? && Lookup(inter, a).value.rating == Some(-1)
  {
    ToIOfIntToString(a.id);
    if a.id in ThumbsDownIds(inter) {
      var k :| k in inter && inter[k].rating == Some(-1) && ToI(k) == a.id;
      assert k == IntToString(a.id);
    }
  }

  /** Any key that `to_i` reads as an activity's id, rated -1, hides that
      activity, even when the activity's own decimal key has no entry and
      the scorer therefore finds no record for it. */
  lemma LenientKeyHides(inter: Interactions, a: Activity, k: string)
    requires k in inter && inter[k].rating == Some(-1) && ToI(k) == a.id
    requires IntToString(a.id) !in inter
    ensures a.id in ThumbsDownIds(inter) && Lookup(inter, a).None?
  {
  }

  /** A lenient key names the same activity: `to_i` reads "07" as 7, so an
      entry under "07" rated -1 hides activity 7 although `Lookup` finds no
      entry for it. */
  lemma LenientKeyExcludes(a: Activity)
    requires a.id == 7
    ensures var inter := map["07" := Signal(Some(-1), None)];
            a.id in ThumbsDownIds(inter) && Lookup(inter, a).None?
  {
    var inter := map["07" := Signal(Some(-1), None)];
    assert SkipSpaces("07", 0) == 0;
    AllDigitsRunToEnd("07", 0);
    assert "07"[0..2] == "07";
    assert DecimalValue("07") == 10 * DecimalValue("0") + 7;
    assert ToI("07") == 7;
    assert IntToString(7) == "7";
    LenientKeyHides(inter, a, "07");
  }

  /** `last_completed_at&.iso8601`, read back by the scorer as a parsed time. */
  function AsRaw(t: Option<Instant>): (r: Option<RawTime>)
    ensures r.None? <==> t.None?
    ensures t.Some? ==> r == Some(Parsed(t.value))
  {
    match t
    case Some(x) => Some(Parsed(x))
    case None => None
  }

  /** `load_interactions` for a signed-in user: one entry per row, keyed by
      the activity id as a decimal string. */
  function LoadInteractions(rows: UserInteractions.Rows): (r: Interactions)
    ensures r.Keys == set id | id in rows :: IntToString(id)
    ensures forall id :: id in rows ==>
              IntToString(id) in r && r[IntToString(id)] == Signal(rows[id].rating, AsRaw(rows[id].lastCompletedAt))
  {
    forall a, b ensures IntToString(a) == IntToString(b) ==> a == b {
      IntToStringInjective(a, b);
    }
    map id | id in rows :: IntToString(id) := Signal(rows[id].rating, AsRaw(rows[id].lastCompletedAt))
  }

  /** The scorer finds an activity's own row, and nothing for an activity
      without one. */
  lemma LoadedLookup(rows: UserInteractions.Rows, a: Activity)
    ensures a.id in rows ==>
              Lookup(LoadInteractions(rows), a) == Some(Signal(rows[a.id].rating, AsRaw(rows[a.id].lastCompletedAt)))
    ensures a.id !in rows ==> Lookup(LoadInteractions(rows), a).None?
  {
    if a.id !in rows && IntToString(a.id) in LoadInteractions(rows) {
      var id :| id in rows && IntToString(id) == IntToString(a.id);
      IntToStringInjective(id, a.id);
    }
  }

  datatype View = Now | Weekend | All

  /** `params[:view] || "now"`, then the if/elsif/else dispatch. */
  function ViewOf(param: Option<string>): (r: View)
    ensures r == Now <==> param.None? || param.value == "now"
    ensures r == Weekend <==> param == Some("weekend")
  {
    match param
    case None => Now
    case Some(v) => if v == "now" then Now else if v == "weekend" then Weekend else All
  }

  /** The "now" feed's last step: the scorer when there are interactions,
      the fallback sort otherwise. The scorer may drop what was completed
      this week; the fallback keeps everything. */
  function RankNow(acts: seq<Activity>, inter: Interactions, ctx: Context): (r: seq<Activity>)
    ensures |inter| > 0 ==> multiset(r) == multiset(Candidates(acts, inter, ctx.now))
    ensures |inter| == 0 ==> multiset(r) == multiset(acts)
    ensures |inter| == 0 && ctx.strategy == DeprioritizeOutdoor ==>
              forall i, j :: 0 <= i < j < |r| && r[j].indoor ==> r[i].indoor
    ensures |inter| == 0 ==>
              forall i, j :: 0 <= i < j < |r| && (ctx.strategy != DeprioritizeOutdoor || r[i].indoor == r[j].indoor) ==>
                NearerOrUnknownLater(r[i], r[j])
    ensures |inter| > 0 ==> r == SortWithScores(acts, inter, ctx)
    ensures |inter| == 0 ==> r == SortWithWeatherPenalty(acts, ctx.strategy)
    ensures acts != [] ==> r != []
  {
    if |inter| > 0 then
      SortWithScoresPermutation(acts, inter, ctx);
      SortWithScores(acts, inter, ctx)
    else
      var r := SortWithWeatherPenalty(acts, ctx.strategy);
      assert |r| == |multiset(r)|;
      r
  }

  /** The key `[start_date.to_date, ...distance key]`. */
  predicate WeekendLe(calendarDay: Instant -> int, a: Activity, b: Activity) {
    var da := calendarDay(a.startDate.GetOr(0));
    var db := calendarDay(b.startDate.GetOr(0));
    da < db || (da == db && DistLe(a, b))
  }

  /** Every activity has a start date; days ascend and, within a day,
      distances ascend with unknown distances last. */
  predicate DayThenDistance(s: seq<Activity>, calendarDay: Instant -> int) {
    forall i, j :: 0 <= i < j < |s| ==>
      && s[i].startDate.Some? && s[j].startDate.Some?
      && calendarDay(s[i].startDate.value) <= calendarDay(s[j].startDate.value)
      && (calendarDay(s[i].startDate.value) == calendarDay(s[j].startDate.value) ==>
            NearerOrUnknownLater(s[i], s[j]))
  }

  /** The weekend sort. `start_date.to_date` raises on an activity without a
      start date, which fails the request. */
  function WeekendSort(acts: seq<Activity>, calendarDay: Instant -> int): (r: Result<seq<Activity>, string>)
    ensures r.Failure? <==> exists a :: a in acts && a.startDate.None?
    ensures r.Success? ==> multiset(r.value) == multiset(acts)
    ensures r.Success? ==> DayThenDistance(r.value, calendarDay)
  {
    if forall a :: a in acts ==> a.startDate.Some? then
      WeekendOrderTotal(calendarDay);
      var s := SortBy(acts, WeekendOrder(calendarDay));
      WeekendSorted(acts, s, calendarDay);
      Success(s)
    else
      Failure("undefined method 'to_date' for nil")
  }

  function WeekendOrder(calendarDay: Instant -> int): (Activity, Activity) -> bool {
    (a, b) => WeekendLe(calendarDay, a, b)
  }

  lemma WeekendOrderTotal(calendarDay: Instant -> int)
    ensures TotalPreorder(WeekendOrder(calendarDay))
  {
  }

  /** A permutation of activities that all have start dates, sorted by the
      weekend order, ascends by day and, within a day, by distance. */
  lemma WeekendSorted(acts: seq<Activity>, s: seq<Activity>, calendarDay: Instant -> int)
    requires forall a :: a in acts ==> a.startDate.Some?
    requires multiset(s) == multiset(acts) && SortedBy(s, WeekendOrder(calendarDay))
    ensures DayThenDistance(s, calendarDay)
  {
    forall i | 0 <= i < |s| ensures s[i].startDate.Some? {
      assert s[i] in multiset(acts);
    }
    forall i, j | 0 <= i < j < |s|
      ensures calendarDay(s[i].startDate.value) <= calendarDay(s[j].startDate.value)
      ensures calendarDay(s[i].startDate.value) == calendarDay(s[j].startDate.value) ==> NearerOrUnknownLater(s[i], s[j])
    {
      assert WeekendLe(calendarDay, s[i], s[j]);
    }
  }

  /** The collaborators `index` calls: the filter's probe at the current
      time, `distance_from(home)`, and the tests `filter_by_distance` and
      `filter_for_weekend` apply. */
  datatype Collaborators = Collaborators(
    probe: ActivityFilter.Probe,
    distanceFrom: Activity -> Option<real>,
    withinRange: Activity -> bool,
    onWeekend: Activity -> bool,
    calendarDay: Instant -> int)

  /** One request: who asks, the view parameter, the interactions the
      browser sent (anonymous) or the user's rows (signed in), the forecast
      and the current time. */
  datatype Request = Request(
    signedIn: bool,
    view: Option<string>,
    anonymous: Interactions,
    rows: UserInteractions.Rows,
    forecast: seq<HourForecast>,
    now: Instant)

  /** `activity.distance = activity.distance_from(home_lat, home_lng)` for each. */
  function WithDistances(acts: seq<Activity>, col: Collaborators): (r: seq<Activity>)
    ensures |r| == |acts|
    ensures forall i :: 0 <= i < |acts| ==> r[i].id == acts[i].id && r[i].indoor == acts[i].indoor
  {
    Map(acts, (a: Activity) => a.(distance := col.distanceFrom(a)))
  }

  /** `load_interactions`. */
  function RequestInteractions(req: Request): Interactions {
    if req.signedIn then LoadInteractions(req.rows) else req.anonymous
  }

  /** `index`, from the activities `excluding_thumbs_down_for` returns.
      The now view is the ranked feed, the weekend view ascends by day and
      then distance, and the all view ascends by distance with unknown
      distances last. */
  function Index(scoped: seq<Activity>, req: Request, col: Collaborators): (r: Result<seq<Activity>, string>)
    ensures ViewOf(req.view) != Weekend ==> r.Success?
    ensures ViewOf(req.view) == Now && |RequestInteractions(req)| == 0 ==>
              var strategy := AnalyzeRainForecast(req.forecast);
              forall i, j :: (0 <= i < j < |r.value|
                && (strategy != DeprioritizeOutdoor || r.value[i].indoor == r.value[j].indoor)) ==>
                NearerOrUnknownLater(r.value[i], r.value[j])
    ensures ViewOf(req.view) == Weekend && r.Success? ==> DayThenDistance(r.value, col.calendarDay)
    ensures ViewOf(req.view) == All ==>
              forall i, j :: 0 <= i < j < |r.value| ==> NearerOrUnknownLater(r.value[i], r.value[j])
  {
    var inter := RequestInteractions(req);
    var acts := if req.signedIn then scoped else ExcludeThumbsDown(scoped, inter);
    var strategy := AnalyzeRainForecast(req.forecast);
    match ViewOf(req.view)
    case Now =>
      Success(NowView(acts, inter, strategy, req.now, col))
    case Weekend =>
      var near := Filter(WithDistances(Filter(acts, col.onWeekend), col), col.withinRange);
      WeekendSort(near, col.calendarDay)
    case All =>
      Success(AllView(acts, col))
  }

  /** The "now" branch: the feed, distances, the range filter, then the
      ranking. Without interactions it ascends by distance, within each
      indoor class when deprioritising outdoor activities. */
  function NowView(acts: seq<Activity>, inter: Interactions, strategy: Strategy, now: Instant, col: Collaborators): (r: seq<Activity>)
    ensures |inter| == 0 ==>
              forall i, j :: 0 <= i < j < |r| && (strategy != DeprioritizeOutdoor || r[i].indoor == r[j].indoor) ==>
                NearerOrUnknownLater(r[i], r[j])
  {
    var shown := ActivityFilter.FilterForNow(acts, strategy, col.probe);
    var near := Filter(WithDistances(shown, col), col.withinRange);
    RankNow(near, inter, Context(now, strategy))
  }

  /** The "all" branch: distances, the range filter, then the distance
      sort, nearest first and unknown distances last. */
  function AllView(acts: seq<Activity>, col: Collaborators): (r: seq<Activity>)
    ensures forall i, j :: 0 <= i < j < |r| ==> NearerOrUnknownLater(r[i], r[j])
  {
    var sorted := SortBy(Filter(WithDistances(acts, col), col.withinRange), DistLe);
    forall i, j | 0 <= i < j < |sorted| ensures NearerOrUnknownLater(sorted[i], sorted[j]) {
      assert DistLe(sorted[i], sorted[j]);
    }
    sorted
  }

  /** No activity in the list has an id in the set. */
  predicate AvoidsIds(s: seq<Activity>, ids: set<int>) {
    forall a :: a in s ==> a.id !in ids
  }

  lemma AvoidsSubseq(r: seq<Activity>, s: seq<Activity>, ids: set<int>)
    requires IsSubseq(r, s) && AvoidsIds(s, ids)
    ensures AvoidsIds(r, ids)
  {
    SubseqMembers(r, s);
  }

  lemma AvoidsPermutation(r: seq<Activity>, s: seq<Activity>, ids: set<int>)
    requires multiset(r) <= multiset(s) && AvoidsIds(s, ids)
    ensures AvoidsIds(r, ids)
  {
    forall a | a in r ensures a.id !in ids {
      assert a in multiset(r);
    }
  }

  lemma AvoidsWithDistances(s: seq<Activity>, col: Collaborators, ids: set<int>)
    requires AvoidsIds(s, ids)
    ensures AvoidsIds(WithDistances(s, col), ids)
  {
    var r := WithDistances(s, col);
    forall a | a in r ensures a.id !in ids {
      var i :| 0 <= i < |r| && r[i] == a;
      assert s[i] in s;
    }
  }

  /** The "now" view keeps only activities drawn from its input. */
  lemma NowAvoids(acts: seq<Activity>, inter: Interactions, strategy: Strategy, now: Instant, col: Collaborators, ids: set<int>)
    requires AvoidsIds(acts, ids)
    ensures var shown := ActivityFilter.FilterForNow(acts, strategy, col.probe);
            var near := Filter(WithDistances(shown, col), col.withinRange);
            AvoidsIds(RankNow(near, inter, Context(now, strategy)), ids)
  {
    var shown := ActivityFilter.FilterForNow(acts, strategy, col.probe);
    AvoidsSubseq(shown, acts, ids);
    var placed := WithDistances(shown, col);
    AvoidsWithDistances(shown, col, ids);
    var near := Filter(placed, col.withinRange);
    AvoidsSubseq(near, placed, ids);
    var r := RankNow(near, inter, Context(now, strategy));
    if |inter| > 0 {
      var cands := Candidates(near, inter, now);
      if exists a :: a in near && !Recent(inter, now, a) {
        AvoidsSubseq(cands, near, ids);
      }
      AvoidsPermutation(r, cands, ids);
    } else {
      AvoidsPermutation(r, near, ids);
    }
  }

  /** So does the weekend view. */
  lemma WeekendAvoids(acts: seq<Activity>, col: Collaborators, ids: set<int>)
    requires AvoidsIds(acts, ids)
    ensures var near := Filter(WithDistances(Filter(acts, col.onWeekend), col), col.withinRange);
            var r := WeekendSort(near, col.calendarDay);
            r.Success? ==> AvoidsIds(r.value, ids)
  {
    var we := Filter(acts, col.onWeekend);
    AvoidsSubseq(we, acts, ids);
    var placed := WithDistances(we, col);
    AvoidsWithDistances(we, col, ids);
    var near := Filter(placed, col.withinRange);
    AvoidsSubseq(near, placed, ids);
    var r := WeekendSort(near, col.calendarDay);
    if r.Success? {
      AvoidsPermutation(r.value, near, ids);
    }
  }

  /** And so does the "all" view. */
  lemma AllAvoids(acts: seq<Activity>, col: Collaborators, ids: set<int>)
    requires AvoidsIds(acts, ids)
    ensures AvoidsIds(SortBy(Filter(WithDistances(acts, col), col.withinRange), DistLe), ids)
  {
    var placed := WithDistances(acts, col);
    AvoidsWithDistances(acts, col, ids);
    var near := Filter(placed, col.withinRange);
    AvoidsSubseq(near, placed, ids);
    AvoidsPermutation(SortBy(near, DistLe), near, ids);
  }

  /** An anonymous visitor never sees an activity they rated -1, in any view. */
  lemma AnonymousNeverSeesThumbsDown(scoped: seq<Activity>, req: Request, col: Collaborators)
    requires !req.signedIn
    ensures var r := Index(scoped, req, col);
            r.Success? ==> forall a :: a in r.value ==> a.id !in ThumbsDownIds(req.anonymous)
  {
    var ids := ThumbsDownIds(req.anonymous);
    var acts := ExcludeThumbsDown(scoped, req.anonymous);
    assert AvoidsIds(acts, ids);
    NowAvoids(acts, req.anonymous, AnalyzeRainForecast(req.forecast), req.now, col, ids);
    WeekendAvoids(acts, col, ids);
    AllAvoids(acts, col, ids);
  }
}

=== FILE: activity.dfy ===
/** The Activity record (app/models/activity.rb): its closed set of types and
    the validation rules a record must satisfy before it is saved. */
module Activities {
  import opened Wrappers
  import opened Text

  /** Seconds since the epoch: a database `datetime` or a parsed ISO 8601 stamp. */
  type Instant = int

  /** A timestamp as it arrives from a client: an ISO 8601 string that
      `Time.parse` either reads or rejects. */
  datatype RawTime = Parsed(at: Instant) | Unparseable

  const SecondsPerHour: int := 3600
  const SecondsPerDay: int := 86400

  datatype ActivityType =
    | Playground | Library | Museum | Park | SplashPad | IndoorPlay
    | Farm | NatureTrail | ClassActivity | Event | Restaurant

  /** The value the enum stores in the `activity_type` column. */
  function StoredName(t: ActivityType): string {
    match t
    case Playground => "playground"
    case Library => "library"
    case Museum => "museum"
    case Park => "park"
    case SplashPad => "splash_pad"
    case IndoorPlay => "indoor_play"
    case Farm => "farm"
    case NatureTrail => "nature_trail"
    case ClassActivity => "class"
    case Event => "event"
    case Restaurant => "restaurant"
  }

  /** The enum's key, which differs from the stored value only for `class_activity`. */
  function KeyName(t: ActivityType): string {
    if t == ClassActivity then "class_activity" else StoredName(t)
  }

  /** Assigning a string to the enum attribute: Rails accepts a key or a
      stored value; any other string is rejected. */
  function Cast(s: string): (r: Option<ActivityType>)
    ensures r.Some? ==> s == StoredName(r.value) || s == KeyName(r.value)
  {
    if s == "playground" then Some(Playground)
    else if s == "library" then Some(Library)
    else if s == "museum" then Some(Museum)
    else if s == "park" then Some(Park)
    else if s == "splash_pad" then Some(SplashPad)
    else if s == "indoor_play" then Some(IndoorPlay)
    else if s == "farm" then Some(Farm)
    else if s == "nature_trail" then Some(NatureTrail)
    else if s == "class" || s == "class_activity" then Some(ClassActivity)
    else if s == "event" then Some(Event)
    else if s == "restaurant" then Some(Restaurant)
    else None
  }

  /** Every type reads back from its stored value and from its key; so the
      stored values of distinct types are distinct. */
  lemma CastRoundTrip(t: ActivityType)
    ensures Cast(StoredName(t)) == Some(t)
    ensures Cast(KeyName(t)) == Some(t)
  {
  }

  datatype Activity = Activity(
    id: nat,
    name: string,
    kind: Option<ActivityType>,
    isEvent: bool,
    indoor: bool,
    costLevel: int,
    hours: map<string, string>,   // day name -> hours string
    startDate: Option<Instant>,
    endDate: Option<Instant>,
    distance: Option<real>        // miles; attached by the caller, never persisted
  )

  /** The validation rules of activity.rb as one predicate. */
  predicate Valid(a: Activity) {
    && !IsBlank(a.name)
    && a.kind.Some?
    && 0 <= a.costLevel <= 3
    && (a.isEvent ==> a.startDate.Some? && a.endDate.Some? && a.startDate.value <= a.endDate.value)
    && (!a.isEvent ==> |a.hours| > 0)
  }

  /** The error messages `valid?` collects, in declaration order. */
  function Errors(a: Activity): (r: seq<string>)
    ensures r == [] <==> Valid(a)
  {
    (if IsBlank(a.name) then ["Name can't be blank"] else [])
    + (if a.kind.None? then ["Activity type can't be blank"] else [])
    + (if !(0 <= a.costLevel <= 3) then ["Cost level is not included in the list"] else [])
    + (if a.isEvent && a.startDate.None? then ["Start date can't be blank"] else [])
    + (if a.isEvent && a.endDate.None? then ["End date can't be blank"] else [])
    + (if a.isEvent && a.startDate.Some? && a.endDate.Some? && a.endDate.value < a.startDate.value
       then ["End date must be after start date"] else [])
    + (if !a.isEvent && |a.hours| == 0 then ["Hours can't be blank"] else [])
  }

  /** An event ending exactly when it starts is valid; one ending earlier is
      not, whatever its other fields. */
  lemma EventEndBoundary(a: Activity)
    requires a.isEvent && a.startDate.Some? && a.endDate.Some?
    ensures a.endDate.value < a.startDate.value ==> !Valid(a)
    ensures a.endDate == a.startDate && !IsBlank(a.name) && a.kind.Some? && 0 <= a.costLevel <= 3 ==> Valid(a)
  {
  }
}

=== FILE: activity_filter.dfy ===
/** ActivityFilter (app/services/activity_filter.rb): the "Now" feed. Keep
    what is open now or opens within two hours, drop outdoor places when rain
    is heavy, and, when nothing survives, fall back to up to ten places that
    open later today or tomorrow.

    `Activity#open_at?` and `Activity#opens_within?` are defined outside the
    files this model covers; they are taken as given functions (a `Probe`)
    and never given bodies here. */
module ActivityFilter {
  import opened Wrappers
  import opened Text
  import opened Seqs
  import opened Activities
  import opened WeatherService
  import HoursParser

  const NowWindowHours: nat := 2
  const RelaxedWindowHours: nat := 12
  const RelaxedLimit: nat := 10

  /** The collaborators the filter calls, fixed at `current_time`:
      `open_at?(current_time)`, `opens_within?(n)`, and the lower-case name
      of tomorrow's weekday ("saturday", ...). */
  datatype Probe = Probe(
    openAt: Activity -> bool,
    opensWithin: (Activity, nat) -> Option<string>,
    tomorrowDay: string)

  /** Ruby's `present?` on a String-or-nil. */
  predicate Present(o: Option<string>) {
    o.Some? && !IsBlank(o.value)
  }

  /** The time filter: open now, or opening within two hours. */
  predicate OpenOrOpeningSoon(p: Probe, a: Activity) {
    p.openAt(a) || Present(p.opensWithin(a, NowWindowHours))
  }

  /** `apply_weather_filter`. */
  function ApplyWeatherFilter(acts: seq<Activity>, s: Strategy): (r: seq<Activity>)
    ensures s == HideOutdoor ==> forall a :: a in r ==> a.indoor
    ensures s == HideOutdoor ==> forall a :: a in acts && a.indoor ==> multiset(r)[a] == multiset(acts)[a]
    ensures s != HideOutdoor ==> r == acts
    ensures IsSubseq(r, acts)
  {
    if s == HideOutdoor then Filter(acts, (a: Activity) => a.indoor)
    else
      SubseqRefl(acts);
      acts
  }

  /** `will_open_tomorrow?`: tomorrow's hours exist, are not blank or
      "closed", and yield an opening time. The blank/"closed" test is
      subsumed by the parser's own. */
  function WillOpenTomorrow(a: Activity, tomorrowDay: string): (r: bool)
    ensures r <==> tomorrowDay in a.hours && HoursParser.GetOpeningTime(a.hours[tomorrowDay]).Some?
  {
    if tomorrowDay !in a.hours then false
    else
      var h := a.hours[tomorrowDay];
      if IsBlank(h) || Lower(h) == "closed" then false
      else HoursParser.GetOpeningTime(h).Some?
  }

  /** The relaxed test: not open now, but opening within twelve hours or tomorrow. */
  predicate OpensLater(p: Probe, a: Activity) {
    !p.openAt(a) && (Present(p.opensWithin(a, RelaxedWindowHours)) || WillOpenTomorrow(a, p.tomorrowDay))
  }

  /** OpensLater as a selection block. */
  function LaterTest(p: Probe): Activity -> bool {
    a => OpensLater(p, a)
  }

  /** `relax_filters_for_empty_state`: the first ten activities that open
      later. Something is offered whenever anything opens later, and an
      activity that opens later is left out only when ten earlier ones in
      the input were already taken. */
  function RelaxFilters(acts: seq<Activity>, p: Probe): (r: seq<Activity>)
    ensures |r| <= RelaxedLimit
    ensures forall a :: a in r ==> OpensLater(p, a)
    ensures IsSubseq(r, acts)
    ensures (exists a :: a in acts && OpensLater(p, a)) ==> r != []
    ensures forall i :: 0 <= i < |acts| && OpensLater(p, acts[i]) && |Filter(acts[..i], LaterTest(p))| < RelaxedLimit
              ==> acts[i] in r
  {
    var later := Filter(acts, LaterTest(p));
    var r := Take(later, RelaxedLimit);
    PrefixSubseq(later, acts, |r|);
    assert forall a :: a in r ==> a in later;
    RelaxKeeps(acts, p);
    r
  }

  lemma RelaxKeeps(acts: seq<Activity>, p: Probe)
    ensures forall i :: 0 <= i < |acts| && OpensLater(p, acts[i]) && |Filter(acts[..i], LaterTest(p))| < RelaxedLimit
              ==> acts[i] in Take(Filter(acts, LaterTest(p)), RelaxedLimit)
    ensures (exists a :: a in acts && OpensLater(p, a)) ==> Take(Filter(acts, LaterTest(p)), RelaxedLimit) != []
  {
    forall i | 0 <= i < |acts| && OpensLater(p, acts[i]) && |Filter(acts[..i], LaterTest(p))| < RelaxedLimit
      ensures acts[i] in Take(Filter(acts, LaterTest(p)), RelaxedLimit)
    {
      FirstNKeeps(acts, LaterTest(p), RelaxedLimit, i);
    }
    if a :| a in acts && OpensLater(p, a) {
      var later := Filter(acts, LaterTest(p));
      assert LaterTest(p)(a);
      assert multiset(later)[a] == multiset(acts)[a] > 0;
      assert later != [];
    }
  }

  /** `filter_for_now`. */
  function FilterForNow(acts: seq<Activity>, s: Strategy, p: Probe): (r: seq<Activity>)
    ensures IsSubseq(r, acts)
    ensures |r| <= |acts|
  {
    var timeFiltered := Filter(acts, (a: Activity) => OpenOrOpeningSoon(p, a));
    var weatherFiltered := ApplyWeatherFilter(timeFiltered, s);
    if weatherFiltered == [] then RelaxFilters(acts, p)
    else
      SubseqTrans(weatherFiltered, timeFiltered, acts);
      weatherFiltered
  }

  /** The two outcomes of the feed. Either something passed the time and
      weather filters, and the result is exactly those activities; or nothing
      did, and the result is the relaxed list drawn from the unfiltered input. */
  lemma FilterForNowCases(acts: seq<Activity>, s: Strategy, p: Probe)
    ensures var passed := ApplyWeatherFilter(Filter(acts, (a: Activity) => OpenOrOpeningSoon(p, a)), s);
            FilterForNow(acts, s, p) == (if passed == [] then RelaxFilters(acts, p) else passed)
    ensures var passed := ApplyWeatherFilter(Filter(acts, (a: Activity) => OpenOrOpeningSoon(p, a)), s);
            passed != [] ==> forall a :: a in FilterForNow(acts, s, p) ==>
              OpenOrOpeningSoon(p, a) && (s == HideOutdoor ==> a.indoor)
    ensures var passed := ApplyWeatherFilter(Filter(acts, (a: Activity) => OpenOrOpeningSoon(p, a)), s);
            passed == [] ==>
              && |FilterForNow(acts, s, p)| <= RelaxedLimit
              && forall a :: a in FilterForNow(acts, s, p) ==> OpensLater(p, a)
  {
    var timeFiltered := Filter(acts, (a: Activity) => OpenOrOpeningSoon(p, a));
    SubseqMembers(ApplyWeatherFilter(timeFiltered, s), timeFiltered);
  }

  /** The fallback ignores the weather: under heavy rain an outdoor park
      that opens tomorrow is still offered when nothing indoor is open. */
  lemma RelaxationIgnoresWeather(park: Activity, p: Probe)
    requires !park.indoor && !p.openAt(park) && !Present(p.opensWithin(park, NowWindowHours))
    requires WillOpenTomorrow(park, p.tomorrowDay)
    ensures FilterForNow([park], HideOutdoor, p) == [park]
  {
    assert !OpenOrOpeningSoon(p, park);
    assert Filter([park], (a: Activity) => OpenOrOpeningSoon(p, a)) == [];
    assert OpensLater(p, park);
    assert Filter([park], LaterTest(p)) == [park];
  }
}

=== FILE: event_content_parser.dfy ===
/** EventContentParser (app/services/event_content_parser.rb): reads an
    event page into the importer's fields. The model works on the text the
    HTML parser already extracted (`Doc`): the page text and the texts of its
    paragraphs. Finding the start date (Chronic or `Date.parse` over three
    date patterns), the address patterns and the registration link are left
    to given values; so is the regular-expression match of the
    "from H to H a.m./p.m." phrase, which arrives as a `ClockMatch`. Times
    of day are taken on UTC days. */
module EventContentParser {
  import opened Wrappers
  import opened Text
  import opened Seqs
  import opened Activities
  import EventImporter

  // ---------------------------------------------------------------- names

  /** Ruby's `\w`: ASCII letters, digits and underscore. */
  predicate IsWordChar(c: char) {
    'a' <= c <= 'z' || 'A' <= c <= 'Z' || IsDigit(c) || c == '_'
  }

  /** The end of the run of `\w` characters starting at i. */
  function WordCharRunEnd(s: string, i: nat): (j: nat)
    requires i <= |s|
    ensures i <= j <= |s|
    ensures forall k :: i <= k < j ==> IsWordChar(s[k])
    ensures j == |s| || !IsWordChar(s[j])
    decreases |s| - i
  {
    if i < |s| && IsWordChar(s[i]) then WordCharRunEnd(s, i + 1) else i
  }

  /** Where `.*$` stops: the first newline at or after i, or the end. */
  function LineEnd(s: string, i: nat): (j: nat)
    requires i <= |s|
    ensures i <= j <= |s|
    ensures forall k :: i <= k < j ==> s[k] != '\n'
    ensures j == |s| || s[j] == '\n'
    decreases |s| - i
  {
    if i < |s| && s[i] != '\n' then LineEnd(s, i + 1) else i
  }

  /** The two suffixes `extract_name` removes: ` on \w+ \d+.*$` and `\.\.\..*$`. */
  datatype Suffix = OnDate | Ellipsis

  /** The suffix pattern matches starting at p. */
  predicate SuffixAt(pat: Suffix, s: string, p: nat) {
    match pat
    case OnDate =>
      && OccursAt(s, " on ", p)
      && var e := WordCharRunEnd(s, p + 4);
         e > p + 4 && e + 1 < |s| && s[e] == ' ' && IsDigit(s[e + 1])
    case Ellipsis => OccursAt(s, "...", p)
  }

  /** `gsub(pattern, '')` from index i on: each leftmost match is dropped
      from where it starts to the end of its line. */
  function CutSuffixes(s: string, i: nat, pat: Suffix): (r: string)
    requires i <= |s|
    ensures |r| <= |s| - i
    decreases |s| - i
  {
    if i == |s| then []
    else if SuffixAt(pat, s, i) then CutSuffixes(s, LineEnd(s, i + 1), pat)
    else [s[i]] + CutSuffixes(s, i + 1, pat)
  }

  /** Without a match the substitution changes nothing. */
  lemma {:induction false} CutNoMatch(s: string, i: nat, pat: Suffix)
    requires i <= |s|
    requires forall p :: i <= p < |s| ==> !SuffixAt(pat, s, p)
    ensures CutSuffixes(s, i, pat) == s[i..]
    decreases |s| - i
  {
    if i < |s| {
      CutNoMatch(s, i + 1, pat);
      assert s[i..] == [s[i]] + s[i + 1..];
    }
  }

  /** On a single line, the substitution keeps exactly the text before the
      first match. */
  lemma {:induction false} CutSingleLine(s: string, i: nat, pat: Suffix, p: nat)
    requires i <= p < |s| && SuffixAt(pat, s, p)
    requires forall k :: 0 <= k < |s| ==> s[k] != '\n'
    requires forall q :: i <= q < p ==> !SuffixAt(pat, s, q)
    ensures CutSuffixes(s, i, pat) == s[i..p]
    decreases p - i
  {
    if i < p {
      CutKeeps(s, i, pat);
      CutSingleLine(s, i + 1, pat, p);
      ConsSlice(s, i, p);
    } else {
      CutDrops(s, i, pat);
    }
  }

  lemma ConsSlice<T>(s: seq<T>, i: nat, p: nat)
    requires i < p <= |s|
    ensures s[i..p] == [s[i]] + s[i + 1..p]
  {
  }

  /** Where the pattern does not match, the character is kept. */
  lemma CutKeeps(s: string, i: nat, pat: Suffix)
    requires i < |s| && !SuffixAt(pat, s, i)
    ensures CutSuffixes(s, i, pat) == [s[i]] + CutSuffixes(s, i + 1, pat)
  {
  }

  /** A match on the last line removes the rest of the text. */
  lemma CutDrops(s: string, i: nat, pat: Suffix)
    requires i < |s| && SuffixAt(pat, s, i)
    requires forall k :: i < k < |s| ==> s[k] != '\n'
    ensures CutSuffixes(s, i, pat) == []
  {
    assert LineEnd(s, i + 1) == |s|;
  }

  /** The substitution only deletes characters. */
  lemma {:induction false} CutSubseq(s: string, i: nat, pat: Suffix)
    requires i <= |s|
    ensures IsSubseq(CutSuffixes(s, i, pat), s[i..])
    decreases |s| - i
  {
    if i == |s| {
    } else if SuffixAt(pat, s, i) {
      var j := LineEnd(s, i + 1);
      CutSubseq(s, j, pat);
      SuffixSubseq(s, i, j);
      SubseqTrans(CutSuffixes(s, j, pat), s[j..], s[i..]);
    } else {
      CutSubseq(s, i + 1, pat);
      var rest := CutSuffixes(s, i + 1, pat);
      assert ([s[i]] + rest)[0] == s[i..][0];
      assert ([s[i]] + rest)[1..] == rest;
      assert s[i..][1..] == s[i + 1..];
    }
  }

  /** `strip` only deletes characters. */
  lemma StripSubseq(s: string)
    ensures IsSubseq(Strip(s), s)
  {
    var a := SkipSpaces(s, 0);
    var b := TrimEnd(s, |s|);
    if a < b {
      SliceSubseq(s, a, b);
    }
  }

  /** `extract_name`: nil for a blank title; the title without its date or
      ellipsis suffix, stripped; the whole title when nothing would remain.
      Either way the name is made of the title's characters, in order. */
  function ExtractName(title: Option<string>): (r: Option<string>)
    ensures title.None? || IsBlank(title.value) ==> r.None?
    ensures title.Some? && !IsBlank(title.value) ==> r.Some? && !IsBlank(r.value) && |r.value| <= |title.value|
    ensures r.Some? ==> IsSubseq(r.value, title.value)
    ensures r.Some? && r.value != title.value ==>
              r.value == Strip(CutSuffixes(CutSuffixes(title.value, 0, OnDate), 0, Ellipsis))
    ensures (title.Some? && !IsBlank(title.value)
             && IsBlank(CutSuffixes(CutSuffixes(title.value, 0, OnDate), 0, Ellipsis))) ==> r == title
  {
    if title.None? || IsBlank(title.value) then None
    else
      var t := title.value;
      var once := CutSuffixes(t, 0, OnDate);
      var cleaned := Strip(CutSuffixes(once, 0, Ellipsis));
      if cleaned != [] then
        assert !IsSpace(cleaned[0]);
        CutSubseq(t, 0, OnDate);
        CutSubseq(once, 0, Ellipsis);
        StripSubseq(CutSuffixes(once, 0, Ellipsis));
        assert t[0..] == t && once[0..] == once;
        SubseqTrans(cleaned, CutSuffixes(once, 0, Ellipsis), once);
        SubseqTrans(cleaned, once, t);
        Some(cleaned)
      else
        SubseqRefl(t);
        Some(t)
  }

  /** A stripped title with neither suffix comes back unchanged. */
  lemma NameKeepsPlainTitle(t: string)
    requires !IsBlank(t) && !IsSpace(t[0]) && !IsSpace(t[|t| - 1])
    requires forall p :: 0 <= p < |t| ==> !SuffixAt(OnDate, t, p) && !SuffixAt(Ellipsis, t, p)
    ensures ExtractName(Some(t)) == Some(t)
  {
    CutNoMatch(t, 0, OnDate);
    CutNoMatch(t, 0, Ellipsis);
    assert t[0..] == t;
    StripKeeps(t);
  }

  /** The date suffix goes: a title "<base> on <word> <digits>..." on one
      line, with no earlier match and no dots in the base, is named <base>
      (so "Egg Hunt on March 22" is named "Egg Hunt"). */
  lemma NameDropsDateSuffix(base: string, month: string, rest: string)
    requires !IsBlank(base) && !IsSpace(base[0]) && !IsSpace(base[|base| - 1])
    requires forall k :: 0 <= k < |base| ==> base[k] != '.' && base[k] != '\n'
    requires month != [] && forall k :: 0 <= k < |month| ==> IsWordChar(month[k])
    requires rest != [] && IsDigit(rest[0]) && forall k :: 0 <= k < |rest| ==> rest[k] != '\n'
    requires forall q :: 0 <= q < |base| ==> !SuffixAt(OnDate, base + " on " + month + " " + rest, q)
    ensures ExtractName(Some(base + " on " + month + " " + rest)) == Some(base)
  {
    var t := base + " on " + month + " " + rest;
    DateTitleShape(base, month, rest);
    CutSingleLine(t, 0, OnDate, |base|);
    NoDotsNoEllipsis(base);
    CutNoMatch(base, 0, Ellipsis);
    assert base[0..] == base;
    StripKeeps(base);
  }

  /** The date suffix of such a title starts right after the base, and the
      title is one line. */
  lemma DateTitleShape(base: string, month: string, rest: string)
    requires forall k :: 0 <= k < |base| ==> base[k] != '\n'
    requires month != [] && forall k :: 0 <= k < |month| ==> IsWordChar(month[k])
    requires rest != [] && IsDigit(rest[0]) && forall k :: 0 <= k < |rest| ==> rest[k] != '\n'
    ensures var t := base + " on " + month + " " + rest;
            && t[..|base|] == base
            && SuffixAt(OnDate, t, |base|)
            && forall k :: 0 <= k < |t| ==> t[k] != '\n'
  {
    var t := base + " on " + month + " " + rest;
    var n := |base|;
    assert t[..n] == base;
    assert t[n..n + 4] == " on ";
    WordRunOver(t, n + 4, n + 4 + |month|);
    assert t[n + 4 + |month|] == ' ' && t[n + 5 + |month|] == rest[0];
    forall k | 0 <= k < |t| ensures t[k] != '\n' {
      if k < n { assert t[k] == base[k]; }
      else if n + 4 <= k < n + 4 + |month| { assert t[k] == month[k - n - 4]; }
      else if n + 5 + |month| <= k { assert t[k] == rest[k - n - 5 - |month|]; }
    }
  }

  lemma {:induction false} WordRunOver(s: string, i: nat, j: nat)
    requires i <= j < |s| && !IsWordChar(s[j])
    requires forall k :: i <= k < j ==> IsWordChar(s[k])
    ensures WordCharRunEnd(s, i) == j
    decreases j - i
  {
    if i < j {
      WordRunOver(s, i + 1, j);
    }
  }

  lemma NoDotsNoEllipsis(s: string)
    requires forall k :: 0 <= k < |s| ==> s[k] != '.'
    ensures forall q :: 0 <= q < |s| ==> !SuffixAt(Ellipsis, s, q)
  {
    forall q | 0 <= q < |s| ensures !SuffixAt(Ellipsis, s, q) {
      if q + 3 <= |s| {
        assert s[q..q + 3][0] == s[q];
      }
    }
  }

  /** A title that is all suffix falls back to the whole title. */
  lemma NameFallsBackToTitle()
    ensures ExtractName(Some("...")) == Some("...")
  {
    var t := "...";
    forall q | 0 <= q < |t| ensures !SuffixAt(OnDate, t, q) {
      assert t[q] != ' ';
    }
    assert t[0..] == t;
    assert SuffixAt(Ellipsis, t, 0);
    assert LineEnd(t, 1) == 3;
    assert CutSuffixes(t, 0, Ellipsis) == [];
  }

  // ---------------------------------------------------------- cost level

  /** `\bfree\b` matches at p. */
  predicate FreeAt(t: string, p: nat) {
    && OccursAt(t, "free", p)
    && (p == 0 || !IsWordChar(t[p - 1]))
    && (p + 4 == |t| || !IsWordChar(t[p + 4]))
  }

  predicate MentionsFree(t: string) {
    exists p: nat | p <= |t| :: FreeAt(t, p)
  }

  /** `\$(\d+)` matches at p. */
  predicate DollarAt(t: string, p: nat) {
    p + 1 < |t| && t[p] == '$' && IsDigit(t[p + 1])
  }

  /** The amount `\$(\d+)` captures at p. */
  function AmountAt(t: string, p: nat): nat
    requires DollarAt(t, p)
  {
    var e := DigitRunEnd(t, p + 1);
    DecimalValue(t[p + 1..e])
  }

  /** `scan(/\$(\d+)/).flatten.map(&:to_i)` from index i on. */
  function Amounts(t: string, i: nat): (r: seq<nat>)
    requires i <= |t|
    ensures r == [] <==> forall p :: i <= p < |t| ==> !DollarAt(t, p)
    decreases |t| - i
  {
    if i == |t| then []
    else if DollarAt(t, i) then [AmountAt(t, i)] + Amounts(t, DigitRunEnd(t, i + 1))
    else Amounts(t, i + 1)
  }

  /** The scan finds every amount in the text: a match cannot start inside
      the digits of another. */
  lemma {:induction false} ScanFindsEveryAmount(t: string, i: nat, p: nat)
    requires i <= p && DollarAt(t, p)
    ensures AmountAt(t, p) in Amounts(t, i)
    decreases |t| - i
  {
    if i < p {
      if DollarAt(t, i) {
        var e := DigitRunEnd(t, i + 1);
        DigitRunStops(t, i + 1, p);
        ScanFindsEveryAmount(t, e, p);
      } else {
        ScanFindsEveryAmount(t, i + 1, p);
      }
    }
  }

  function MaxOf(s: seq<nat>): (m: nat)
    requires s != []
    ensures m in s && forall x :: x in s ==> x <= m
  {
    if |s| == 1 then s[0]
    else
      var m := MaxOf(s[1..]);
      assert forall x :: x in s ==> x == s[0] || x in s[1..];
      if s[0] >= m then s[0] else m
  }

  /** The `case` on the largest amount: `0..5`, `6..15`, anything larger. */
  function CostBucket(amount: nat): (r: int)
    ensures 1 <= r <= 3
  {
    if amount <= 5 then 1 else if amount <= 15 then 2 else 3
  }

  /** The buckets, and that they never fall as the amount grows. */
  lemma CostBucketBands(a: nat, b: nat)
    ensures CostBucket(a) == 1 <==> a <= 5
    ensures CostBucket(a) == 2 <==> 6 <= a <= 15
    ensures CostBucket(a) == 3 <==> 16 <= a
    ensures a <= b ==> CostBucket(a) <= CostBucket(b)
  {
  }

  /** `extract_cost_level` on the page text. */
  function ExtractCostLevel(text: string): (r: int)
    ensures 0 <= r <= 3
    ensures MentionsFree(Lower(text)) ==> r == 0
    ensures r == 0 <==> MentionsFree(Lower(text)) || forall p :: 0 <= p < |text| ==> !DollarAt(Lower(text), p)
  {
    var t := Lower(text);
    if MentionsFree(t) then 0
    else
      var amounts := Amounts(t, 0);
      if amounts == [] then 0 else CostBucket(MaxOf(amounts))
  }

  /** Without the word "free", the level is the bucket of the largest dollar
      amount: at least the bucket of every amount, and equal to the bucket
      of one of them. */
  lemma CostFromLargestAmount(text: string, p: nat)
    requires !MentionsFree(Lower(text)) && DollarAt(Lower(text), p)
    ensures ExtractCostLevel(text) >= CostBucket(AmountAt(Lower(text), p))
    ensures exists q :: 0 <= q < |text| && DollarAt(Lower(text), q)
                        && ExtractCostLevel(text) == CostBucket(AmountAt(Lower(text), q))
  {
    var t := Lower(text);
    ScanFindsEveryAmount(t, 0, p);
    var amounts := Amounts(t, 0);
    CostBucketBands(AmountAt(t, p), MaxOf(amounts));
    AmountsCameFrom(t, 0, MaxOf(amounts));
  }

  /** Every scanned amount is the amount of some match. */
  lemma {:induction false} AmountsCameFrom(t: string, i: nat, x: nat)
    requires i <= |t| && x in Amounts(t, i)
    ensures exists q :: i <= q < |t| && DollarAt(t, q) && AmountAt(t, q) == x
    decreases |t| - i
  {
    if DollarAt(t, i) {
      if x != AmountAt(t, i) {
        AmountsCameFrom(t, DigitRunEnd(t, i + 1), x);
      }
    } else {
      AmountsCameFrom(t, i + 1, x);
    }
  }

  // -------------------------------------------------------- hour of day

  /** The parser's 24-hour conversion as written, for both the start and
      the end time: an a.m. hour is left as it is (the 12 a.m. case sets
      12 to 12), and a p.m. hour other than 12 gains twelve. So "12 a.m."
      stays 12, which is noon. */
  function ConvertHourAsWritten(hour: int, isPm: bool): (r: int)
    ensures !isPm ==> r == hour
    ensures isPm ==> r == (if hour == 12 then 12 else hour + 12)
    ensures 1 <= hour <= 12 ==> 1 <= r <= 23 && r % 12 == hour % 12
    ensures 1 <= hour <= 12 && isPm ==> r >= 12
  {
    var h := if hour == 12 && !isPm then 12 else hour;
    if isPm && h != 12 then h + 12 else h
  }

  /** The as-written conversion puts "12 a.m." in the afternoon. */
  lemma MidnightReadsAsNoon()
    ensures ConvertHourAsWritten(12, false) == 12
    ensures ConvertHourAsWritten(12, true) == 12
    ensures ConvertHour(12, false) == 0
  {
  }

  /** The two conversions differ only at "12 a.m.". */
  lemma ConvertHourDiffersAtMidnight(hour: int, isPm: bool)
    ensures ConvertHourAsWritten(hour, isPm) != ConvertHour(hour, isPm) <==> hour == 12 && !isPm
  {
  }

  /** The 12-hour to 24-hour conversion with "12 a.m." as midnight. */
  function ConvertHour(hour: int, isPm: bool): (r: int)
    ensures 1 <= hour <= 12 ==> 0 <= r <= 23 && r % 12 == hour % 12 && (r >= 12 <==> isPm)
  {
    if hour == 12 && !isPm then 0
    else if isPm && hour != 12 then hour + 12
    else hour
  }

  /** 24-hour back to 12-hour: the hour 1..12 and whether it is p.m. */
  function To12Hour(h: int): (r: (int, bool))
    requires 0 <= h <= 23
    ensures 1 <= r.0 <= 12
  {
    (if h % 12 == 0 then 12 else h % 12, h >= 12)
  }

  /** The corrected conversion is a bijection between 12-hour and 24-hour
      clock hours. */
  lemma ConvertHourRoundTrip(hour: int, isPm: bool, h: int)
    ensures 1 <= hour <= 12 ==> To12Hour(ConvertHour(hour, isPm)) == (hour, isPm)
    ensures 0 <= h <= 23 ==> ConvertHour(To12Hour(h).0, To12Hour(h).1) == h
  {
  }

  // ----------------------------------------------------------- end date

  /** The captures of the "from H[:MM] a.m. to H[:MM] p.m." phrase that
      matter: the closing hour, its minutes when written, and its suffix. */
  datatype ClockMatch = ClockMatch(hour: nat, minute: Option<nat>, meridiem: string)

  predicate IsPm(m: ClockMatch) {
    Contains(Lower(m.meridiem), "p")
  }

  /** `Time#change(hour:, min:)`; None is the ArgumentError an hour past
      23 or a minute past 59 raises. */
  function ChangeTime(t: Instant, hour: int, minute: int): (r: Option<Instant>)
    ensures r.Some? <==> 0 <= hour <= 23 && 0 <= minute <= 59
    ensures r.Some? ==> r.value / SecondsPerDay == t / SecondsPerDay
                        && r.value % SecondsPerDay == hour * SecondsPerHour + minute * 60
  {
    if 0 <= hour <= 23 && 0 <= minute <= 59 then
      Some(t - t % SecondsPerDay + hour * SecondsPerHour + minute * 60)
    else None
  }

  /** `extract_end_date` once a start date exists, as written: the closing
      clock converted by `ConvertHourAsWritten` and set on the start's
      day, or two hours after the start when the phrase is absent. The
      change raises, and the result is None, when the converted hour is
      past 23 or the minute past 59. */
  function EndDate(start: Instant, m: Option<ClockMatch>): (r: Option<Instant>)
    ensures m.None? ==> r == Some(start + EventImporter.DefaultEventSeconds)
    ensures m.Some? ==> (r.Some? <==> ConvertHourAsWritten(m.value.hour, IsPm(m.value)) <= 23
                                      && m.value.minute.GetOr(0) <= 59)
    ensures m.Some? && r.Some? ==>
              && r.value / SecondsPerDay == start / SecondsPerDay
              && var minuteOfDay := r.value % SecondsPerDay / 60;
              && minuteOfDay / 60 == ConvertHourAsWritten(m.value.hour, IsPm(m.value))
              && minuteOfDay % 60 == m.value.minute.GetOr(0)
    ensures m.Some? && !IsPm(m.value) && m.value.hour <= 23 && m.value.minute.GetOr(0) <= 59 ==>
              r.Some? && r.value % SecondsPerDay / 60 / 60 == m.value.hour
  {
    match m
    case None => Some(start + 2 * SecondsPerHour)
    case Some(c) => SetClock(start, ConvertHourAsWritten(c.hour, IsPm(c)), c.minute.GetOr(0))
  }

  /** `start_date.change(hour:, min:)`, read back as a time of day. */
  function SetClock(start: Instant, h: int, mi: nat): (r: Option<Instant>)
    ensures r.Some? <==> 0 <= h <= 23 && mi <= 59
    ensures r.Some? ==> r.value / SecondsPerDay == start / SecondsPerDay
                        && r.value % SecondsPerDay / 60 / 60 == h
                        && r.value % SecondsPerDay / 60 % 60 == mi
  {
    var r := ChangeTime(start, h, mi);
    if r.Some? then
      MinuteOfDay(r.value, h, mi);
      r
    else r
  }

  /** `extract_end_date` with "12 a.m." read as midnight: the clock of the
      phrase, in the half of the day its suffix names, on the start's day. */
  function EndDateCorrected(start: Instant, m: Option<ClockMatch>): (r: Option<Instant>)
    ensures m.None? ==> r == Some(start + EventImporter.DefaultEventSeconds)
    ensures r.None? ==> m.Some?
    ensures m.Some? && 1 <= m.value.hour <= 12 && m.value.minute.GetOr(0) <= 59 ==>
              && r.Some?
              && r.value / SecondsPerDay == start / SecondsPerDay
              && var minuteOfDay := r.value % SecondsPerDay / 60;
              && minuteOfDay / 60 % 12 == m.value.hour % 12
              && (minuteOfDay >= 12 * 60 <==> IsPm(m.value))
              && minuteOfDay % 60 == m.value.minute.GetOr(0)
  {
    match m
    case None => Some(start + 2 * SecondsPerHour)
    case Some(c) => SetClock(start, ConvertHour(c.hour, IsPm(c)), c.minute.GetOr(0))
  }

  /** The end date as written and corrected agree on every phrase except
      one that closes at "12 a.m.". */
  lemma EndDateAgrees(start: Instant, m: Option<ClockMatch>)
    ensures !(m.Some? && m.value.hour == 12 && !IsPm(m.value)) ==> EndDate(start, m) == EndDateCorrected(start, m)
  {
    if m.Some? {
      ConvertHourDiffersAtMidnight(m.value.hour, IsPm(m.value));
    }
  }

  /** An event that ends at "12 a.m." ends at noon of its start's day as
      written, and at the midnight that begins that day once corrected. */
  lemma TwelveAmEnd(start: Instant, c: ClockMatch)
    requires c.hour == 12 && !IsPm(c) && c.minute.GetOr(0) <= 59
    ensures EndDate(start, Some(c)).Some? && EndDateCorrected(start, Some(c)).Some?
    ensures EndDate(start, Some(c)).value % SecondsPerDay / 60 == 12 * 60 + c.minute.GetOr(0)
    ensures EndDateCorrected(start, Some(c)).value % SecondsPerDay / 60 == c.minute.GetOr(0)
  {
  }

  /** Reading the hour and minute back off a time of day. */
  lemma MinuteOfDay(x: int, h: int, mi: int)
    requires 0 <= h <= 23 && 0 <= mi <= 59
    requires x % SecondsPerDay == h * SecondsPerHour + mi * 60
    ensures x % SecondsPerDay / 60 == h * 60 + mi
    ensures (h * 60 + mi) / 60 == h && (h * 60 + mi) % 60 == mi
  {
  }

  // -------------------------------------------------------- description

  const FooterWords: seq<string> := ["share this", "follow us", "subscribe", "email", "facebook", "twitter"]
  const MaxParagraphs: nat := 4
  const MaxDescriptionWords: nat := 500

  predicate IsFooter(p: string) {
    exists w :: w in FooterWords && Contains(Lower(p), w)
  }

  /** A stripped paragraph the description keeps: not blank and no footer wording. */
  predicate KeepParagraph(p: string) {
    !IsBlank(p) && !IsFooter(p)
  }

  /** The stripped, non-blank, non-footer paragraphs, the first four of them
      (the two rejections are one selection here). Every eligible paragraph
      is kept when fewer than four eligible ones precede it. */
  function KeptParagraphs(texts: seq<string>): (r: seq<string>)
    ensures |r| <= MaxParagraphs
    ensures forall p :: p in r ==> p != [] && !IsFooter(p)
    ensures IsSubseq(r, Map(texts, Strip))
    ensures forall i :: 0 <= i < |texts| && KeepParagraph(Strip(texts[i]))
              && |Filter(Map(texts, Strip)[..i], KeepParagraph)| < MaxParagraphs
              ==> Strip(texts[i]) in r
  {
    var stripped := Map(texts, Strip);
    var kept := Filter(stripped, KeepParagraph);
    var r := Take(kept, MaxParagraphs);
    PrefixSubseq(kept, stripped, |r|);
    assert forall p :: p in r ==> p in kept;
    FirstParagraphsKept(texts);
    r
  }

  lemma FirstParagraphsKept(texts: seq<string>)
    ensures forall i :: 0 <= i < |texts| && KeepParagraph(Strip(texts[i]))
              && |Filter(Map(texts, Strip)[..i], KeepParagraph)| < MaxParagraphs
              ==> Strip(texts[i]) in Take(Filter(Map(texts, Strip), KeepParagraph), MaxParagraphs)
  {
    var stripped := Map(texts, Strip);
    forall i | 0 <= i < |texts| && KeepParagraph(Strip(texts[i]))
               && |Filter(stripped[..i], KeepParagraph)| < MaxParagraphs
      ensures Strip(texts[i]) in Take(Filter(stripped, KeepParagraph), MaxParagraphs)
    {
      assert stripped[i] == Strip(texts[i]);
      FirstNKeeps(stripped, KeepParagraph, MaxParagraphs, i);
    }
  }

  /** The words of paragraphs, in order. */
  function AllWords(ps: seq<string>): seq<string> {
    if ps == [] then [] else Words(ps[0]) + AllWords(ps[1..])
  }

  /** `extract_description`: the paragraphs joined by blank lines, cut to
      their first 500 words, joined by single spaces. */
  function ExtractDescription(texts: seq<string>): (r: string)
    ensures Words(r) == Take(AllWords(KeptParagraphs(texts)), MaxDescriptionWords)
    ensures |Words(r)| <= MaxDescriptionWords
  {
    var joined := JoinWith(KeptParagraphs(texts), "\n\n");
    var words := Take(Words(joined), MaxDescriptionWords);
    WordsOfParagraphs(KeptParagraphs(texts));
    WordsOfJoin(words);
    JoinWith(words, " ")
  }

  lemma {:induction false} WordEndAcrossSpace(a: string, c: char, b: string, i: nat)
    requires IsSpace(c) && i <= |a|
    ensures WordEnd(a + [c] + b, i) == WordEnd(a, i)
    decreases |a| - i
  {
    var s := a + [c] + b;
    if i < |a| && !IsSpace(a[i]) {
      assert s[i] == a[i];
      WordEndAcrossSpace(a, c, b, i + 1);
    } else if i == |a| {
      assert s[i] == c;
    } else {
      assert s[i] == a[i];
    }
  }

  /** A whitespace character separates the words on either side of it. */
  lemma {:induction false} WordsAroundSpace(a: string, c: char, b: string)
    requires IsSpace(c)
    ensures Words(a + [c] + b) == Words(a) + Words(b)
    decreases |a|
  {
    var s := a + [c] + b;
    if a == [] {
      assert s == [c] + b;
      assert s[1..] == b;
    } else if IsSpace(a[0]) {
      assert s[0] == a[0];
      assert s[1..] == a[1..] + [c] + b;
      WordsAroundSpace(a[1..], c, b);
    } else {
      var e := WordEnd(a, 0);
      WordEndAcrossSpace(a, c, b, 0);
      assert s[0] == a[0];
      assert s[..e] == a[..e];
      assert s[e..] == a[e..] + [c] + b;
      WordsAroundSpace(a[e..], c, b);
    }
  }

  /** Splitting paragraphs joined by blank lines gives their words in order. */
  lemma {:induction false} WordsOfParagraphs(ps: seq<string>)
    ensures Words(JoinWith(ps, "\n\n")) == AllWords(ps)
  {
    if |ps| == 1 {
      assert AllWords(ps[1..]) == [];
    } else if |ps| > 1 {
      var rest := JoinWith(ps[1..], "\n\n");
      assert JoinWith(ps, "\n\n") == ps[0] + ['\n'] + (['\n'] + rest);
      WordsAroundSpace(ps[0], '\n', ['\n'] + rest);
      assert (['\n'] + rest)[1..] == rest;
      WordsOfParagraphs(ps[1..]);
    }
  }

  // --------------------------------------------------------------- parse

  /** What the HTML parser yields: the page text and each paragraph's text. */
  datatype Doc = Doc(text: string, paragraphs: seq<string>)

  datatype Metadata = Metadata(title: Option<string>, categories: Option<seq<string>>)

  datatype ParsedEvent = ParsedEvent(
    name: Option<string>,
    description: string,
    startDate: Option<Instant>,
    endDate: Option<Instant>,
    address: Option<string>,
    costLevel: int,
    categories: seq<string>)

  /** `parse`: nil for blank content, and nil when computing a field raises
      (the end time's `change` out of range). `start` and `address` are the
      values the left-out date and address extraction produce. */
  function Parse(html: string, doc: Doc, meta: Metadata, start: Option<Instant>, address: Option<string>,
                 endMatch: Option<ClockMatch>): (r: Option<ParsedEvent>)
    ensures IsBlank(html) ==> r.None?
    ensures r.Some? ==>
              && 0 <= r.value.costLevel <= 3
              && r.value.name == ExtractName(meta.title)
              && r.value.categories == meta.categories.GetOr([])
              && r.value.startDate == start
              && (start.None? ==> r.value.endDate.None?)
              && (start.Some? ==> r.value.endDate == EndDate(start.value, endMatch))
              && r.value.description == ExtractDescription(doc.paragraphs)
              && r.value.costLevel == ExtractCostLevel(doc.text)
              && r.value.address == address
    ensures r.None? <==> IsBlank(html) || (start.Some? && EndDate(start.value, endMatch).None?)
    ensures !IsBlank(html) && endMatch.None? ==>
              r.Some? && (start.Some? ==> r.value.endDate == Some(start.value + 2 * SecondsPerHour))
  {
    if IsBlank(html) then None
    else
      var end := if start.None? then Some(None) else
                   match EndDate(start.value, endMatch)
                   case Some(t) => Some(Some(t))
                   case None => None;
      if end.None? then None
      else Some(ParsedEvent(ExtractName(meta.title), ExtractDescription(doc.paragraphs), start, end.value,
                            address, ExtractCostLevel(doc.text), meta.categories.GetOr([])))
  }

  /** The importer's view of a parsed event. */
  function ToEventData(p: ParsedEvent): EventImporter.EventData {
    EventImporter.EventData(p.name, Some(p.description), p.startDate, p.endDate, p.address,
                            Some(p.costLevel), Some(p.categories))
  }

  /** A page with a title and a start date but no closing time imports as a
      valid event two hours long. */
  lemma ParsedEventsImport(html: string, doc: Doc, meta: Metadata, start: Instant, address: Option<string>, found: Activity)
    requires !IsBlank(html) && meta.title.Some? && !IsBlank(meta.title.value)
    ensures var p := Parse(html, doc, meta, Some(start), address, None);
            && p.Some?
            && EventImporter.Import(ToEventData(p.value), found).Success?
            && EventImporter.Import(ToEventData(p.value), found).value.endDate == Some(start + 2 * SecondsPerHour)
  {
    var p := Parse(html, doc, meta, Some(start), address, None).value;
    ImportParsed(p, found, start);
  }

  lemma ImportParsed(p: ParsedEvent, found: Activity, start: Instant)
    requires p.name.Some? && !IsBlank(p.name.value)
    requires p.startDate == Some(start) && p.endDate == Some(start + 2 * SecondsPerHour)
    requires 0 <= p.costLevel <= 3
    ensures EventImporter.Import(ToEventData(p), found).Success?
    ensures EventImporter.Import(ToEventData(p), found).value.endDate == Some(start + 2 * SecondsPerHour)
  {
    var d := ToEventData(p);
    assert EventImporter.HasRequiredFields(d);
    assert Valid(EventImporter.Assign(found, d));
  }
}

=== FILE: event_importer.dfy ===
/** EventImporter (app/services/event_importer.rb): turns one parsed event
    into an event activity. The category list picks the activity type by an
    ordered keyword rule list; keywords in the text decide indoor or
    outdoor; a missing end date defaults to two hours after the start.

    Finding the record to update (by source URL, then by name and start
    date) is a database query: the record found is a parameter. Geocoding,
    saving and the free-text fields (description, address, website,
    registration URL) that are copied through unchanged are not modelled. */
module EventImporter {
  import opened Wrappers
  import opened Text
  import opened Seqs
  import opened Activities

  /** The parser's hash; any field may be nil. */
  datatype EventData = EventData(
    name: Option<string>,
    description: Option<string>,
    startDate: Option<Instant>,
    endDate: Option<Instant>,
    address: Option<string>,
    costLevel: Option<int>,
    categories: Option<seq<string>>)

  const MissingFields: string := "Missing required fields: name or start_date"
  const DefaultEventSeconds: int := 2 * SecondsPerHour

  /** Some of `words` occurs in `text`. */
  predicate MentionsAny(text: string, words: seq<string>) {
    exists w :: w in words && Contains(text, w)
  }

  /** `categories.join(' ').downcase`. */
  function CategoryText(categories: seq<string>): string {
    Lower(JoinWith(categories, " "))
  }

  /** `map_category_to_type`, returning the stored enum value. */
  function MapCategoryToType(categories: Option<seq<string>>): (r: string)
    ensures Cast(r).Some?
    ensures categories.None? || categories.value == [] ==> r == "event"
  {
    if categories.None? || categories.value == [] then "event"
    else
      var t := CategoryText(categories.value);
      if Contains(t, "library") then "library"
      else if Contains(t, "museum") then "museum"
      else if Contains(t, "splash") || Contains(t, "water") then "splash_pad"
      else if Contains(t, "farm") then "farm"
      else if Contains(t, "park") && !Contains(t, "playground") then "park"
      else if Contains(t, "playground") then "playground"
      else "event"
  }

  /** One category rule: some keyword of `anyOf` occurs and none of `noneOf`. */
  datatype Rule = Rule(anyOf: seq<string>, noneOf: seq<string>, typeName: string)

  predicate Fires(rule: Rule, text: string) {
    MentionsAny(text, rule.anyOf) && !MentionsAny(text, rule.noneOf)
  }

  /** The rule list, in the order the rules are tried. */
  const CategoryRules: seq<Rule> := [
    Rule(["library"], [], "library"),
    Rule(["museum"], [], "museum"),
    Rule(["splash", "water"], [], "splash_pad"),
    Rule(["farm"], [], "farm"),
    Rule(["park"], ["playground"], "park"),
    Rule(["playground"], [], "playground")
  ]

  /** The type named by the first rule that fires, "event" when none does. */
  function FirstRule(rules: seq<Rule>, text: string): string {
    if rules == [] then "event"
    else if Fires(rules[0], text) then rules[0].typeName
    else FirstRule(rules[1..], text)
  }

  /** Nothing occurs in the empty text. */
  lemma NothingInEmpty(w: string)
    requires w != []
    ensures !Contains("", w)
  {
  }

  /** What each rule's test says about the text. */
  lemma RulesFire(t: string)
    ensures Fires(CategoryRules[0], t) <==> Contains(t, "library")
    ensures Fires(CategoryRules[1], t) <==> Contains(t, "museum")
    ensures Fires(CategoryRules[2], t) <==> Contains(t, "splash") || Contains(t, "water")
    ensures Fires(CategoryRules[3], t) <==> Contains(t, "farm")
    ensures Fires(CategoryRules[4], t) <==> Contains(t, "park") && !Contains(t, "playground")
    ensures Fires(CategoryRules[5], t) <==> Contains(t, "playground")
  {
    assert !MentionsAny(t, []);
  }

  /** The rule list tried rule by rule. */
  lemma RulesInOrder(t: string)
    ensures var rs := CategoryRules;
            && FirstRule(rs, t) == (if Fires(rs[0], t) then "library" else FirstRule(rs[1..], t))
            && FirstRule(rs[1..], t) == (if Fires(rs[1], t) then "museum" else FirstRule(rs[2..], t))
            && FirstRule(rs[2..], t) == (if Fires(rs[2], t) then "splash_pad" else FirstRule(rs[3..], t))
            && FirstRule(rs[3..], t) == (if Fires(rs[3], t) then "farm" else FirstRule(rs[4..], t))
            && FirstRule(rs[4..], t) == (if Fires(rs[4], t) then "park" else FirstRule(rs[5..], t))
            && FirstRule(rs[5..], t) == (if Fires(rs[5], t) then "playground" else "event")
  {
    var rs := CategoryRules;
    assert rs[1..][1..] == rs[2..] && rs[2..][1..] == rs[3..] && rs[3..][1..] == rs[4..];
    assert rs[4..][1..] == rs[5..] && rs[5..][1..] == [];
  }

  /** The classifier is the first-match rule list; a blank category list
      classifies like an empty text, as "event". */
  lemma CategoryRuleOrder(categories: Option<seq<string>>)
    ensures MapCategoryToType(categories) ==
              FirstRule(CategoryRules, if categories.None? then "" else CategoryText(categories.value))
  {
    var t := if categories.None? then "" else CategoryText(categories.value);
    RulesFire(t);
    RulesInOrder(t);
    if categories.Some? && categories.value == [] {
      assert t == "";
    }
    if t == "" {
      NothingInEmpty("library");
      NothingInEmpty("museum");
      NothingInEmpty("splash");
      NothingInEmpty("water");
      NothingInEmpty("farm");
      NothingInEmpty("park");
      NothingInEmpty("playground");
    }
  }

  /** Lower-casing a space-joined list lower-cases each element. */
  lemma {:induction false} LowerJoin(ws: seq<string>)
    ensures Lower(JoinWith(ws, " ")) == JoinWith(Map(ws, Lower), " ")
  {
    if |ws| > 1 {
      LowerJoin(ws[1..]);
      assert Map(ws, Lower)[1..] == Map(ws[1..], Lower);
      LowerConcat(ws[0] + " ", JoinWith(ws[1..], " "));
      LowerConcat(ws[0], " ");
    }
  }

  /** Matching ignores case: upper-casing letters in the categories changes nothing. */
  lemma CategoryCaseInsensitive(categories: seq<string>)
    ensures MapCategoryToType(Some(Map(categories, Lower))) == MapCategoryToType(Some(categories))
  {
    LowerJoin(categories);
    LowerJoin(Map(categories, Lower));
    assert Map(Map(categories, Lower), Lower) == Map(categories, Lower) by {
      forall i | 0 <= i < |categories| ensures Lower(Lower(categories[i])) == Lower(categories[i]) {
        LowerIdempotent(categories[i]);
      }
    }
  }

  const IndoorWords: seq<string> := ["indoor", "museum", "library", "mall", "center", "theatre", "theater", "aquarium"]
  const OutdoorWords: seq<string> := ["outdoor", "park", "playground", "garden", "trail", "farm", "beach", "pool"]
  const IndoorVenueWords: seq<string> := ["library", "museum", "center", "mall"]

  /** `"#{name} #{description} #{categories&.join(' ')}".downcase`. */
  function IndoorText(d: EventData): string {
    Lower(d.name.GetOr("") + " " + d.description.GetOr("") + " " + JoinWith(d.categories.GetOr([]), " "))
  }

  /** `infer_indoor`: indoor words in the text decide first, then outdoor
      words; with neither, an address naming an indoor venue makes the event
      indoor, and anything else leaves it outdoor. */
  function InferIndoor(d: EventData): (r: bool)
    ensures MentionsAny(IndoorText(d), IndoorWords) ==> r
    ensures !MentionsAny(IndoorText(d), IndoorWords) && MentionsAny(IndoorText(d), OutdoorWords) ==> !r
    ensures (&& !MentionsAny(IndoorText(d), IndoorWords) && !MentionsAny(IndoorText(d), OutdoorWords)
             && d.address.Some? && MentionsAny(Lower(d.address.value), IndoorVenueWords)) ==> r
    ensures r ==> MentionsAny(IndoorText(d), IndoorWords)
                  || (d.address.Some? && MentionsAny(Lower(d.address.value), IndoorVenueWords))
  {
    var text := IndoorText(d);
    if MentionsAny(text, IndoorWords) then true
    else if MentionsAny(text, OutdoorWords) then false
    else if d.address.Some? && !IsBlank(d.address.value) then MentionsAny(Lower(d.address.value), IndoorVenueWords)
    else
      if d.address.Some? then VenueNotBlank(d.address.value); false
      else false
  }

  /** An address that names an indoor venue is present (not blank). */
  lemma VenueNotBlank(a: string)
    ensures MentionsAny(Lower(a), IndoorVenueWords) ==> !IsBlank(a)
  {
    if w :| w in IndoorVenueWords && Contains(Lower(a), w) {
      assert w[0] in "lmc";
      ContainsMeansNotBlank(a, w);
    }
  }

  lemma ContainsInSuffix(a: string, b: string, w: string)
    requires Contains(b, w)
    ensures Contains(a + b, w)
  {
    var p: nat :| p <= |b| && OccursAt(b, w, p);
    assert (a + b)[|a| + p..|a| + p + |w|] == b[p..p + |w|];
    assert OccursAt(a + b, w, |a| + p);
  }

  /** An event the categories class as a library or museum is also inferred
      to be indoor: the categories are part of the text, and both words are
      indoor keywords. */
  lemma LibrariesAndMuseumsAreIndoor(d: EventData)
    requires MapCategoryToType(d.categories) == "library" || MapCategoryToType(d.categories) == "museum"
    ensures InferIndoor(d)
  {
    var cats := d.categories.value;
    var prefix := d.name.GetOr("") + " " + d.description.GetOr("") + " ";
    LowerConcat(prefix, JoinWith(cats, " "));
    assert IndoorText(d) == Lower(prefix) + CategoryText(cats);
    var w := if Contains(CategoryText(cats), "library") then "library" else "museum";
    ContainsInSuffix(Lower(prefix), CategoryText(cats), w);
    assert w in IndoorWords;
  }

  /** `name.present? && start_date.present?`. */
  predicate HasRequiredFields(d: EventData) {
    d.name.Some? && !IsBlank(d.name.value) && d.startDate.Some?
  }

  /** `assign_attributes` on the record found. */
  function Assign(found: Activity, d: EventData): (a: Activity)
    requires HasRequiredFields(d)
  {
    found.(
      name := d.name.value,
      startDate := d.startDate,
      endDate := Some(d.endDate.GetOr(d.startDate.value + DefaultEventSeconds)),
      costLevel := d.costLevel.GetOr(0),
      kind := Cast(MapCategoryToType(d.categories)),
      isEvent := true,
      indoor := InferIndoor(d))
  }

  /** `import`: the missing-field failure, the validation failure with its
      messages, or the valid event. */
  function Import(d: EventData, found: Activity): (r: Result<Activity, seq<string>>)
    ensures !HasRequiredFields(d) ==> r == Failure([MissingFields])
    ensures r.Success? ==> Valid(r.value) && r.value.isEvent && r.value.id == found.id
    ensures r.Success? ==>
              && r.value.name == d.name.value && r.value.startDate == d.startDate
              && r.value.endDate == Some(d.endDate.GetOr(d.startDate.value + DefaultEventSeconds))
              && r.value.costLevel == d.costLevel.GetOr(0)
              && r.value.kind == Cast(MapCategoryToType(d.categories))
              && r.value.indoor == InferIndoor(d)
    ensures HasRequiredFields(d) && r.Failure? ==> r.error != [] && r.error == Errors(Assign(found, d))
  {
    if !HasRequiredFields(d) then Failure([MissingFields])
    else
      var a := Assign(found, d);
      if Valid(a) then Success(a) else Failure(Errors(a))
  }

  /** With a name and a start date, but no end date and no cost, the import
      succeeds: the event ends two hours after it starts and is free. */
  lemma ImportDefaults(d: EventData, found: Activity)
    requires HasRequiredFields(d) && d.endDate.None? && d.costLevel.None?
    ensures Import(d, found).Success?
    ensures Import(d, found).value.endDate == Some(d.startDate.value + 2 * SecondsPerHour)
    ensures Import(d, found).value.costLevel == 0
  {
    assert Valid(Assign(found, d));
  }

  /** An end date before the start date is rejected by validation. */
  lemma ImportRejectsEarlyEnd(d: EventData, found: Activity)
    requires HasRequiredFields(d) && d.endDate.Some? && d.endDate.value < d.startDate.value
    ensures Import(d, found).Failure?
    ensures "End date must be after start date" in Import(d, found).error
  {
  }
}

=== FILE: hours_parser.dfy ===
/** HoursParser (app/services/hours_parser.rb): resolves one day's hours
    string -- "closed", a dawn/dusk token, or "H:MM AM - H:MM PM" -- into
    today's opening and closing times, and answers "open now?", "opens
    within N hours?" and "closes within N hours?".

    A time of day is a number of minutes after today's midnight. `now` is any
    integer on the same scale (it may lie outside 0..1439); cutting a real
    instant down to whole minutes changes none of the comparisons below,
    because every time it is compared with is a whole minute. */
module HoursParser {
  import opened Wrappers
  import opened Text

  type Minute = m: int | 0 <= m < 1440

  const DawnTime: string := "7:00 AM"
  const DuskTime: string := "7:00 PM"
  const DawnMinute: Minute := 420
  const DuskMinute: Minute := 1140

  /** The fields of a `\d{1,2}:\d{2}\s*(?:AM|PM|am|pm)` match (the regex is
      case-insensitive) and its length. */
  datatype Clock = Clock(hour: nat, minute: nat, pm: bool, len: nat)

  predicate IsAorP(c: char) {
    c == 'a' || c == 'A' || c == 'p' || c == 'P'
  }

  predicate IsM(c: char) {
    c == 'm' || c == 'M'
  }

  /** The clock pattern anchored at the start of t. When the hour has two
      digits but no colon follows them, backtracking to one digit cannot
      help (the next character is a digit), so there is no match. */
  function ScanClock(t: string): (r: Option<Clock>)
    ensures r.Some? ==> 5 < r.value.len + 1 <= |t| + 1 && r.value.hour < 100 && r.value.minute < 100
    ensures r.Some? ==> IsDigit(t[0]) && IsM(t[r.value.len - 1])
  {
    if |t| < 2 || !IsDigit(t[0]) then None
    else
      var colon := if IsDigit(t[1]) then 2 else 1;
      if colon + 2 < |t| && t[colon] == ':' && IsDigit(t[colon + 1]) && IsDigit(t[colon + 2]) then
        var hour := if colon == 2 then 10 * DigitValue(t[0]) + DigitValue(t[1]) else DigitValue(t[0]);
        var minute := 10 * DigitValue(t[colon + 1]) + DigitValue(t[colon + 2]);
        var j := SkipSpaces(t, colon + 3);
        if j + 1 < |t| && IsAorP(t[j]) && IsM(t[j + 1]) then
          Some(Clock(hour, minute, t[j] == 'p' || t[j] == 'P', j + 2))
        else None
      else None
  }

  /** `Time.zone.parse` of a captured clock onto today's date: the hour is
      taken modulo 12 and PM adds 12; a minute of 60 or more is out of range,
      the ArgumentError is rescued, and the result is nil. */
  function ToMinutes(c: Clock): (r: Option<Minute>)
    ensures r.Some? <==> c.minute < 60
    ensures r.Some? ==> r.value / 60 == c.hour % 12 + (if c.pm then 12 else 0) && r.value % 60 == c.minute
  {
    if c.minute < 60 then Some((c.hour % 12 + (if c.pm then 12 else 0)) * 60 + c.minute) else None
  }

  /** `parse_time_to_today`, on the strings this class gives it: the two
      constants and regex captures, all of the clock shape. Any other shape
      yields nil here. */
  function ParseTimeToToday(str: string): (r: Option<Minute>)
    ensures IsBlank(str) ==> r.None?
  {
    if IsBlank(str) then None
    else
      var t := Strip(str);
      match ScanClock(t)
      case Some(c) => if c.len == |t| then ToMinutes(c) else None
      case None => None
  }

  /** strftime's `%p`. */
  function Meridiem(pm: bool): string {
    if pm then "PM" else "AM"
  }

  /** `format_time_12hr` (strftime "%-I:%M %p"): an hour 1..12 without a
      leading zero, a two-digit minute, a space, AM or PM. */
  function Format12(t: Minute): string {
    var h24 := t / 60;
    var h := if h24 % 12 == 0 then 12 else h24 % 12;
    var m := t % 60;
    NatToString(h) + ":" + [DigitChar(m / 10), DigitChar(m % 10)] + " " + Meridiem(h24 >= 12)
  }

  /** The shape of a formatted time, and parsing it back gives the same time of day. */
  lemma Format12RoundTrip(t: Minute)
    ensures var r := Format12(t);
            && 7 <= |r| <= 8 && r[|r| - 6] == ':' && r[|r| - 3] == ' '
            && ParseTimeToToday(r) == Some(t)
            && r[|r| - 2..] == (if t < 720 then "AM" else "PM")
            && IsDigit(r[0]) && r[0] != '0'
  {
    var h := if (t / 60) % 12 == 0 then 12 else (t / 60) % 12;
    FormatParses(t, h, t % 60, Format12(t));
  }

  lemma FormatParses(t: Minute, h: nat, m: nat, r: string)
    requires h == (if (t / 60) % 12 == 0 then 12 else (t / 60) % 12) && m == t % 60
    requires r == NatToString(h) + ":" + [DigitChar(m / 10), DigitChar(m % 10)] + " " + Meridiem(t / 60 >= 12)
    ensures 7 <= |r| <= 8 && r[|r| - 6] == ':' && r[|r| - 3] == ' '
    ensures ParseTimeToToday(r) == Some(t)
    ensures r[|r| - 2..] == (if t < 720 then "AM" else "PM")
    ensures IsDigit(r[0]) && r[0] != '0'
  {
    var hs := NatToString(h);
    var ap := Meridiem(t / 60 >= 12);
    ScanFormatted(hs, DigitChar(m / 10), DigitChar(m % 10), t / 60 >= 12);
    var c := ScanClock(r).value;
    assert c.hour == h && c.minute == m && c.pm == (t / 60 >= 12);
    WholeClockParses(r);
    TwelveHourClock(t, h, m, c);
    LeadingDigit(h);
    assert r[0] == hs[0];
    assert r[|r| - 2..] == ap;
  }

  /** An hour 1..12 is written without a leading zero. */
  lemma LeadingDigit(h: nat)
    requires 1 <= h <= 12
    ensures NatToString(h)[0] != '0'
  {
    if h >= 10 {
      assert NatToString(1) == [DigitChar(1)];
      assert NatToString(h) == NatToString(1) + [DigitChar(h % 10)];
    }
  }

  /** The fields of the formatted clock denote the time formatted. */
  lemma TwelveHourClock(t: Minute, h: nat, m: nat, c: Clock)
    requires h == (if (t / 60) % 12 == 0 then 12 else (t / 60) % 12) && m == t % 60
    requires c.hour == h && c.minute == m && c.pm == (t / 60 >= 12)
    ensures ToMinutes(c) == Some(t)
  {
    TwelveHourArith(t, h, m);
  }

  lemma TwelveHourArith(t: Minute, h: nat, m: nat)
    requires h == (if (t / 60) % 12 == 0 then 12 else (t / 60) % 12) && m == t % 60
    ensures (h % 12 + (if t / 60 >= 12 then 12 else 0)) * 60 + m == t
    ensures m / 10 < 10 && 10 * (m / 10) + m % 10 == m
    ensures (t / 60 < 12) == (t < 720)
  {
    var q := t / 60;
    assert t == q * 60 + m;
    assert 0 <= q < 24;
    if q < 12 {
      assert h % 12 == q;
    } else {
      assert h % 12 == q - 12;
    }
  }

  /** The clock pattern on a string that is exactly one clock: one or two
      hour digits, a colon, two minute digits, one space, the meridiem. */
  lemma ScanShape(r: string, n: nat, hour: nat, minute: nat, pm: bool)
    requires (n == 1 || n == 2) && |r| >= n + 6
    requires IsDigit(r[0]) && (n == 2 <==> IsDigit(r[1]))
    requires r[n] == ':' && IsDigit(r[n + 1]) && IsDigit(r[n + 2]) && r[n + 3] == ' '
    requires IsAorP(r[n + 4]) && IsM(r[n + 5])
    requires hour == if n == 2 then 10 * DigitValue(r[0]) + DigitValue(r[1]) else DigitValue(r[0])
    requires minute == 10 * DigitValue(r[n + 1]) + DigitValue(r[n + 2])
    requires pm <==> r[n + 4] == 'p' || r[n + 4] == 'P'
    ensures ScanClock(r) == Some(Clock(hour, minute, pm, n + 6))
  {
    assert SkipSpaces(r, n + 4) == n + 4;
    assert SkipSpaces(r, n + 3) == n + 4;
  }

  /** The value of a one- or two-digit numeral. */
  lemma ShortDecimal(hs: string)
    requires 1 <= |hs| <= 2 && AllDigits(hs)
    ensures DecimalValue(hs) == if |hs| == 2 then 10 * DigitValue(hs[0]) + DigitValue(hs[1]) else DigitValue(hs[0])
  {
    if |hs| == 2 {
      assert hs[..1] == [hs[0]];
      assert [hs[0]][..0] == [];
    } else {
      assert hs[..0] == [];
    }
  }

  /** Where each part of a formatted time sits. */
  lemma FormattedChars(hs: string, d1: char, d2: char, pm: bool)
    requires 1 <= |hs| <= 2 && AllDigits(hs) && IsDigit(d1) && IsDigit(d2)
    ensures var r := hs + ":" + [d1, d2] + " " + Meridiem(pm);
            var n := |hs|;
            && |r| == n + 6 && r[0] == hs[0] && (n == 2 ==> r[1] == hs[1])
            && r[n] == ':' && r[n + 1] == d1 && r[n + 2] == d2 && r[n + 3] == ' '
            && IsAorP(r[n + 4]) && IsM(r[n + 5])
            && ((r[n + 4] == 'p' || r[n + 4] == 'P') <==> pm)
  {
    var r := hs + ":" + [d1, d2] + " " + Meridiem(pm);
    var n := |hs|;
    assert r[n + 4] == Meridiem(pm)[0] && r[n + 5] == Meridiem(pm)[1];
  }

  /** The clock pattern reads back the fields of a string of the shape
      `format_time_12hr` produces. */
  lemma ScanFormatted(hs: string, d1: char, d2: char, pm: bool)
    requires 1 <= |hs| <= 2 && AllDigits(hs) && IsDigit(d1) && IsDigit(d2)
    ensures ScanClock(hs + ":" + [d1, d2] + " " + Meridiem(pm))
         == Some(Clock(DecimalValue(hs), 10 * DigitValue(d1) + DigitValue(d2), pm, |hs| + 6))
  {
    FormattedChars(hs, d1, d2, pm);
    ShortDecimal(hs);
    ScanShape(hs + ":" + [d1, d2] + " " + Meridiem(pm), |hs|, DecimalValue(hs), 10 * DigitValue(d1) + DigitValue(d2), pm);
  }

  /** A string the clock pattern matches in full parses to the time its fields denote. */
  lemma WholeClockParses(r: string)
    requires ScanClock(r).Some? && ScanClock(r).value.len == |r|
    ensures ParseTimeToToday(r) == ToMinutes(ScanClock(r).value)
  {
    assert !IsSpace(r[0]) && !IsSpace(r[|r| - 1]);
    StripKeeps(r);
  }

  /** A captured clock, parsed on its own, gives the time its fields denote. */
  lemma CaptureParses(t: string, c: Clock)
    requires ScanClock(t) == Some(c)
    ensures ParseTimeToToday(t[..c.len]) == ToMinutes(c)
  {
    ScanPrefix(t, c);
    WholeClockParses(t[..c.len]);
  }

  /** The clock pattern matches the text it matched, cut off after the match. */
  lemma ScanPrefix(t: string, c: Clock)
    requires ScanClock(t) == Some(c)
    ensures ScanClock(t[..c.len]) == Some(c)
  {
    var colon := if IsDigit(t[1]) then 2 else 1;
    SkipSpacesPrefix(t, c.len, colon + 3);
  }

  /** Skipping blanks stops at the same place in a prefix that extends past it. */
  lemma {:induction false} SkipSpacesPrefix(t: string, n: nat, i: nat)
    requires i <= n <= |t|
    requires SkipSpaces(t, i) < n
    ensures SkipSpaces(t[..n], i) == SkipSpaces(t, i)
    decreases n - i
  {
    if IsSpace(t[i]) {
      SkipSpacesPrefix(t, n, i + 1);
    }
  }

  /** A string of the formatted shape parses to the time its fields denote. */
  lemma FormattedParses(hs: string, d1: char, d2: char, pm: bool)
    requires 1 <= |hs| <= 2 && AllDigits(hs) && IsDigit(d1) && IsDigit(d2)
    ensures ParseTimeToToday(hs + ":" + [d1, d2] + " " + Meridiem(pm))
         == ToMinutes(Clock(DecimalValue(hs), 10 * DigitValue(d1) + DigitValue(d2), pm, |hs| + 6))
  {
    ScanFormatted(hs, d1, d2, pm);
    WholeClockParses(hs + ":" + [d1, d2] + " " + Meridiem(pm));
  }

  /** "7" reads as seven. */
  lemma SevenValue()
    ensures AllDigits("7") && DecimalValue("7") == 7
  {
    assert "7"[..0] == [];
  }

  lemma DawnShape()
    ensures DawnTime == "7" + ":" + ['0', '0'] + " " + Meridiem(false)
  {
  }

  lemma DuskShape()
    ensures DuskTime == "7" + ":" + ['0', '0'] + " " + Meridiem(true)
  {
  }

  lemma DawnParses()
    ensures ParseTimeToToday(DawnTime) == Some(DawnMinute)
  {
    SevenValue();
    FormattedParses("7", '0', '0', false);
    DawnShape();
  }

  lemma DuskParses()
    ensures ParseTimeToToday(DuskTime) == Some(DuskMinute)
  {
    SevenValue();
    FormattedParses("7", '0', '0', true);
    DuskShape();
  }

  /** Blank or "closed" (in any case): never open, no opening or closing time. */
  predicate ClosedOrBlank(h: string) {
    IsBlank(h) || Lower(h) == "closed"
  }

  predicate MentionsDawn(h: string) {
    Contains(Lower(h), "dawn")
  }

  predicate MentionsDusk(h: string) {
    Contains(Lower(h), "dusk")
  }

  /** A string that mentions dawn or dusk is neither blank nor "closed". */
  lemma TokensNotClosed(h: string)
    ensures MentionsDawn(h) ==> !ClosedOrBlank(h)
    ensures MentionsDusk(h) ==> !ClosedOrBlank(h)
  {
    if MentionsDawn(h) {
      TokenNotClosed(h, "dawn");
    }
    if MentionsDusk(h) {
      TokenNotClosed(h, "dusk");
    }
  }

  lemma TokenNotClosed(h: string, w: string)
    requires w == "dawn" || w == "dusk"
    requires Contains(Lower(h), w)
    ensures !ClosedOrBlank(h)
  {
    ContainsMeansNotBlank(h, w);
    var p: nat :| p <= |h| && OccursAt(Lower(h), w, p);
    assert Lower(h)[p] == 'd';
    assert Lower(h) != "closed";
  }

  predicate LineStart(s: string, q: nat) {
    q == 0 || (0 < q <= |s| && s[q - 1] == '\n')
  }

  /** The leftmost match, at or after p, of `^(\d{1,2}:\d{2}\s*(?:AM|PM))`;
      Ruby's `^` matches at the start of every line, not only of the string. */
  function FindOpeningClock(s: string, p: nat): (r: Option<nat>)
    requires p <= |s|
    ensures r.Some? ==> p <= r.value < |s| && LineStart(s, r.value) && ScanClock(s[r.value..]).Some?
    ensures forall q :: p <= q <= |s| && (r.None? || q < r.value) && LineStart(s, q) ==> ScanClock(s[q..]).None?
    decreases |s| - p
  {
    if p == |s| then None
    else if LineStart(s, p) && ScanClock(s[p..]).Some? then Some(p)
    else FindOpeningClock(s, p + 1)
  }

  /** q is the leftmost line start in s where a clock begins. */
  predicate FirstLineClock(s: string, q: nat) {
    && q < |s| && LineStart(s, q) && ScanClock(s[q..]).Some?
    && forall p :: 0 <= p < q && LineStart(s, p) ==> ScanClock(s[p..]).None?
  }

  /** A dash, optional blanks, then a clock. */
  predicate DashClockAt(s: string, q: nat) {
    q < |s| && s[q] == '-' && ScanClock(s[SkipSpaces(s, q + 1)..]).Some?
  }

  /** The leftmost match, at or after p, of `-\s*(\d{1,2}:\d{2}\s*(?:AM|PM))`
      (its dash position). */
  function FindClosingClock(s: string, p: nat): (r: Option<nat>)
    requires p <= |s|
    ensures r.Some? ==> p <= r.value && DashClockAt(s, r.value)
    ensures forall q :: p <= q <= |s| && (r.None? || q < r.value) ==> !DashClockAt(s, q)
    decreases |s| - p
  {
    if p == |s| then None
    else if DashClockAt(s, p) then Some(p)
    else FindClosingClock(s, p + 1)
  }

  /** q is the dash of the leftmost dash-and-clock in s. */
  predicate FirstDashClock(s: string, q: nat) {
    DashClockAt(s, q) && forall k :: 0 <= k < q ==> !DashClockAt(s, k)
  }

  /** The time a captured clock at the start of t denotes (nil when none). */
  function CaptureTime(t: string): Option<Minute> {
    match ScanClock(t)
    case Some(c) => ParseTimeToToday(t[..c.len])
    case None => None
  }

  /** `get_opening_time`. */
  function GetOpeningTime(h: string): (r: Option<Minute>)
    ensures ClosedOrBlank(h) ==> r.None?
    ensures MentionsDawn(h) ==> r == Some(DawnMinute)
    ensures !MentionsDawn(h) && !ClosedOrBlank(h) && ScanClock(h).Some? ==> r == ToMinutes(ScanClock(h).value)
    ensures !MentionsDawn(h) && (forall q :: 0 <= q <= |h| && LineStart(h, q) ==> ScanClock(h[q..]).None?) ==> r.None?
    ensures forall q: nat :: !MentionsDawn(h) && !ClosedOrBlank(h) && FirstLineClock(h, q) ==>
              r == ToMinutes(ScanClock(h[q..]).value)
  {
    if ClosedOrBlank(h) then TokensNotClosed(h); None
    else if MentionsDawn(h) then DawnParses(); ParseTimeToToday(DawnTime)
    else
      match FindOpeningClock(h, 0)
      case Some(q) =>
        CaptureParses(h[q..], ScanClock(h[q..]).value);
        assert q == 0 ==> h[q..] == h;
        OpeningClockIsFirst(h);
        CaptureTime(h[q..])
      case None => None
  }

  /** `get_closing_time`. */
  function GetClosingTime(h: string): (r: Option<Minute>)
    ensures ClosedOrBlank(h) ==> r.None?
    ensures MentionsDusk(h) ==> r == Some(DuskMinute)
    ensures !MentionsDusk(h) && (forall q :: 0 <= q <= |h| ==> !DashClockAt(h, q)) ==> r.None?
    ensures !MentionsDusk(h) && !ClosedOrBlank(h) && DashClockAt(h, 0) ==>
              r == ToMinutes(ScanClock(h[SkipSpaces(h, 1)..]).value)
    ensures forall q: nat :: !MentionsDusk(h) && !ClosedOrBlank(h) && FirstDashClock(h, q) ==>
              r == ToMinutes(ScanClock(h[SkipSpaces(h, q + 1)..]).value)
  {
    if ClosedOrBlank(h) then TokensNotClosed(h); None
    else if MentionsDusk(h) then DuskParses(); ParseTimeToToday(DuskTime)
    else
      match FindClosingClock(h, 0)
      case Some(q) =>
        var t := h[SkipSpaces(h, q + 1)..];
        CaptureParses(t, ScanClock(t).value);
        ClosingClockIsFirst(h);
        CaptureTime(t)
      case None =>
        ClosingClockIsFirst(h);
        None
  }

  /** The search finds the leftmost dash-and-clock, and only it. */
  lemma OpeningClockIsFirst(h: string)
    ensures forall q: nat :: FirstLineClock(h, q) <==> FindOpeningClock(h, 0) == Some(q)
  {
    var r := FindOpeningClock(h, 0);
    forall q: nat | FirstLineClock(h, q)
      ensures r == Some(q)
    {
      assert r.Some? && r.value <= q;
    }
  }

  lemma ClosingClockIsFirst(h: string)
    ensures forall q: nat :: FirstDashClock(h, q) <==> FindClosingClock(h, 0) == Some(q)
  {
    var r := FindClosingClock(h, 0);
    forall q: nat | FirstDashClock(h, q)
      ensures r == Some(q)
    {
      assert r.Some? && r.value <= q;
    }
  }

  /** `time_between?` with the two fixed constants: open from dawn (7:00 AM)
      until dusk (7:00 PM). */
  function DawnToDusk(now: int): (r: bool)
    ensures r <==> DawnMinute <= now < DuskMinute
  {
    DawnParses();
    DuskParses();
    match (ParseTimeToToday(DawnTime), ParseTimeToToday(DuskTime))
    case (Some(o), Some(c)) => o <= now < c
    case _ => false
  }

  /** `parse_hours_range`: open from the opening time (inclusive) to the
      closing time (exclusive); false when either is missing. */
  function ParseHoursRange(h: string, now: int): bool {
    match (GetOpeningTime(h), GetClosingTime(h))
    case (Some(o), Some(c)) => o <= now < c
    case _ => false
  }

  /** `open_at?`. Whatever path it takes, it agrees with the opening and
      closing times: open exactly when both exist and now lies in
      [opening, closing). */
  function OpenAt(h: string, now: int): (r: bool)
    ensures ClosedOrBlank(h) ==> !r
    ensures MentionsDawn(h) && MentionsDusk(h) ==> (r <==> DawnMinute <= now < DuskMinute)
    ensures r <==> GetOpeningTime(h).Some? && GetClosingTime(h).Some?
                   && GetOpeningTime(h).value <= now < GetClosingTime(h).value
  {
    if ClosedOrBlank(h) then TokensNotClosed(h); false
    else if Contains(Lower(h), "dawn") && Contains(Lower(h), "dusk") then DawnToDusk(now)
    else ParseHoursRange(h, now)
  }

  /** Hours whose closing time is not after their opening time (an
      overnight range such as "9:00 PM - 2:00 AM") are never open. */
  lemma NeverOpenWhenInverted(h: string, now: int)
    requires GetOpeningTime(h).Some? && GetClosingTime(h).Some?
    requires GetClosingTime(h).value <= GetOpeningTime(h).value
    ensures !OpenAt(h, now)
  {
  }

  /** Blank hours and "closed" (in any case) answer no to every question. */
  lemma ClosedNeverOpen(h: string, now: int, n: int)
    requires ClosedOrBlank(h)
    ensures !OpenAt(h, now) && OpensWithin(h, now, n).None? && ClosesWithin(h, now, n).None?
  {
  }

  /** `opens_within?`: the opening time, formatted as "H:MM AM", when it
      lies in (now, now + n hours]; nil otherwise. */
  function OpensWithin(h: string, now: int, n: int): (r: Option<string>)
    ensures r.Some? <==> GetOpeningTime(h).Some? && now < GetOpeningTime(h).value <= now + 60 * n
    ensures r.Some? ==> ParseTimeToToday(r.value) == GetOpeningTime(h)
    ensures r.Some? ==> r.value == Format12(GetOpeningTime(h).value)
  {
    if ClosedOrBlank(h) then None
    else
      match GetOpeningTime(h)
      case None => None
      case Some(o) => if now < o <= now + 60 * n then Format12RoundTrip(o); Some(Format12(o)) else None
  }

  /** `closes_within?`: the closing time, formatted as "H:MM PM", when it
      lies in (now, now + n hours]; nil otherwise. */
  function ClosesWithin(h: string, now: int, n: int): (r: Option<string>)
    ensures r.Some? <==> GetClosingTime(h).Some? && now < GetClosingTime(h).value <= now + 60 * n
    ensures r.Some? ==> ParseTimeToToday(r.value) == GetClosingTime(h)
    ensures r.Some? ==> r.value == Format12(GetClosingTime(h).value)
  {
    if ClosedOrBlank(h) then None
    else
      match GetClosingTime(h)
      case None => None
      case Some(c) => if now < c <= now + 60 * n then Format12RoundTrip(c); Some(Format12(c)) else None
  }

  /** A place that is open now is not "opening soon", and it closes within
      the window exactly when its closing time is at most n hours away. */
  lemma OpenExcludesOpeningSoon(h: string, now: int, n: int)
    requires OpenAt(h, now)
    ensures OpensWithin(h, now, n).None?
    ensures ClosesWithin(h, now, n).Some? <==> GetClosingTime(h).value <= now + 60 * n
  {
  }

  /** Widening the window keeps an answer already found. */
  lemma OpensWithinMonotone(h: string, now: int, n: int, n': int)
    requires n <= n' && OpensWithin(h, now, n).Some?
    ensures OpensWithin(h, now, n') == OpensWithin(h, now, n)
  {
  }

  /** The hours strings of the seed data resolve as a reader expects. */
  lemma SeedHours()
    ensures GetOpeningTime("dawn - dusk") == Some(DawnMinute)
    ensures GetClosingTime("dawn - dusk") == Some(DuskMinute)
    ensures OpenAt("dawn - dusk", 12 * 60) && !OpenAt("dawn - dusk", DuskMinute)
    ensures !OpenAt("Closed", 12 * 60)
  {
    assert OccursAt(Lower("dawn - dusk"), "dawn", 0);
    assert OccursAt(Lower("dawn - dusk"), "dusk", 7);
    assert Lower("Closed") == "closed";
  }

  /** A range of two formatted times, "H:MM AM - H:MM PM" as the seed
      data writes them, opens at the first and closes at the second, and is
      open exactly from the first (inclusive) to the second (exclusive). */
  lemma FormattedRange(o: Minute, c: Minute, now: int)
    ensures var h := Format12(o) + " - " + Format12(c);
            && GetOpeningTime(h) == Some(o)
            && GetClosingTime(h) == Some(c)
            && (OpenAt(h, now) <==> o <= now < c)
  {
    var fo, fc := Format12(o), Format12(c);
    var h := fo + " - " + fc;
    FormattedClock(o);
    FormattedClock(c);
    RangeNeither(o, c);
    RangeOpens(fo, fc);
    RangeCloses(o, c);
  }

  /** The seed data's "10:00 AM - 6:00 PM" is such a range. */
  lemma TenToSix()
    ensures Format12(600) + " - " + Format12(1080) == "10:00 AM - 6:00 PM"
  {
    TenAm();
    SixPm();
  }

  lemma TenAm()
    ensures Format12(600) == "10:00 AM"
  {
    assert NatToString(10) == NatToString(1) + [DigitChar(0)];
    assert DigitChar(0) == '0' && DigitChar(1) == '1';
  }

  lemma SixPm()
    ensures Format12(1080) == "6:00 PM"
  {
    assert DigitChar(0) == '0' && DigitChar(6) == '6';
  }

  lemma RangeOpens(fo: string, fc: string)
    requires ScanClock(fo).Some? && !MentionsDawn(fo + " - " + fc) && !ClosedOrBlank(fo + " - " + fc)
    ensures GetOpeningTime(fo + " - " + fc) == ToMinutes(ScanClock(fo).value)
  {
    assert fo + " - " + fc == fo + (" - " + fc);
    ScanExtends(fo, " - " + fc);
  }

  lemma RangeCloses(o: Minute, c: Minute)
    requires !MentionsDusk(Format12(o) + " - " + Format12(c)) && !ClosedOrBlank(Format12(o) + " - " + Format12(c))
    ensures GetClosingTime(Format12(o) + " - " + Format12(c)) == Some(c)
  {
    FormatCharsOnly(o);
    FormattedClock(c);
    DashRangeCloses(Format12(o), Format12(c));
  }

  /** The closing clock of "A - B", where A holds no dash, is B's. */
  lemma DashRangeCloses(fo: string, fc: string)
    requires forall i :: 0 <= i < |fo| ==> fo[i] != '-'
    requires ScanClock(fc).Some?
    requires !MentionsDusk(fo + " - " + fc) && !ClosedOrBlank(fo + " - " + fc)
    ensures GetClosingTime(fo + " - " + fc) == ToMinutes(ScanClock(fc).value)
  {
    DashAfter(fo, fc);
  }

  lemma DashAfter(fo: string, fc: string)
    requires forall i :: 0 <= i < |fo| ==> fo[i] != '-'
    requires ScanClock(fc).Some?
    ensures FirstDashClock(fo + " - " + fc, |fo| + 1)
    ensures SkipSpaces(fo + " - " + fc, |fo| + 2) == |fo| + 3
    ensures (fo + " - " + fc)[|fo| + 3..] == fc
  {
    var h := fo + " - " + fc;
    var n := |fo|;
    assert h[n + 1] == '-' && IsSpace(h[n + 2]) && h[n + 3] == fc[0];
    assert SkipSpaces(h, n + 2) == n + 3;
    assert h[n + 3..] == fc;
    forall k | 0 <= k < n + 1
      ensures !DashClockAt(h, k)
    {
      assert k < n ==> h[k] == fo[k];
    }
  }

  /** A range of formatted times holds no "dawn" or "dusk" and is not closed. */
  lemma RangeNeither(o: Minute, c: Minute)
    ensures var h := Format12(o) + " - " + Format12(c);
            !MentionsDawn(h) && !MentionsDusk(h) && !ClosedOrBlank(h)
  {
    FormatCharsOnly(o);
    FormatCharsOnly(c);
    PlainRange(Format12(o), Format12(c));
  }

  lemma PlainRange(fo: string, fc: string)
    requires forall i :: 0 <= i < |fo| ==> FormatChar(fo[i])
    requires forall i :: 0 <= i < |fc| ==> FormatChar(fc[i])
    requires 7 <= |fo| && IsDigit(fo[0])
    ensures var h := fo + " - " + fc;
            !MentionsDawn(h) && !MentionsDusk(h) && !ClosedOrBlank(h)
  {
    var h := fo + " - " + fc;
    forall i | 0 <= i < |h|
      ensures h[i] != 'd' && h[i] != 'D'
    {
      if i < |fo| {
        assert h[i] == fo[i];
      } else if i >= |fo| + 3 {
        assert h[i] == fc[i - |fo| - 3];
      }
    }
    NoSunWords(h);
    assert !IsSpace(h[0]) by {
      assert h[0] == fo[0];
    }
    assert |Lower(h)| == |h| > 6;
  }

  /** The characters `format_time_12hr` writes. */
  predicate FormatChar(ch: char) {
    IsDigit(ch) || ch == ':' || ch == ' ' || ch == 'A' || ch == 'P' || ch == 'M'
  }

  lemma FormatCharsOnly(t: Minute)
    ensures forall i :: 0 <= i < |Format12(t)| ==> FormatChar(Format12(t)[i])
    ensures 7 <= |Format12(t)| && IsDigit(Format12(t)[0])
  {
    var h24 := t / 60;
    var h := if h24 % 12 == 0 then 12 else h24 % 12;
    var m := t % 60;
    ShapeChars(NatToString(h), DigitChar(m / 10), DigitChar(m % 10), h24 >= 12);
    Format12RoundTrip(t);
  }

  lemma ShapeChars(hs: string, d1: char, d2: char, pm: bool)
    requires AllDigits(hs) && IsDigit(d1) && IsDigit(d2)
    ensures var r := hs + ":" + [d1, d2] + " " + Meridiem(pm);
            forall i :: 0 <= i < |r| ==> FormatChar(r[i])
  {
    var r := hs + ":" + [d1, d2] + " " + Meridiem(pm);
    forall i | 0 <= i < |r|
      ensures FormatChar(r[i])
    {
      if i < |hs| {
        assert r[i] == hs[i];
      } else if i >= |hs| + 4 {
        assert r[i] == Meridiem(pm)[i - |hs| - 4];
      }
    }
  }

  /** A formatted time is one whole clock match, and it denotes the time. */
  lemma FormattedClock(t: Minute)
    ensures ScanClock(Format12(t)).Some? && ScanClock(Format12(t)).value.len == |Format12(t)|
    ensures ToMinutes(ScanClock(Format12(t)).value) == Some(t)
  {
    var r := Format12(t);
    Format12RoundTrip(t);
    assert r[|r| - 1] == r[|r| - 2..][1];
    StripKeeps(r);
  }

  /** What follows a clock match does not change it. */
  lemma ScanExtends(r: string, rest: string)
    requires ScanClock(r).Some?
    ensures ScanClock(r + rest) == ScanClock(r)
  {
    var t := r + rest;
    var colon := if IsDigit(r[1]) then 2 else 1;
    assert forall k :: 0 <= k < |r| ==> t[k] == r[k];
    SkipSpacesExtend(r, rest, colon + 3);
  }

  lemma {:induction false} SkipSpacesExtend(r: string, rest: string, i: nat)
    requires i <= |r| && SkipSpaces(r, i) < |r|
    ensures SkipSpaces(r + rest, i) == SkipSpaces(r, i)
    decreases |r| - i
  {
    assert (r + rest)[i] == r[i];
    if IsSpace(r[i]) {
      SkipSpacesExtend(r, rest, i + 1);
    }
  }

  /** Without a letter d there is no "dawn" and no "dusk". */
  lemma NoSunWords(h: string)
    requires forall i :: 0 <= i < |h| ==> h[i] != 'd' && h[i] != 'D'
    ensures !MentionsDawn(h) && !MentionsDusk(h)
  {
    forall p: nat | p + 4 <= |h|
      ensures !OccursAt(Lower(h), "dawn", p) && !OccursAt(Lower(h), "dusk", p)
    {
      assert Lower(h)[p..p + 4][0] == LowerChar(h[p]) != 'd';
    }
  }
}

=== FILE: interaction_controller.dfy ===
/** The anonymous-user path of the interaction Stimulus controller
    (app/javascript/controllers/interaction_controller.js): ratings and
    completions kept in localStorage as `{version, interactions}`, what the
    page does after each write, and which buttons are highlighted. The
    native-app and logged-in paths hand the call to other code and are not
    part of this model; nor are the localStorage writes and navigation. */
module InteractionController {
  import opened Wrappers
  import opened Text
  import opened Activities
  import InteractionStore

  type Interaction = InteractionStore.Interaction

  datatype Storage = Storage(version: string, interactions: map<string, Interaction>)

  /** What `localStorage.getItem` returns for the storage key. */
  datatype Raw = Absent | Unparseable | Parsed(storage: Storage)

  const EmptyStorage: Storage := Storage("1.0", map[])

  /** `getStorage`: absent or unparseable data reads as an empty version-1.0 store. */
  function GetStorage(raw: Raw): (r: Storage)
    ensures raw.Parsed? ==> r == raw.storage
    ensures !raw.Parsed? ==> r.version == "1.0" && r.interactions == map[]
  {
    match raw
    case Parsed(s) => s
    case _ => EmptyStorage
  }

  datatype Action = Rate(rating: int) | MarkDone

  /** What the page does after a write. */
  datatype Effect = ReloadWithInteractions | UpdateButtonStates | NavigateToNow

  /** `saveToLocalStorage`: the new storage and the follow-up effect. */
  function SaveToLocalStorage(storage: Storage, action: Action, activityId: int, now: Instant, reloadToNow: bool): (r: (Storage, Effect))
    ensures r.0.version == storage.version
    ensures r.0.interactions.Keys == storage.interactions.Keys + {IntToString(activityId)}
    ensures forall k :: k in storage.interactions && k != IntToString(activityId) ==> r.0.interactions[k] == storage.interactions[k]
    ensures action.Rate? ==> (r.1 == ReloadWithInteractions <==> action.rating == -1)
    ensures action.Rate? ==> r.1 != NavigateToNow
    ensures action.MarkDone? ==> r.1 == (if reloadToNow then NavigateToNow else ReloadWithInteractions)
  {
    var key := IntToString(activityId);
    var i := if key in storage.interactions then storage.interactions[key] else InteractionStore.Fresh;
    match action
    case Rate(rating) =>
      var i' := i.(rating := Some(rating), updatedAt := Some(now));
      (storage.(interactions := storage.interactions[key := i']),
       if rating == -1 then ReloadWithInteractions else UpdateButtonStates)
    case MarkDone =>
      var i' := i.(completions := i.completions + [now], lastCompleted := Some(now), updatedAt := Some(now));
      (storage.(interactions := storage.interactions[key := i']),
       if reloadToNow then NavigateToNow else ReloadWithInteractions)
  }

  /** The highlighted state of the three buttons. */
  datatype Buttons = Buttons(thumbsUp: bool, thumbsDown: bool, markDone: bool)

  /** `updateButtonStates`: nothing to do without a record; otherwise each
      button is highlighted from the record alone. */
  function ButtonStates(storage: Storage, activityId: int): (r: Option<Buttons>)
    ensures r.Some? <==> IntToString(activityId) in storage.interactions
    ensures r.Some? ==> !(r.value.thumbsUp && r.value.thumbsDown)
    ensures r.Some? ==>
              var i := storage.interactions[IntToString(activityId)];
              && (r.value.thumbsUp <==> i.rating == Some(1))
              && (r.value.thumbsDown <==> i.rating == Some(-1))
              && (r.value.markDone <==> i.lastCompleted.Some?)
  {
    var key := IntToString(activityId);
    if key !in storage.interactions then None
    else
      var i := storage.interactions[key];
      Some(Buttons(i.rating == Some(1), i.rating == Some(-1), i.lastCompleted.Some?))
  }

  /** After a thumbs-up the up button alone is lit; after a thumbs-down the
      down button alone; after marking done the done button is lit and the
      rating buttons keep their state. */
  lemma ButtonsAfterWrite(storage: Storage, activityId: int, now: Instant)
    ensures var s := SaveToLocalStorage(storage, Rate(1), activityId, now, false).0;
            ButtonStates(s, activityId) == Some(Buttons(true, false, ButtonStates(s, activityId).value.markDone))
    ensures var s := SaveToLocalStorage(storage, Rate(-1), activityId, now, false).0;
            ButtonStates(s, activityId) == Some(Buttons(false, true, ButtonStates(s, activityId).value.markDone))
    ensures var before := ButtonStates(storage, activityId);
            var s := SaveToLocalStorage(storage, MarkDone, activityId, now, false).0;
            ButtonStates(s, activityId).Some? && ButtonStates(s, activityId).value.markDone
            && (before.Some? ==> ButtonStates(s, activityId).value.thumbsUp == before.value.thumbsUp
                                 && ButtonStates(s, activityId).value.thumbsDown == before.value.thumbsDown)
  {
  }

  /** The browser store and the native store apply the same record update. */
  lemma AgreesWithNativeStore(storage: Storage, activityId: int, rating: int, now: Instant)
    ensures SaveToLocalStorage(storage, Rate(rating), activityId, now, false).0.interactions
            == InteractionStore.SaveRating(storage.interactions, activityId, rating, now)
    ensures SaveToLocalStorage(storage, MarkDone, activityId, now, false).0.interactions
            == InteractionStore.MarkDone(storage.interactions, activityId, now)
  {
  }
}

=== FILE: interaction_store.dfy ===
/** InteractionStore (ios-app/TriangleTots/Storage/InteractionStore.swift):
    the native app's per-activity ratings and completions, a map from the
    activity id (as a decimal string) to an `Interaction`. Timestamps are the
    ISO 8601 strings of the moment of the call, modelled as instants; the
    clock is a parameter. Writing the map back to UserDefaults is left out. */
module InteractionStore {
  import opened Wrappers
  import opened Text
  import opened Activities

  datatype Interaction = Interaction(
    rating: Option<int>,
    completions: seq<Instant>,
    lastCompleted: Option<Instant>,
    updatedAt: Option<Instant>)

  type Store = map<string, Interaction>

  /** The record created on the first touch of an activity. */
  const Fresh: Interaction := Interaction(None, [], None, None)

  /** `"\(activityId)"`. */
  function Key(activityId: int): string {
    IntToString(activityId)
  }

  /** The record for a key, created when missing. */
  function Touch(store: Store, key: string): (r: Interaction)
    ensures key in store ==> r == store[key]
    ensures key !in store ==> r.rating.None? && r.completions == [] && r.lastCompleted.None? && r.updatedAt.None?
  {
    if key in store then store[key] else Fresh
  }

  /** `saveRating`. */
  function SaveRating(store: Store, activityId: int, rating: int, now: Instant): (r: Store)
    ensures r.Keys == store.Keys + {Key(activityId)}
    ensures r[Key(activityId)].rating == Some(rating) && r[Key(activityId)].updatedAt == Some(now)
    ensures r[Key(activityId)].completions == Touch(store, Key(activityId)).completions
    ensures r[Key(activityId)].lastCompleted == Touch(store, Key(activityId)).lastCompleted
    ensures forall k :: k in store && k != Key(activityId) ==> r[k] == store[k]
  {
    var key := Key(activityId);
    store[key := Touch(store, key).(rating := Some(rating), updatedAt := Some(now))]
  }

  /** `markDone`. */
  function MarkDone(store: Store, activityId: int, now: Instant): (r: Store)
    ensures r.Keys == store.Keys + {Key(activityId)}
    ensures r[Key(activityId)].completions == Touch(store, Key(activityId)).completions + [now]
    ensures r[Key(activityId)].lastCompleted == Some(now) && r[Key(activityId)].updatedAt == Some(now)
    ensures r[Key(activityId)].rating == Touch(store, Key(activityId)).rating
    ensures forall k :: k in store && k != Key(activityId) ==> r[k] == store[k]
  {
    var key := Key(activityId);
    var i := Touch(store, key);
    store[key := i.(completions := i.completions + [now], lastCompleted := Some(now), updatedAt := Some(now))]
  }

  /** What `UserDefaults` holds under the interactions key. */
  datatype Stored = Missing | Undecodable | Decoded(interactions: Store)

  /** `loadInteractions`: missing or undecodable data loads as the empty map. */
  function Load(s: Stored): (r: Store)
    ensures s.Decoded? ==> r == s.interactions
    ensures !s.Decoded? ==> r == map[]
  {
    match s
    case Decoded(m) => m
    case _ => map[]
  }

  /** Rating and marking done touch disjoint fields: in either order they
      leave the same record, up to the `updatedAt` stamp of the later call,
      and the same other entries. */
  lemma OperationsCommute(store: Store, id: int, rating: int, t1: Instant, t2: Instant)
    ensures var a := MarkDone(SaveRating(store, id, rating, t1), id, t2);
            var b := SaveRating(MarkDone(store, id, t2), id, rating, t1);
            a.Keys == b.Keys && a[Key(id)].(updatedAt := None) == b[Key(id)].(updatedAt := None)
            && forall k :: k in a && k != Key(id) ==> a[k] == b[k]
  {
  }

  /** Marking done n times in a row appends n timestamps in order. */
  lemma {:induction false} MarkDoneRepeated(store: Store, id: int, times: seq<Instant>)
    ensures times != [] ==> Key(id) in MarkDoneAll(store, id, times)
    ensures times != [] ==> MarkDoneAll(store, id, times)[Key(id)].completions == Touch(store, Key(id)).completions + times
    decreases |times|
  {
    if times != [] {
      var s' := MarkDone(store, id, times[0]);
      MarkDoneRepeated(s', id, times[1..]);
      assert times == [times[0]] + times[1..];
    }
  }

  /** `markDone` at each of the given instants in turn. */
  function MarkDoneAll(store: Store, id: int, times: seq<Instant>): Store
    decreases |times|
  {
    if times == [] then store else MarkDoneAll(MarkDone(store, id, times[0]), id, times[1..])
  }
}

=== FILE: native_storage.dfy ===
/** Native::StorageController#sync (app/controllers/native/storage_controller.rb):
    merges the native app's stored interactions into a signed-in user's rows.
    Ratings overwrite when present; completions are merged as the sorted,
    duplicate-free union of the stored ones and the incoming ones that
    parse, and `last_completed_at` becomes the latest of them. */
module NativeStorage {
  import opened Wrappers
  import opened Text
  import opened Activities
  import opened UserInteractions

  predicate StrictlyIncreasing(s: seq<Instant>) {
    forall i, j :: 0 <= i < j < |s| ==> s[i] < s[j]
  }

  /** Put x into its place in a strictly increasing list, unless it is there. */
  function InsertUnique(x: Instant, s: seq<Instant>): (r: seq<Instant>)
    requires StrictlyIncreasing(s)
    ensures StrictlyIncreasing(r)
    ensures forall y :: y in r <==> y in s || y == x
  {
    if s == [] then [x]
    else if x < s[0] then [x] + s
    else if x == s[0] then s
    else
      var rest := InsertUnique(x, s[1..]);
      assert forall y :: y in s[1..] ==> s[0] < y;
      ConsIncreasing(s[0], rest);
      [s[0]] + rest
  }

  lemma ConsIncreasing(a: Instant, rest: seq<Instant>)
    requires StrictlyIncreasing(rest) && forall y :: y in rest ==> a < y
    ensures StrictlyIncreasing([a] + rest)
  {
    forall i, j | 0 <= i < j < |rest| + 1 ensures ([a] + rest)[i] < ([a] + rest)[j] {
      if i == 0 {
        assert rest[j - 1] in rest;
      }
    }
  }

  /** Ruby's `uniq.sort` on timestamps. */
  function SortedUnique(s: seq<Instant>): (r: seq<Instant>)
    ensures StrictlyIncreasing(r)
    ensures forall y :: y in r <==> y in s
  {
    if s == [] then [] else InsertUnique(s[0], SortedUnique(s[1..]))
  }

  /** A strictly increasing list is determined by its members. */
  lemma {:induction false} IncreasingUnique(a: seq<Instant>, b: seq<Instant>)
    requires StrictlyIncreasing(a) && StrictlyIncreasing(b)
    requires forall y :: y in a <==> y in b
    ensures a == b
    decreases |a|
  {
    assert a != [] <==> b != [] by {
      if a != [] { assert a[0] in a; assert a[0] in b; }
      if b != [] { assert b[0] in b; assert b[0] in a; }
    }
    if a != [] {
      assert a[0] in a && b[0] in b;
      assert a[0] in b;
      assert b[0] in a;
      assert a[0] == b[0] by {
        var i :| 0 <= i < |b| && b[i] == a[0];
        var j :| 0 <= j < |a| && a[j] == b[0];
        assert b[0] <= b[i] && a[0] <= a[j];
      }
      forall y ensures y in a[1..] <==> y in b[1..] {
        if y in a[1..] {
          var i :| 1 <= i < |a| && a[i] == y;
          assert y in b && y != b[0];
        }
        if y in b[1..] {
          var i :| 1 <= i < |b| && b[i] == y;
          assert y in a && y != a[0];
        }
      }
      IncreasingUnique(a[1..], b[1..]);
    }
  }

  /** One incoming entry: an optional rating and, when present, the
      completions array as strings that may or may not parse. */
  datatype SyncData = SyncData(rating: Option<int>, completions: Option<seq<RawTime>>)

  /** `map { Time.parse(c) rescue nil }.compact`. */
  function ParsedTimes(cs: seq<RawTime>): (r: seq<Instant>)
    ensures forall t :: t in r <==> Parsed(t) in cs
  {
    if cs == [] then []
    else
      var rest := ParsedTimes(cs[1..]);
      assert forall x :: x in cs <==> x == cs[0] || x in cs[1..];
      match cs[0]
      case Parsed(t) => [t] + rest
      case Unparseable => rest
  }

  /** The merged completions of a row and an incoming array. */
  function MergeCompletions(existing: Option<seq<Instant>>, incoming: seq<RawTime>): (r: seq<Instant>)
    ensures StrictlyIncreasing(r)
    ensures forall t :: t in r <==> t in existing.GetOr([]) || Parsed(t) in incoming
  {
    SortedUnique(existing.GetOr([]) + ParsedTimes(incoming))
  }

  /** `completions.last`: nil for an empty list. */
  function Last(s: seq<Instant>): (r: Option<Instant>)
    ensures r.None? <==> s == []
    ensures StrictlyIncreasing(s) ==> forall t :: t in s ==> t <= r.value
  {
    if s == [] then None else Some(s[|s| - 1])
  }

  /** One entry of `sync`. Rows are keyed by activity id. A key whose
      `to_i` is negative, or names no existing activity, is skipped: the
      `activity` reference is required and a foreign key, so `save` stores
      nothing for it. */
  function SyncEntry(rows: Rows, key: string, d: SyncData, activityExists: int -> bool): (r: Rows)
    ensures ToI(key) < 0 || !activityExists(ToI(key)) ==> r == rows
    ensures ToI(key) >= 0 && activityExists(ToI(key)) ==>
              var id: nat := ToI(key);
              var prev := FindOrInitialize(rows, id);
              r.Keys == rows.Keys + {id}
              && r[id].rating == (if d.rating.Some? then d.rating else prev.rating)
              && (IncomingPresent(d.completions) ==>
                    r[id].completions == Some(MergeCompletions(prev.completions, d.completions.value))
                    && r[id].lastCompletedAt == Last(r[id].completions.value))
              && (!IncomingPresent(d.completions) ==>
                    r[id].completions == prev.completions && r[id].lastCompletedAt == prev.lastCompletedAt)
              && forall k :: k in rows && k != id ==> r[k] == rows[k]
  {
    var n := ToI(key);
    if n < 0 || !activityExists(n) then rows
    else
      var id: nat := n;
      var row := FindOrInitialize(rows, id);
      var row1 := if d.rating.Some? then row.(rating := d.rating) else row;
      var row2 :=
        if IncomingPresent(d.completions) then
          var merged := MergeCompletions(row1.completions, d.completions.value);
          row1.(completions := Some(merged), lastCompletedAt := Last(merged))
        else row1;
      rows[id := row2]
  }

  predicate IncomingPresent(c: Option<seq<RawTime>>) {
    c.Some? && c.value != []
  }

  function SyncAll(rows: Rows, entries: seq<(string, SyncData)>, activityExists: int -> bool): Rows
    decreases |entries|
  {
    if entries == [] then rows
    else SyncAll(SyncEntry(rows, entries[0].0, entries[0].1, activityExists), entries[1..], activityExists)
  }

  /** No entry creates a row for an activity that does not exist, and such
      a row, were it stored, would be left as it is. */
  lemma {:induction false} SyncSkipsMissing(rows: Rows, entries: seq<(string, SyncData)>, activityExists: int -> bool, id: nat)
    requires !activityExists(id)
    ensures id in SyncAll(rows, entries, activityExists) <==> id in rows
    ensures id in rows ==> SyncAll(rows, entries, activityExists)[id] == rows[id]
    decreases |entries|
  {
    if entries != [] {
      var rows' := SyncEntry(rows, entries[0].0, entries[0].1, activityExists);
      assert id in rows' <==> id in rows;
      assert id in rows ==> rows'[id] == rows[id];
      SyncSkipsMissing(rows', entries[1..], activityExists, id);
    }
  }

  datatype SyncStatus = SyncOk | UnprocessableEntity

  /** `sync`: without a signed-in user or with no entries, nothing changes. */
  function Sync(signedIn: bool, entries: seq<(string, SyncData)>, rows: Rows, activityExists: int -> bool): (r: (SyncStatus, Rows))
    ensures !signedIn || entries == [] ==> r == (UnprocessableEntity, rows)
    ensures signedIn && entries != [] ==> r.0 == SyncOk
  {
    if signedIn && entries != [] then (SyncOk, SyncAll(rows, entries, activityExists))
    else (UnprocessableEntity, rows)
  }

  /** Stored completions are never lost, unparseable incoming ones are
      dropped, and `last_completed_at` is the latest completion. */
  lemma SyncKeepsHistory(rows: Rows, id: nat, d: SyncData, activityExists: int -> bool)
    requires activityExists(id) && IncomingPresent(d.completions)
    ensures var r := SyncEntry(rows, IntToString(id), d, activityExists);
            id in r && r[id].completions.Some?
            && (forall t :: t in FindOrInitialize(rows, id).completions.GetOr([]) ==> t in r[id].completions.value)
            && (forall t :: t in r[id].completions.value ==>
                  t in FindOrInitialize(rows, id).completions.GetOr([]) || Parsed(t) in d.completions.value)
            && (r[id].lastCompletedAt.None? <==> r[id].completions.value == [])
            && forall t :: t in r[id].completions.value ==> t <= r[id].lastCompletedAt.value
  {
    ToIOfIntToString(id);
  }

  /** An incoming array whose every timestamp fails to parse, on a row with
      no completions, leaves the row with an empty list and clears
      `last_completed_at`. */
  lemma AllUnparseableClearsLast(rows: Rows, id: nat, activityExists: int -> bool)
    requires activityExists(id) && id !in rows
    ensures var r := SyncEntry(rows, IntToString(id), SyncData(None, Some([Unparseable])), activityExists);
            id in r && r[id].completions == Some([]) && r[id].lastCompletedAt.None?
  {
    ToIOfIntToString(id);
    assert ParsedTimes([Unparseable]) == [];
  }

  /** Re-syncing the same entry changes nothing more. */
  lemma SyncIdempotent(rows: Rows, key: string, d: SyncData, activityExists: int -> bool)
    ensures SyncEntry(SyncEntry(rows, key, d, activityExists), key, d, activityExists)
            == SyncEntry(rows, key, d, activityExists)
  {
    var n := ToI(key);
    if n >= 0 && activityExists(n) && IncomingPresent(d.completions) {
      var id: nat := n;
      var once := SyncEntry(rows, key, d, activityExists);
      var twice := SyncEntry(once, key, d, activityExists);
      var m1 := once[id].completions.value;
      var m2 := twice[id].completions.value;
      IncreasingUnique(m1, m2);
      assert twice[id] == once[id];
    }
  }
}

=== FILE: recommendation_scorer.dfy ===
/** RecommendationScorer (app/services/recommendation_scorer.rb): a fixed-weight
    score per activity (distance, rating, recency, variety, weather) and the
    multi-pass sort built on it. Distances are miles as given; timestamps are
    seconds; the home coordinates the Ruby methods take are not read by the
    score once distances are attached, so they are not parameters here. */
module RecommendationScorer {
  import opened Wrappers
  import opened Text
  import opened Seqs
  import opened Activities
  import opened WeatherService

  const DistanceWeight: real := 1.0
  const RatingWeight: real := 5.0
  const RecencyHide: real := -1000.0
  const RecencyPenalty: real := -3.0
  const VarietyPenalty: real := -2.0
  const WeatherPenalty: real := -4.0

  const RecencyHideDays: real := 7.0
  const RecencyPenaltyDays: real := 21.0
  const VarietyWindowSize: nat := 3
  /** How many leading entries the variety pass re-scores (`VARIETY_WINDOW_SIZE * 2`). */
  const VarietySpan: nat := 6
  /** The distance assumed for an activity whose distance is unknown. */
  const UnknownDistance: real := 20.0

  /** What the scorer reads from one entry of the interactions hash:
      `'rating'` and `'lastCompleted'`, each possibly nil. */
  datatype Signal = Signal(rating: Option<int>, lastCompleted: Option<RawTime>)

  /** The interactions hash, keyed by the activity id as a decimal string. */
  type Interactions = map<string, Signal>

  /** The inputs every score shares: the current instant and the weather strategy. */
  datatype Context = Context(now: Instant, strategy: Strategy)

  /** `interactions[activity.id.to_s]`. */
  function Lookup(inter: Interactions, a: Activity): (r: Option<Signal>)
    ensures r.Some? <==> IntToString(a.id) in inter
  {
    var key := IntToString(a.id);
    if key in inter then Some(inter[key]) else None
  }

  /** `days_since_completion`: None stands for `Float::INFINITY` (a nil or
      unparseable timestamp). */
  function DaysSinceCompletion(last: Option<RawTime>, now: Instant): (r: Option<real>)
    ensures r.Some? <==> last.Some? && last.value.Parsed?
    ensures r.Some? ==> r.value * 86400.0 == (now - last.value.at) as real
  {
    match last
    case Some(Parsed(t)) => Some((now - t) as real / 86400.0)
    case _ => None
  }

  /** Completed less than `days` days ago (an infinite age is never recent). */
  predicate CompletedWithin(sig: Option<Signal>, now: Instant, days: real) {
    sig.Some? && sig.value.lastCompleted.Some?
    && match DaysSinceCompletion(sig.value.lastCompleted, now)
       case Some(d) => d < days
       case None => false
  }

  /** In whole seconds: recent means completed less than 7 * 86400 s before now
      (a timestamp in the future counts as recent). */
  lemma CompletedWithinSeconds(sig: Option<Signal>, now: Instant, days: nat)
    ensures CompletedWithin(sig, now, days as real) <==>
              sig.Some? && sig.value.lastCompleted.Some? && sig.value.lastCompleted.value.Parsed?
              && now - sig.value.lastCompleted.value.at < days * 86400
  {
  }

  function DistanceTerm(a: Activity): real {
    -(a.distance.GetOr(UnknownDistance) * DistanceWeight)
  }

  function RatingTerm(sig: Option<Signal>): real {
    if sig.Some? && sig.value.rating == Some(1) then RatingWeight
    else if sig.Some? && sig.value.rating == Some(-1) then -RatingWeight
    else 0.0
  }

  function RecencyTerm(sig: Option<Signal>, now: Instant): real {
    if CompletedWithin(sig, now, RecencyHideDays) then RecencyHide
    else if CompletedWithin(sig, now, RecencyPenaltyDays) then RecencyPenalty
    else 0.0
  }

  function VarietyTerm(a: Activity, position: nat, previous: seq<Option<ActivityType>>): real {
    if position > 0 && a.kind in previous then VarietyPenalty else 0.0
  }

  function WeatherTerm(a: Activity, s: Strategy): real {
    if s == DeprioritizeOutdoor && !a.indoor then WeatherPenalty else 0.0
  }

  /** `score`: the sum of the five terms, higher is better. */
  function Score(a: Activity, inter: Interactions, ctx: Context, position: nat, previous: seq<Option<ActivityType>>): real {
    var sig := Lookup(inter, a);
    DistanceTerm(a) + RatingTerm(sig) + RecencyTerm(sig, ctx.now)
    + VarietyTerm(a, position, previous) + WeatherTerm(a, ctx.strategy)
  }

  /** The score at position 0 with no previous types: what the first pass uses. */
  function BaseScore(a: Activity, inter: Interactions, ctx: Context): real {
    Score(a, inter, ctx, 0, [])
  }

  /** Each mile of distance costs exactly one point; an unknown distance
      scores like 20 miles. */
  lemma DistanceDelta(a: Activity, inter: Interactions, ctx: Context, d: real, e: real)
    requires IntToString(a.id) !in inter
    ensures BaseScore(a.(distance := Some(d)), inter, ctx) - BaseScore(a.(distance := Some(e)), inter, ctx) == e - d
    ensures BaseScore(a.(distance := None), inter, ctx) == BaseScore(a.(distance := Some(20.0)), inter, ctx)
  {
  }

  /** A thumbs-up adds exactly 5 and a thumbs-down subtracts exactly 5,
      compared with no interaction; any other rating, or none, adds nothing. */
  lemma RatingDelta(a: Activity, ctx: Context, rating: Option<int>)
    ensures var inter := map[IntToString(a.id) := Signal(rating, None)];
            BaseScore(a, inter, ctx) - BaseScore(a, map[], ctx)
            == (if rating == Some(1) then 5.0 else if rating == Some(-1) then -5.0 else 0.0)
  {
  }

  /** The recency term by age in seconds: under 7 days -1000, 7 to 21 days -3,
      otherwise (including nil and unparseable timestamps) nothing. */
  lemma RecencyBands(a: Activity, ctx: Context, last: Option<RawTime>)
    ensures var sig := Some(Signal(None, last));
            RecencyTerm(sig, ctx.now)
            == if last.Some? && last.value.Parsed? && ctx.now - last.value.at < 7 * 86400 then -1000.0
               else if last.Some? && last.value.Parsed? && ctx.now - last.value.at < 21 * 86400 then -3.0
               else 0.0
  {
    CompletedWithinSeconds(Some(Signal(None, last)), ctx.now, 7);
    CompletedWithinSeconds(Some(Signal(None, last)), ctx.now, 21);
  }

  /** Under `deprioritize_outdoor` an outdoor activity loses exactly 4 points
      against the same activity under normal weather; indoor ones lose nothing. */
  lemma WeatherDelta(a: Activity, inter: Interactions, now: Instant)
    ensures BaseScore(a, inter, Context(now, DeprioritizeOutdoor)) - BaseScore(a, inter, Context(now, Normal))
            == (if a.indoor then 0.0 else -4.0)
    ensures BaseScore(a, inter, Context(now, HideOutdoor)) == BaseScore(a, inter, Context(now, Normal))
  {
  }

  /** In the variety context the score drops by exactly 2 when the position is
      not the first and the type occurred among the previous types. */
  lemma VarietyDelta(a: Activity, inter: Interactions, ctx: Context, position: nat, previous: seq<Option<ActivityType>>)
    ensures Score(a, inter, ctx, position, previous)
            == BaseScore(a, inter, ctx) - (if position > 0 && a.kind in previous then 2.0 else 0.0)
  {
  }

  // ---- the sort ----

  datatype Scored = Scored(activity: Activity, score: real)

  function Acts(s: seq<Scored>): (r: seq<Activity>)
    ensures |r| == |s| && forall i :: 0 <= i < |s| ==> r[i] == s[i].activity
  {
    Map(s, (x: Scored) => x.activity)
  }

  function Kinds(s: seq<Scored>): (r: seq<Option<ActivityType>>)
    ensures |r| == |s| && forall i :: 0 <= i < |s| ==> r[i] == s[i].activity.kind
  {
    seq(|s|, i requires 0 <= i < |s| => s[i].activity.kind)
  }

  predicate Recent(inter: Interactions, now: Instant, a: Activity) {
    CompletedWithin(Lookup(inter, a), now, RecencyHideDays)
  }

  /** `filter_recently_completed`: drop what was completed in the last 7 days. */
  function FilterRecentlyCompleted(acts: seq<Activity>, inter: Interactions, now: Instant): (r: seq<Activity>)
    ensures IsSubseq(r, acts)
    ensures forall a :: a in r ==> !Recent(inter, now, a)
    ensures forall a :: a in acts && !Recent(inter, now, a) ==> multiset(r)[a] == multiset(acts)[a]
  {
    Filter(acts, (a: Activity) => !Recent(inter, now, a))
  }

  /** The first pass with its relaxation: the non-recent activities, or all
      of them when every one is recent. */
  function Candidates(acts: seq<Activity>, inter: Interactions, now: Instant): (r: seq<Activity>)
    ensures acts != [] ==> r != []
    ensures (exists a :: a in acts && !Recent(inter, now, a)) ==> r == FilterRecentlyCompleted(acts, inter, now)
    ensures (forall a :: a in acts ==> Recent(inter, now, a)) ==> r == acts
  {
    var filtered := FilterRecentlyCompleted(acts, inter, now);
    NonRecentSurvives(acts, inter, now);
    assert filtered != [] ==> filtered[0] in filtered;
    if filtered == [] && acts != [] then acts else filtered
  }

  lemma NonRecentSurvives(acts: seq<Activity>, inter: Interactions, now: Instant)
    ensures (exists a :: a in acts && !Recent(inter, now, a)) ==> FilterRecentlyCompleted(acts, inter, now) != []
  {
    if exists a :: a in acts && !Recent(inter, now, a) {
      var a :| a in acts && !Recent(inter, now, a);
      assert a in multiset(FilterRecentlyCompleted(acts, inter, now));
    }
  }

  /** The second pass: every candidate with its base score. */
  function ScoreAll(acts: seq<Activity>, inter: Interactions, ctx: Context): (r: seq<Scored>)
    ensures Acts(r) == acts
    ensures forall x :: x in r ==> x.score == BaseScore(x.activity, inter, ctx)
  {
    seq(|acts|, i requires 0 <= i < |acts| => Scored(acts[i], BaseScore(acts[i], inter, ctx)))
  }

  predicate ScoreGe(x: Scored, y: Scored) {
    x.score >= y.score
  }

  predicate ByScoreDesc(s: seq<Scored>) {
    SortedBy(s, ScoreGe)
  }

  /** `sort_by! { -score }`: a permutation ordered by non-increasing score. */
  function SortByScore(s: seq<Scored>): (r: seq<Scored>)
    ensures ByScoreDesc(r) && multiset(r) == multiset(s)
  {
    SortBy(s, ScoreGe)
  }

  /** The largest number of times any of `ks`'s elements occurs in `all`. */
  function MaxCountFrom(ks: seq<Option<ActivityType>>, all: seq<Option<ActivityType>>): (r: nat)
    ensures forall i :: 0 <= i < |ks| ==> multiset(all)[ks[i]] <= r
    ensures ks != [] ==> exists i :: 0 <= i < |ks| && multiset(all)[ks[i]] == r
    ensures ks == [] ==> r == 0
  {
    if ks == [] then 0
    else
      var rest := MaxCountFrom(ks[1..], all);
      var here := multiset(all)[ks[0]];
      assert forall i :: 1 <= i < |ks| ==> ks[i] == ks[1..][i - 1];
      if here >= rest then here else rest
  }

  /** `type_counts.values.max`: the count of the most frequent type. */
  function MaxTypeCount(s: seq<Scored>): nat {
    MaxCountFrom(Kinds(s), Kinds(s))
  }

  /** `should_apply_variety_penalty?`: at least three entries and the
      most frequent type's share `max/len` below 0.7. */
  function ShouldApplyVarietyPenalty(s: seq<Scored>): bool {
    |s| >= 3 && 10 * MaxTypeCount(s) < 7 * |s|
  }

  /** The gate, read per type: the pass runs exactly when there are at least
      three entries and no type (nil included) makes up 70% of them. */
  lemma {:induction false} VarietyGate(s: seq<Scored>)
    ensures ShouldApplyVarietyPenalty(s) <==>
              |s| >= 3 && forall t: Option<ActivityType> :: 10 * multiset(Kinds(s))[t] < 7 * |s|
  {
    var ks := Kinds(s);
    var m := MaxTypeCount(s);
    if |s| >= 3 {
      if 10 * m < 7 * |s| {
        forall t: Option<ActivityType> ensures 10 * multiset(ks)[t] < 7 * |s| {
          if t in ks {
            var i :| 0 <= i < |ks| && ks[i] == t;
            assert multiset(ks)[ks[i]] <= m;
          }
        }
      } else {
        var i :| 0 <= i < |ks| && multiset(ks)[ks[i]] == m;
        assert 10 * multiset(ks)[ks[i]] >= 7 * |s|;
      }
    }
  }

  /** The first six entries re-scored in the variety context, from `i` on.
      `seen` is the list of types at the indices before `i`. */
  function Rescore(s: seq<Scored>, i: nat, seen: seq<Option<ActivityType>>, inter: Interactions, ctx: Context): (r: seq<Scored>)
    requires i <= |s| && i <= VarietySpan && seen == Kinds(s)[..i]
    ensures |r| == |s| && Acts(r) == Acts(s)
    ensures forall k :: 0 <= k < i ==> r[k] == s[k]
    ensures forall k :: i <= k < |s| && k < VarietySpan ==>
              r[k].score == Score(s[k].activity, inter, ctx, k, Kinds(s)[..k])
    ensures forall k :: VarietySpan <= k < |s| ==> r[k] == s[k]
    decreases VarietySpan - i
  {
    if i == VarietySpan || i == |s| then s
    else
      var a := s[i].activity;
      var s' := s[i := Scored(a, Score(a, inter, ctx, i, seen))];
      assert Acts(s') == Acts(s);
      assert Kinds(s') == Kinds(s);
      assert Kinds(s)[..i + 1] == seen + [a.kind];
      Rescore(s', i + 1, seen + [a.kind], inter, ctx)
  }

  /** `apply_variety_penalty!`: re-score the first six, then sort again. */
  function ApplyVarietyPenalty(s: seq<Scored>, inter: Interactions, ctx: Context): (r: seq<Scored>)
    ensures ByScoreDesc(r)
    ensures multiset(r) == multiset(Rescore(s, 0, [], inter, ctx))
  {
    SortByScore(Rescore(s, 0, [], inter, ctx))
  }

  /** `sort_with_scores`, before the final projection to activities. */
  function SortWithScoresScored(acts: seq<Activity>, inter: Interactions, ctx: Context): (r: seq<Scored>)
    ensures ByScoreDesc(r)
    ensures |r| == |Candidates(acts, inter, ctx.now)|
  {
    var scored := SortByScore(ScoreAll(Candidates(acts, inter, ctx.now), inter, ctx));
    if ShouldApplyVarietyPenalty(scored) then
      var r := ApplyVarietyPenalty(scored, inter, ctx);
      assert |r| == |multiset(r)|;
      r
    else
      assert |scored| == |multiset(scored)|;
      scored
  }

  /** `sort_with_scores`. */
  function SortWithScores(acts: seq<Activity>, inter: Interactions, ctx: Context): (r: seq<Activity>)
    ensures acts != [] ==> r != []
  {
    Acts(SortWithScoresScored(acts, inter, ctx))
  }

  /** The result is a permutation of the candidates: of the activities not
      completed in the last 7 days, or of all of them when every one was. */
  lemma SortWithScoresPermutation(acts: seq<Activity>, inter: Interactions, ctx: Context)
    ensures multiset(SortWithScores(acts, inter, ctx)) == multiset(Candidates(acts, inter, ctx.now))
  {
    var cands := Candidates(acts, inter, ctx.now);
    var base := ScoreAll(cands, inter, ctx);
    var scored := SortByScore(base);
    MapPermutation(scored, base, (x: Scored) => x.activity);
    if ShouldApplyVarietyPenalty(scored) {
      var re := Rescore(scored, 0, [], inter, ctx);
      MapPermutation(ApplyVarietyPenalty(scored, inter, ctx), re, (x: Scored) => x.activity);
    }
  }

  /** With the variety pass skipped, every entry carries its base score, so
      the list is ordered by non-increasing base score. */
  lemma NoVarietyOrdersByBaseScore(acts: seq<Activity>, inter: Interactions, ctx: Context)
    requires !ShouldApplyVarietyPenalty(SortByScore(ScoreAll(Candidates(acts, inter, ctx.now), inter, ctx)))
    ensures var r := SortWithScores(acts, inter, ctx);
            forall i, j :: 0 <= i < j < |r| ==> BaseScore(r[i], inter, ctx) >= BaseScore(r[j], inter, ctx)
  {
    var base := ScoreAll(Candidates(acts, inter, ctx.now), inter, ctx);
    var s := SortWithScoresScored(acts, inter, ctx);
    forall k | 0 <= k < |s| ensures s[k].score == BaseScore(s[k].activity, inter, ctx) {
      assert s[k] in multiset(base);
    }
  }

  /** With the variety pass applied, every entry that came from the first six
      positions of the score-sorted list carries that position's variety
      score; every other entry carries its base score. */
  lemma VarietyScoresOfResult(acts: seq<Activity>, inter: Interactions, ctx: Context)
    requires ShouldApplyVarietyPenalty(SortByScore(ScoreAll(Candidates(acts, inter, ctx.now), inter, ctx)))
    ensures var s := SortByScore(ScoreAll(Candidates(acts, inter, ctx.now), inter, ctx));
            var r := SortWithScoresScored(acts, inter, ctx);
            forall x :: x in r ==> VarietyScored(s, x, inter, ctx)
  {
    var base := ScoreAll(Candidates(acts, inter, ctx.now), inter, ctx);
    var s := SortByScore(base);
    PermutationKeepsBaseScores(base, s, inter, ctx);
    assert SortWithScoresScored(acts, inter, ctx) == ApplyVarietyPenalty(s, inter, ctx);
    RescoredEntries(s, ApplyVarietyPenalty(s, inter, ctx), inter, ctx);
  }

  lemma PermutationKeepsBaseScores(base: seq<Scored>, s: seq<Scored>, inter: Interactions, ctx: Context)
    requires forall x :: x in base ==> x.score == BaseScore(x.activity, inter, ctx)
    requires multiset(s) == multiset(base)
    ensures forall x :: x in s ==> x.score == BaseScore(x.activity, inter, ctx)
  {
    forall x | x in s ensures x.score == BaseScore(x.activity, inter, ctx) {
      assert x in multiset(base);
    }
  }

  lemma RescoredEntries(s: seq<Scored>, r: seq<Scored>, inter: Interactions, ctx: Context)
    requires forall x :: x in s ==> x.score == BaseScore(x.activity, inter, ctx)
    requires multiset(r) == multiset(Rescore(s, 0, [], inter, ctx))
    ensures forall x :: x in r ==> VarietyScored(s, x, inter, ctx)
  {
    var re := Rescore(s, 0, [], inter, ctx);
    forall x | x in r ensures VarietyScored(s, x, inter, ctx) {
      assert x in multiset(re);
      var k :| 0 <= k < |re| && re[k] == x;
      RescoreEntry(s, k, inter, ctx);
    }
  }

  /** An entry of the re-scored list: either one of the first six with the
      score of its position, or one carrying its base score. */
  predicate VarietyScored(s: seq<Scored>, x: Scored, inter: Interactions, ctx: Context) {
    (exists k :: 0 <= k < |s| && k < VarietySpan && x.activity == s[k].activity
       && x.score == Score(s[k].activity, inter, ctx, k, Kinds(s)[..k]))
    || x.score == BaseScore(x.activity, inter, ctx)
  }

  lemma RescoreEntry(s: seq<Scored>, k: nat, inter: Interactions, ctx: Context)
    requires k < |s| && forall x :: x in s ==> x.score == BaseScore(x.activity, inter, ctx)
    ensures VarietyScored(s, Rescore(s, 0, [], inter, ctx)[k], inter, ctx)
  {
    var re := Rescore(s, 0, [], inter, ctx);
    assert Acts(re)[k] == Acts(s)[k];
    if k >= VarietySpan {
      assert re[k] == s[k];
    }
  }

  /** The variety penalty follows the growing list of earlier types, not a
      sliding window: the sixth entry is penalised for a type seen first. */
  lemma VarietySeenListGrows(s: seq<Scored>, inter: Interactions, ctx: Context)
    requires |s| >= 6 && s[5].activity.kind == s[0].activity.kind
    ensures Rescore(s, 0, [], inter, ctx)[5].score == BaseScore(s[5].activity, inter, ctx) - 2.0
  {
    assert s[5].activity.kind in Kinds(s)[..5];
    VarietyDelta(s[5].activity, inter, ctx, 5, Kinds(s)[..5]);
  }

  /** Without interactions and under normal weather, nothing is recent and
      the score is minus the distance: when the variety pass is skipped the
      result is every activity, nearest first (unknown distances as 20 miles). */
  lemma NoInteractionsSortsByDistance(acts: seq<Activity>, now: Instant)
    requires !ShouldApplyVarietyPenalty(SortByScore(ScoreAll(Candidates(acts, map[], now), map[], Context(now, Normal))))
    ensures var r := SortWithScores(acts, map[], Context(now, Normal));
            multiset(r) == multiset(acts)
            && forall i, j :: 0 <= i < j < |r| ==> r[i].distance.GetOr(UnknownDistance) <= r[j].distance.GetOr(UnknownDistance)
  {
    var ctx := Context(now, Normal);
    NothingRecentWithoutInteractions(acts, now);
    SortWithScoresPermutation(acts, map[], ctx);
    NoVarietyOrdersByBaseScore(acts, map[], ctx);
    var r := SortWithScores(acts, map[], ctx);
    forall i, j | 0 <= i < j < |r|
      ensures r[i].distance.GetOr(UnknownDistance) <= r[j].distance.GetOr(UnknownDistance)
    {
      ScoreWithoutInteractions(r[i], now);
      ScoreWithoutInteractions(r[j], now);
    }
  }

  /** Without interactions and in fair weather only distance scores. */
  lemma ScoreWithoutInteractions(a: Activity, now: Instant)
    ensures BaseScore(a, map[], Context(now, Normal)) == -a.distance.GetOr(UnknownDistance)
  {
  }

  /** Without interactions nothing was completed recently, so every activity
      is a candidate. */
  lemma NothingRecentWithoutInteractions(acts: seq<Activity>, now: Instant)
    ensures multiset(Candidates(acts, map[], now)) == multiset(acts)
  {
    assert forall a :: !Recent(map[], now, a);
    if acts != [] {
      assert acts[0] in acts;
    }
  }
}

=== FILE: seqs.dfy ===
/** Sequence operations shared by the filters and the sorts: Ruby's
    `select`, `take`, and `sort_by`. Ruby's `sort_by` is not stable, so a sort
    is specified only as a permutation ordered by its key. */
module Seqs {

  /** r can be obtained from s by deleting elements (order is kept). */
  predicate IsSubseq<T(==)>(r: seq<T>, s: seq<T>)
    decreases |s|
  {
    r == [] || (s != [] && ((r[0] == s[0] && IsSubseq(r[1..], s[1..])) || IsSubseq(r, s[1..])))
  }

  lemma {:induction false} SubseqRefl<T>(s: seq<T>)
    ensures IsSubseq(s, s)
    decreases |s|
  {
    if s != [] {
      SubseqRefl(s[1..]);
    }
  }

  /** A subsequence of a subsequence is a subsequence. */
  lemma {:induction false} SubseqTrans<T>(a: seq<T>, b: seq<T>, c: seq<T>)
    requires IsSubseq(a, b) && IsSubseq(b, c)
    ensures IsSubseq(a, c)
    decreases |c|
  {
    if a == [] {
    } else if b[0] == c[0] && IsSubseq(b[1..], c[1..]) {
      if a[0] == b[0] && IsSubseq(a[1..], b[1..]) {
        SubseqTrans(a[1..], b[1..], c[1..]);
      } else {
        SubseqTrans(a, b[1..], c[1..]);
      }
    } else {
      SubseqTrans(a, b, c[1..]);
    }
  }

  /** A prefix of a subsequence is a subsequence. */
  lemma {:induction false} PrefixSubseq<T>(r: seq<T>, s: seq<T>, k: nat)
    requires IsSubseq(r, s) && k <= |r|
    ensures IsSubseq(r[..k], s)
    decreases |s|
  {
    if k == 0 {
    } else if r[0] == s[0] && IsSubseq(r[1..], s[1..]) {
      PrefixSubseq(r[1..], s[1..], k - 1);
      assert r[..k][1..] == r[1..][..k - 1];
    } else {
      PrefixSubseq(r, s[1..], k);
    }
  }

  /** A later suffix is a subsequence of an earlier one. */
  lemma {:induction false} SuffixSubseq<T>(s: seq<T>, i: nat, j: nat)
    requires i <= j <= |s|
    ensures IsSubseq(s[j..], s[i..])
    decreases j - i
  {
    if i == j {
      SubseqRefl(s[j..]);
    } else {
      SuffixSubseq(s, i + 1, j);
      assert s[i..][1..] == s[i + 1..];
    }
  }

  /** A slice is a subsequence. */
  lemma SliceSubseq<T>(s: seq<T>, a: nat, b: nat)
    requires a <= b <= |s|
    ensures IsSubseq(s[a..b], s)
  {
    SubseqRefl(s[a..]);
    PrefixSubseq(s[a..], s[a..], b - a);
    assert s[a..][..b - a] == s[a..b];
    SuffixSubseq(s, 0, a);
    assert s[0..] == s;
    SubseqTrans(s[a..b], s[a..], s);
  }

  /** Members of a subsequence are members of the sequence. */
  lemma {:induction false} SubseqMembers<T>(r: seq<T>, s: seq<T>)
    requires IsSubseq(r, s)
    ensures forall x :: x in r ==> x in s
    decreases |s|
  {
    if r == [] {
    } else if r[0] == s[0] && IsSubseq(r[1..], s[1..]) {
      SubseqMembers(r[1..], s[1..]);
      assert r == [r[0]] + r[1..];
    } else {
      SubseqMembers(r, s[1..]);
    }
  }

  /** Ruby's `select`: the elements satisfying p, in order. */
  function Filter<T(==)>(s: seq<T>, p: T -> bool): (r: seq<T>)
    ensures |r| <= |s|
    ensures IsSubseq(r, s)
    ensures multiset(r) <= multiset(s)
    ensures forall x :: x in r ==> p(x)
    ensures forall x :: x in s && p(x) ==> multiset(r)[x] == multiset(s)[x]
  {
    if s == [] then []
    else
      var rest := Filter(s[1..], p);
      assert s == [s[0]] + s[1..];
      if p(s[0]) then [s[0]] + rest else rest
  }

  /** Ruby's `take(n)` / `first(n)`. */
  function Take<T>(s: seq<T>, n: nat): (r: seq<T>)
    ensures |r| <= n && |r| <= |s|
    ensures r == s[..|r|]
    ensures |s| <= n ==> r == s
    ensures n < |s| ==> |r| == n
  {
    if |s| <= n then s else s[..n]
  }

  /** Selecting from a concatenation selects from each part. */
  lemma {:induction false} FilterConcat<T>(a: seq<T>, b: seq<T>, p: T -> bool)
    ensures Filter(a + b, p) == Filter(a, p) + Filter(b, p)
    decreases |a|
  {
    if a == [] {
      assert a + b == b;
    } else {
      assert (a + b)[0] == a[0];
      assert (a + b)[1..] == a[1..] + b;
      FilterConcat(a[1..], b, p);
    }
  }

  /** `select { p }.first(n)` keeps every element satisfying p that fewer
      than n selected elements precede. */
  lemma FirstNKeeps<T>(s: seq<T>, p: T -> bool, n: nat, i: nat)
    requires i < |s| && p(s[i]) && |Filter(s[..i], p)| < n
    ensures s[i] in Take(Filter(s, p), n)
  {
    var k := |Filter(s[..i], p)|;
    FilterSplit(s, p, i);
    assert Filter(s, p)[k] == s[i];
    assert Take(Filter(s, p), n)[k] == s[i];
  }

  /** The selection from s, split at a selected element i. */
  lemma FilterSplit<T>(s: seq<T>, p: T -> bool, i: nat)
    requires i < |s| && p(s[i])
    ensures Filter(s, p) == Filter(s[..i], p) + [s[i]] + Filter(s[i + 1..], p)
  {
    var a, x, b := s[..i], s[i], s[i + 1..];
    SplitAt(s, i);
    FilterConcat(a, [x] + b, p);
    FilterCons(x, b, p);
    var fa, fb := Filter(a, p), Filter(b, p);
    assert fa + ([x] + fb) == fa + [x] + fb;
  }

  lemma SplitAt<T>(s: seq<T>, i: nat)
    requires i < |s|
    ensures s == s[..i] + ([s[i]] + s[i + 1..])
  {
  }

  lemma FilterCons<T>(x: T, s: seq<T>, p: T -> bool)
    requires p(x)
    ensures Filter([x] + s, p) == [x] + Filter(s, p)
  {
    assert ([x] + s)[0] == x;
    assert ([x] + s)[1..] == s;
  }

  /** le is total and transitive: a key order `sort_by` can sort by. */
  ghost predicate TotalPreorder<T(!new)>(le: (T, T) -> bool) {
    && (forall a, b :: le(a, b) || le(b, a))
    && (forall a, b, c :: le(a, b) && le(b, c) ==> le(a, c))
  }

  predicate SortedBy<T>(s: seq<T>, le: (T, T) -> bool) {
    forall i, j :: 0 <= i < j < |s| ==> le(s[i], s[j])
  }

  function Insert<T(==,!new)>(x: T, s: seq<T>, le: (T, T) -> bool): (r: seq<T>)
    requires TotalPreorder(le) && SortedBy(s, le)
    ensures SortedBy(r, le)
    ensures multiset(r) == multiset(s) + multiset{x}
  {
    if s == [] then [x]
    else if le(x, s[0]) then
      assert forall k :: 0 < k < |s| ==> le(s[0], s[k]);
      [x] + s
    else
      var rest := Insert(x, s[1..], le);
      assert s == [s[0]] + s[1..];
      HeadBeforeRest(x, s, rest, le);
      [s[0]] + rest
  }

  lemma HeadBeforeRest<T(!new)>(x: T, s: seq<T>, rest: seq<T>, le: (T, T) -> bool)
    requires TotalPreorder(le) && SortedBy(s, le) && s != []
    requires !le(x, s[0]) && SortedBy(rest, le)
    requires multiset(rest) == multiset(s[1..]) + multiset{x}
    ensures SortedBy([s[0]] + rest, le)
  {
    forall k | 0 <= k < |rest|
      ensures le(s[0], rest[k])
    {
      assert rest[k] in multiset(rest);
      if rest[k] != x {
        assert rest[k] in multiset(s[1..]);
        var j :| 0 <= j < |s[1..]| && s[1..][j] == rest[k];
        assert le(s[0], s[j + 1]);
      }
    }
  }

  /** A permutation of s ordered by le (insertion sort; no stability is promised). */
  function SortBy<T(==,!new)>(s: seq<T>, le: (T, T) -> bool): (r: seq<T>)
    requires TotalPreorder(le)
    ensures SortedBy(r, le)
    ensures multiset(r) == multiset(s)
  {
    if s == [] then []
    else
      assert s == [s[0]] + s[1..];
      Insert(s[0], SortBy(s[1..], le), le)
  }

  /** Deleting the element at j removes one occurrence of it. */
  lemma MultisetRemove<T>(s: seq<T>, j: nat)
    requires j < |s|
    ensures multiset(s[..j] + s[j + 1..]) == multiset(s) - multiset{s[j]}
  {
    assert s == s[..j] + [s[j]] + s[j + 1..];
  }

  /** Ruby's `map`. */
  function Map<A, B>(s: seq<A>, f: A -> B): (r: seq<B>)
    ensures |r| == |s| && forall i :: 0 <= i < |s| ==> r[i] == f(s[i])
  {
    seq(|s|, i requires 0 <= i < |s| => f(s[i]))
  }

  lemma MapConcat<A, B>(a: seq<A>, b: seq<A>, f: A -> B)
    ensures Map(a + b, f) == Map(a, f) + Map(b, f)
  {
  }

  /** Deleting the element at j and then mapping loses one occurrence of its image. */
  lemma MapRemove<A, B>(y: seq<A>, j: nat, f: A -> B)
    requires j < |y|
    ensures multiset(Map(y, f)) == multiset(Map(y[..j] + y[j + 1..], f)) + multiset{f(y[j])}
  {
    var a, b := y[..j], y[j + 1..];
    assert y == a + [y[j]] + b;
    MapConcat(a + [y[j]], b, f);
    MapConcat(a, [y[j]], f);
    MapConcat(a, b, f);
  }

  /** Mapping two permutations of each other gives permutations of each other. */
  lemma {:induction false} MapPermutation<A, B>(x: seq<A>, y: seq<A>, f: A -> B)
    requires multiset(x) == multiset(y)
    ensures multiset(Map(x, f)) == multiset(Map(y, f))
    decreases |x|
  {
    if x == [] {
      assert |y| == |multiset(y)| == 0;
    } else {
      var j := MatchHead(x, y);
      MapPermutation(x[1..], y[..j] + y[j + 1..], f);
      MapPermutationStep(x, y, j, f);
    }
  }

  /** Where the head of x sits in a permutation y of it, and what is left. */
  lemma MatchHead<A>(x: seq<A>, y: seq<A>) returns (j: nat)
    requires x != [] && multiset(x) == multiset(y)
    ensures j < |y| && y[j] == x[0]
    ensures multiset(x[1..]) == multiset(y[..j] + y[j + 1..])
  {
    assert x[0] in multiset(y);
    j :| 0 <= j < |y| && y[j] == x[0];
    MultisetRemove(y, j);
    MultisetTail(x);
  }

  lemma MultisetTail<T>(x: seq<T>)
    requires x != []
    ensures multiset(x[1..]) == multiset(x) - multiset{x[0]}
  {
    assert x == [x[0]] + x[1..];
  }

  lemma MapPermutationStep<A, B>(x: seq<A>, y: seq<A>, j: nat, f: A -> B)
    requires x != [] && j < |y| && y[j] == x[0]
    requires multiset(Map(x[1..], f)) == multiset(Map(y[..j] + y[j + 1..], f))
    ensures multiset(Map(x, f)) == multiset(Map(y, f))
  {
    MapRemove(y, j, f);
    assert x == [x[0]] + x[1..];
    MapConcat([x[0]], x[1..], f);
    assert Map([x[0]], f) == [f(x[0])];
  }
}

=== FILE: text.dfy ===
/** The string primitives the application leans on, over ASCII: Ruby's
    `blank?`, `downcase`, `include?`, `strip`, `split`, `to_i`, and the
    decimal rendering used for interaction-map keys. Non-ASCII case folding
    and Unicode whitespace are outside this model. */
module Text {

  /** Ruby's `\s` (and the whitespace `strip` and `split` remove): space, \t, \n, \v, \f, \r. */
  predicate IsSpace(c: char) {
    c == ' ' || ('\t' <= c <= '\r')
  }

  /** Ruby's `blank?` on a string: empty or whitespace only (nil is modelled as ""). */
  predicate IsBlank(s: string) {
    forall i :: 0 <= i < |s| ==> IsSpace(s[i])
  }

  function LowerChar(c: char): char {
    if 'A' <= c <= 'Z' then (c as int + 32) as char else c
  }

  /** Ruby's `downcase`, on ASCII letters. */
  function Lower(s: string): (r: string)
    ensures |r| == |s|
    ensures forall i :: 0 <= i < |s| ==> r[i] == LowerChar(s[i])
  {
    seq(|s|, i requires 0 <= i < |s| => LowerChar(s[i]))
  }

  predicate OccursAt(s: string, w: string, p: nat) {
    p + |w| <= |s| && s[p..p + |w|] == w
  }

  /** Ruby's `include?` / an unanchored regex literal without metacharacters. */
  predicate Contains(s: string, w: string) {
    exists p: nat | p <= |s| :: OccursAt(s, w, p)
  }

  /** A word that occurs in the lower-cased text starts with a non-blank
      character, so the text is not blank. */
  lemma ContainsMeansNotBlank(s: string, w: string)
    requires w != [] && !IsSpace(w[0])
    requires Contains(Lower(s), w)
    ensures !IsBlank(s)
  {
    var p: nat :| p <= |s| && OccursAt(Lower(s), w, p);
    assert Lower(s)[p] == w[0];
  }

  /** Lower-casing twice is lower-casing once. */
  lemma LowerIdempotent(s: string)
    ensures Lower(Lower(s)) == Lower(s)
  {
  }

  /** Lower-casing commutes with concatenation. */
  lemma LowerConcat(a: string, b: string)
    ensures Lower(a + b) == Lower(a) + Lower(b)
  {
  }

  /** The first index at or after i that is not whitespace (or |s|). */
  function SkipSpaces(s: string, i: nat): (j: nat)
    requires i <= |s|
    ensures i <= j <= |s|
    ensures forall k :: i <= k < j ==> IsSpace(s[k])
    ensures j == |s| || !IsSpace(s[j])
    decreases |s| - i
  {
    if i < |s| && IsSpace(s[i]) then SkipSpaces(s, i + 1) else i
  }

  /** The end of s[..j] once trailing whitespace is dropped. */
  function TrimEnd(s: string, j: nat): (e: nat)
    requires j <= |s|
    ensures e <= j
    ensures forall k :: e <= k < j ==> IsSpace(s[k])
    ensures e == 0 || !IsSpace(s[e - 1])
  {
    if j > 0 && IsSpace(s[j - 1]) then TrimEnd(s, j - 1) else j
  }

  /** Ruby's `strip`. */
  function Strip(s: string): (r: string)
    ensures IsBlank(s) <==> r == []
    ensures r != [] ==> !IsSpace(r[0]) && !IsSpace(r[|r| - 1])
    ensures |r| <= |s|
  {
    var a := SkipSpaces(s, 0);
    var b := TrimEnd(s, |s|);
    if a < b then s[a..b] else []
  }

  /** A string that neither starts nor ends with whitespace is its own strip. */
  lemma StripKeeps(s: string)
    requires s != [] && !IsSpace(s[0]) && !IsSpace(s[|s| - 1])
    ensures Strip(s) == s
  {
  }

  predicate IsDigit(c: char) {
    '0' <= c <= '9'
  }

  predicate AllDigits(s: string) {
    forall i :: 0 <= i < |s| ==> IsDigit(s[i])
  }

  function DigitValue(c: char): nat
    requires IsDigit(c)
  {
    c as int - '0' as int
  }

  function DigitChar(d: nat): (c: char)
    requires d < 10
    ensures IsDigit(c) && DigitValue(c) == d
  {
    ('0' as int + d) as char
  }

  /** The number a string of decimal digits denotes (most significant first). */
  function DecimalValue(ds: string): nat
    requires AllDigits(ds)
  {
    if ds == [] then 0 else 10 * DecimalValue(ds[..|ds| - 1]) + DigitValue(ds[|ds| - 1])
  }

  /** Decimal rendering of a natural number, no leading zeros (Ruby `to_s`,
      Swift string interpolation, JavaScript `toString`). */
  function NatToString(n: nat): (r: string)
    ensures r != [] && AllDigits(r)
    ensures DecimalValue(r) == n
    ensures |r| == 1 <==> n < 10
  {
    if n < 10 then [DigitChar(n)]
    else
      var r := NatToString(n / 10) + [DigitChar(n % 10)];
      assert r[..|r| - 1] == NatToString(n / 10);
      r
  }

  function IntToString(i: int): (r: string)
    ensures r != []
  {
    if i < 0 then "-" + NatToString(-i) else NatToString(i)
  }

  /** The end of the run of decimal digits that starts at i. */
  function DigitRunEnd(s: string, i: nat): (j: nat)
    requires i <= |s|
    ensures i <= j <= |s|
    ensures AllDigits(s[i..j])
    ensures j == |s| || !IsDigit(s[j])
    decreases |s| - i
  {
    if i < |s| && IsDigit(s[i]) then DigitRunEnd(s, i + 1) else i
  }

  /** A digit run stops at the first non-digit. */
  lemma {:induction false} DigitRunStops(s: string, i: nat, k: nat)
    requires i <= k < |s| && !IsDigit(s[k])
    ensures DigitRunEnd(s, i) <= k
    decreases k - i
  {
    if i < k && IsDigit(s[i]) {
      DigitRunStops(s, i + 1, k);
    }
  }

  /** Ruby's `String#to_i`: leading whitespace, an optional sign, then the
      longest run of digits; 0 when there is none. */
  function ToI(s: string): int {
    var i := SkipSpaces(s, 0);
    var signed := i < |s| && (s[i] == '-' || s[i] == '+');
    var d := if signed then i + 1 else i;
    var e := DigitRunEnd(s, d);
    var v: int := DecimalValue(s[d..e]);
    if signed && s[i] == '-' then -v else v
  }

  /** `to_i` inverts the decimal rendering: an id turned into a key and back
      is the same id. */
  lemma ToIOfIntToString(n: int)
    ensures ToI(IntToString(n)) == n
  {
    var s := IntToString(n);
    assert SkipSpaces(s, 0) == 0;
    var d := if n < 0 then 1 else 0;
    assert s[d..] == NatToString(if n < 0 then -n else n);
    assert DigitRunEnd(s, d) == |s| by {
      AllDigitsRunToEnd(s, d);
    }
    assert s[d..|s|] == s[d..];
  }

  lemma AllDigitsRunToEnd(s: string, d: nat)
    requires d <= |s| && AllDigits(s[d..])
    ensures DigitRunEnd(s, d) == |s|
    decreases |s| - d
  {
    if d < |s| {
      assert IsDigit(s[d..][0]);
      assert s[d + 1..] == s[d..][1..];
      AllDigitsRunToEnd(s, d + 1);
    }
  }

  /** The rendering is injective, because `to_i` inverts it. */
  lemma IntToStringInjective(a: int, b: int)
    ensures IntToString(a) == IntToString(b) ==> a == b
  {
    ToIOfIntToString(a);
    ToIOfIntToString(b);
  }

  predicate IsWord(w: string) {
    w != [] && forall i :: 0 <= i < |w| ==> !IsSpace(w[i])
  }

  /** The first whitespace index at or after i (or |s|). */
  function WordEnd(s: string, i: nat): (j: nat)
    requires i <= |s|
    ensures i <= j <= |s|
    ensures forall k :: i <= k < j ==> !IsSpace(s[k])
    ensures j == |s| || IsSpace(s[j])
    decreases |s| - i
  {
    if i < |s| && !IsSpace(s[i]) then WordEnd(s, i + 1) else i
  }

  /** Ruby's `split` with no argument: the maximal runs of non-whitespace. */
  function Words(s: string): (r: seq<string>)
    ensures forall k :: 0 <= k < |r| ==> IsWord(r[k])
    decreases |s|
  {
    if s == [] then []
    else if IsSpace(s[0]) then Words(s[1..])
    else
      var b := WordEnd(s, 0);
      [s[..b]] + Words(s[b..])
  }

  /** Ruby's `join(sep)`. */
  function JoinWith(ws: seq<string>, sep: string): string {
    if ws == [] then ""
    else if |ws| == 1 then ws[0]
    else ws[0] + sep + JoinWith(ws[1..], sep)
  }

  /** Splitting words that were joined by single spaces gives them back. */
  lemma {:induction false} WordsOfJoin(ws: seq<string>)
    requires forall k :: 0 <= k < |ws| ==> IsWord(ws[k])
    ensures Words(JoinWith(ws, " ")) == ws
  {
    if ws == [] {
    } else if |ws| == 1 {
      var w := ws[0];
      assert !IsSpace(w[0]);
      assert WordEnd(w, 0) == |w|;
      assert w[..|w|] == w && w[|w|..] == [];
    } else {
      var w := ws[0];
      var rest := JoinWith(ws[1..], " ");
      var s := w + " " + rest;
      assert s == JoinWith(ws, " ");
      var b := WordEnd(s, 0);
      assert !IsSpace(s[0]);
      assert forall k :: 0 <= k < |w| ==> s[k] == w[k];
      assert IsSpace(s[|w|]);
      assert b == |w|;
      assert s[..b] == w;
      assert s[b..] == " " + rest;
      assert (" " + rest)[1..] == rest;
      WordsOfJoin(ws[1..]);
    }
  }
}

=== FILE: user_interactions.dfy ===
/** UserInteractionsController (app/controllers/user_interactions_controller.rb):
    a signed-in user's ratings and completions, as a map from activity id to
    the `user_interactions` row. `find_or_initialize_by` is the lookup that
    creates an empty row on first touch; saving is replacing the entry. */
module UserInteractions {
  import opened Wrappers
  import opened Text
  import opened Activities

  /** One `user_interactions` row: rating, the completions array (nil until
      first written) and `last_completed_at`. */
  datatype UserInteraction = UserInteraction(
    rating: Option<int>,
    completions: Option<seq<Instant>>,
    lastCompletedAt: Option<Instant>)

  type Rows = map<nat, UserInteraction>

  const NewRow: UserInteraction := UserInteraction(None, None, None)

  /** `find_or_initialize_by(activity_id: id)`. A new row's completions are
      nil here, though the column's default is []: every reader of the
      column (`|| []`, `&.map ... || []`) treats the two alike. */
  function FindOrInitialize(rows: Rows, id: nat): (r: UserInteraction)
    ensures id in rows ==> r == rows[id]
    ensures id !in rows ==> r.rating.None? && r.completions.None? && r.lastCompletedAt.None?
  {
    if id in rows then rows[id] else NewRow
  }

  /** `rate`: the rating is the parameter's `to_i` (so "abc" rates 0). */
  function Rate(rows: Rows, id: nat, ratingParam: string): (r: Rows)
    ensures r.Keys == rows.Keys + {id}
    ensures r[id].rating == Some(ToI(ratingParam))
    ensures r[id].completions == FindOrInitialize(rows, id).completions
    ensures r[id].lastCompletedAt == FindOrInitialize(rows, id).lastCompletedAt
    ensures forall k :: k in rows && k != id ==> r[k] == rows[k]
  {
    rows[id := FindOrInitialize(rows, id).(rating := Some(ToI(ratingParam)))]
  }

  /** `mark_done`: append now to the completions (started as [] when nil)
      and set `last_completed_at` to now. */
  function MarkDone(rows: Rows, id: nat, now: Instant): (r: Rows)
    ensures r.Keys == rows.Keys + {id}
    ensures r[id].completions == Some(FindOrInitialize(rows, id).completions.GetOr([]) + [now])
    ensures r[id].lastCompletedAt == Some(now)
    ensures r[id].rating == FindOrInitialize(rows, id).rating
    ensures forall k :: k in rows && k != id ==> r[k] == rows[k]
  {
    var row := FindOrInitialize(rows, id);
    rows[id := row.(completions := Some(row.completions.GetOr([]) + [now]), lastCompletedAt := Some(now))]
  }

  /** One imported entry. Each field is nil when the key is missing; the
      completions field is present only when it is a non-empty array. */
  datatype ImportData = ImportData(
    rating: Option<int>,
    completions: Option<seq<Instant>>,
    lastCompletedAt: Option<Instant>)

  /** `present?` of an imported completions array. */
  predicate CompletionsPresent(c: Option<seq<Instant>>) {
    c.Some? && c.value != []
  }

  /** The `interactions` parameter: a hash of entries, or anything else. */
  datatype ImportParam = NotAHash | Entries(entries: seq<(string, ImportData)>)

  datatype Status = Ok | BadRequest

  /** One entry of `import`: skipped when no activity has that id; otherwise
      each present field overwrites the row's (completions are replaced, not
      merged), and absent fields keep their value. */
  function ImportEntry(rows: Rows, key: string, data: ImportData, activityExists: int -> bool): (r: Rows)
    ensures !activityExists(ToI(key)) || ToI(key) < 0 ==> r == rows
    ensures activityExists(ToI(key)) && ToI(key) >= 0 ==>
              var id: nat := ToI(key);
              var prev := FindOrInitialize(rows, id);
              r.Keys == rows.Keys + {id}
              && r[id].rating == (if data.rating.Some? then data.rating else prev.rating)
              && r[id].completions == (if CompletionsPresent(data.completions) then data.completions else prev.completions)
              && r[id].lastCompletedAt == (if data.lastCompletedAt.Some? then data.lastCompletedAt else prev.lastCompletedAt)
              && forall k :: k in rows && k != id ==> r[k] == rows[k]
  {
    var n := ToI(key);
    if !activityExists(n) || n < 0 then rows
    else
      var id: nat := n;
      var row := FindOrInitialize(rows, id);
      var row1 := if data.rating.Some? then row.(rating := data.rating) else row;
      var row2 := if CompletionsPresent(data.completions) then row1.(completions := data.completions) else row1;
      var row3 := if data.lastCompletedAt.Some? then row2.(lastCompletedAt := data.lastCompletedAt) else row2;
      rows[id := row3]
  }

  function ImportAll(rows: Rows, entries: seq<(string, ImportData)>, activityExists: int -> bool): Rows
    decreases |entries|
  {
    if entries == [] then rows
    else ImportAll(ImportEntry(rows, entries[0].0, entries[0].1, activityExists), entries[1..], activityExists)
  }

  /** `import`: a non-hash parameter is a bad request and changes nothing. */
  function Import(rows: Rows, param: ImportParam, activityExists: int -> bool): (r: (Status, Rows))
    ensures param.NotAHash? ==> r == (BadRequest, rows)
    ensures param.Entries? ==> r.0 == Ok
  {
    match param
    case NotAHash => (BadRequest, rows)
    case Entries(es) => (Ok, ImportAll(rows, es, activityExists))
  }

  /** Only rows of mentioned, existing activities change: a row whose id no
      entry maps to an existing activity is left as it was. */
  lemma {:induction false} ImportLeavesOthers(rows: Rows, entries: seq<(string, ImportData)>, activityExists: int -> bool, id: nat)
    requires forall i :: 0 <= i < |entries| ==> ToI(entries[i].0) != id || !activityExists(id)
    ensures id in ImportAll(rows, entries, activityExists) <==> id in rows
    ensures id in rows ==> ImportAll(rows, entries, activityExists)[id] == rows[id]
    decreases |entries|
  {
    if entries != [] {
      var rows' := ImportEntry(rows, entries[0].0, entries[0].1, activityExists);
      assert id in rows' <==> id in rows;
      assert id in rows ==> rows'[id] == rows[id];
      ImportLeavesOthers(rows', entries[1..], activityExists, id);
    }
  }

  /** The import reads `last_completed_at`: an entry that only carries the
      browser's `lastCompleted` key arrives with that field nil and leaves
      the row's completion time as it was. */
  lemma ImportIgnoresBrowserKey(rows: Rows, id: nat, rating: int, activityExists: int -> bool)
    requires activityExists(id)
    ensures var r := ImportEntry(rows, IntToString(id), ImportData(Some(rating), None, None), activityExists);
            id in r && r[id].lastCompletedAt == FindOrInitialize(rows, id).lastCompletedAt
            && r[id].rating == Some(rating)
  {
    ToIOfIntToString(id);
  }
}

=== FILE: weather_service.dfy ===
/** WeatherService (app/services/weather_service.rb), the part that decides
    how weather shapes the feed: count the forecast hours whose chance of rain
    is above 60%, and map that count to one of three strategies. Fetching,
    caching and decoding the forecast are outside this model. */
module WeatherService {

  const RainProbabilityThreshold: int := 60   // percent
  const SignificantRainHours: int := 3

  datatype Strategy = HideOutdoor | DeprioritizeOutdoor | Normal

  /** One hour of the parsed forecast; only the chance of rain matters here. */
  datatype HourForecast = HourForecast(precipProbability: int)

  /** The fields of the response that feed the strategy. */
  datatype WeatherResponse = WeatherResponse(condition: string, forecast: seq<HourForecast>, strategy: Strategy)

  predicate Rainy(h: HourForecast) {
    h.precipProbability > RainProbabilityThreshold
  }

  /** How many hours count as rainy. */
  function RainyHours(f: seq<HourForecast>): (r: nat)
    ensures r <= |f|
    ensures r == 0 <==> forall i :: 0 <= i < |f| ==> !Rainy(f[i])
    ensures r == |f| <==> forall i :: 0 <= i < |f| ==> Rainy(f[i])
  {
    if f == [] then 0
    else
      var rest := RainyHours(f[1..]);
      assert forall i :: 1 <= i < |f| ==> f[i] == f[1..][i - 1];
      (if Rainy(f[0]) then 1 else 0) + rest
  }

  /** Counting is additive over a split of the forecast. */
  lemma {:induction false} RainyHoursAppend(f: seq<HourForecast>, g: seq<HourForecast>)
    ensures RainyHours(f + g) == RainyHours(f) + RainyHours(g)
    decreases |f|
  {
    if f == [] {
      assert f + g == g;
    } else {
      assert (f + g)[0] == f[0];
      assert (f + g)[1..] == f[1..] + g;
      RainyHoursAppend(f[1..], g);
    }
  }

  /** The three-way threshold on the rainy-hour count. */
  function Classify(rainy: nat): Strategy {
    if rainy > SignificantRainHours then HideOutdoor
    else if rainy > 0 then DeprioritizeOutdoor
    else Normal
  }

  /** `analyze_rain_forecast` (a nil forecast is modelled as the empty one). */
  function AnalyzeRainForecast(f: seq<HourForecast>): (r: Strategy)
    ensures f == [] ==> r == Normal
    ensures r == HideOutdoor <==> RainyHours(f) > 3
    ensures r == DeprioritizeOutdoor <==> 1 <= RainyHours(f) <= 3
    ensures r == Normal <==> forall i :: 0 <= i < |f| ==> f[i].precipProbability <= 60
  {
    if f == [] then Normal else Classify(RainyHours(f))
  }

  /** An hour at exactly 60% is not rainy; one at 61% is. */
  lemma ThresholdIsStrict()
    ensures AnalyzeRainForecast([HourForecast(60)]) == Normal
    ensures AnalyzeRainForecast([HourForecast(61)]) == DeprioritizeOutdoor
    ensures AnalyzeRainForecast([HourForecast(61), HourForecast(70), HourForecast(90), HourForecast(100)]) == HideOutdoor
  {
    assert [HourForecast(61)][1..] == [];
  }

  /** How severe a strategy is. */
  function Severity(s: Strategy): (r: nat)
    ensures r <= 2
    ensures (r == 0) == (s == Normal) && (r == 2) == (s == HideOutdoor)
  {
    match s
    case Normal => 0
    case DeprioritizeOutdoor => 1
    case HideOutdoor => 2
  }

  /** More rainy hours never make the strategy milder. */
  lemma ClassifyMonotone(a: nat, b: nat)
    requires a <= b
    ensures Severity(Classify(a)) <= Severity(Classify(b))
  {
  }

  /** Extending the forecast with more hours never makes the strategy milder. */
  lemma AnalyzeMonotone(f: seq<HourForecast>, g: seq<HourForecast>)
    ensures Severity(AnalyzeRainForecast(f)) <= Severity(AnalyzeRainForecast(f + g))
  {
    RainyHoursAppend(f, g);
    if f != [] {
      ClassifyMonotone(RainyHours(f), RainyHours(f + g));
    }
  }

  /** `default_weather_response`: unknown conditions, no forecast, normal strategy. */
  function DefaultWeatherResponse(): (r: WeatherResponse)
    ensures r.forecast == [] && r.strategy == Normal
  {
    WeatherResponse("Unknown", [], Normal)
  }

  /** When the forecast cannot be fetched, the fallback response classifies
      as normal weather, the strategy it already carries. */
  lemma DefaultIsNormal()
    ensures AnalyzeRainForecast(DefaultWeatherResponse().forecast) == DefaultWeatherResponse().strategy
  {
  }
}

=== FILE: wrappers.dfy ===
/** Option and Result: Ruby's nil / Swift's Optional / JavaScript's null, and
    operations that either produce a value or fail with an error. */
module Wrappers {

  datatype Option<+T> = None | Some(value: T) {

    /** The value, or `default` when absent (Ruby's `x || default`). */
    function GetOr(default: T): T {
      match this
      case Some(v) => v
      case None => default
    }
  }

  datatype Result<+R, +E> = Success(value: R) | Failure(error: E)
}
